=== FILE: README.md ===
# Maze runner: a Dafny model

This project models the core of Maze_Runner_Extension. That program is a
micromouse-style runner. It explores an unknown grid maze until it stands on
the goal, and it records the walls it senses in a "mind" maze. It then walls
off every cell it never visited and runs Dijkstra's algorithm on the result
to report a final path.

The modules follow the source files:

- `RunnerState` (runner.dfy) covers runner.py: the runner record, turns, forward steps and the replay of action strings.
- `MazeGrid` (maze.dfy) covers the wall store of maze.py:
  - the two segment sets and the per-cell flag lists;
  - `add_*_wall`, `get_walls`, `sense_walls`, `go_straight` and `free_nodes`;
  - the wall-learning half of `update_maze`.
- `Reach` (reach.dfy) is the reference the searches are measured against: open steps, walks, and breadth-first balls and layers.
- `FloodFill` (floodfill.dfy) covers `flood_fill`.
- `Exploration` (exploration.dfy) covers `get_open_neighbors`, `move` and `explore`.
- `Dijkstra` (dijkstra.dfy) covers `dijkstra`.
- `ShortestPath` (shortestpath.dfy) covers the sealing and path assembly of `shortest_path`, with a corrected variant and a concrete counterexample.
- `MazeReader` (parser.dfy) covers `maze_reader` of maze_runner.py, working on the already stripped lines.
- `Wrappers` (wrappers.dfy) holds `Option` and `Result`.

How the source's types map to the model:

- Runner dictionaries become `Runner` records, and `(x, y)` tuples become `Cell`s, with y growing north.
- The maze's segment sets are `set<(int, int)>`:
  - a horizontal key is `(x, line)`;
  - a vertical key is `(line, y)`.
- `all_walls` is a `map<Cell, WallFlags>`.
- Flood values are `real`s.
- `float("inf")` is the `Inf` case of `Dijkstra.Dist`.
- Exceptions become `Result` failures:
  - `MoveError.Blocked` for `go_straight`'s `ValueError`;
  - `ExploreError`;
  - `PathError`;
  - `ReadError`, one case per `ValueError` of `maze_reader`.

In these places the model follows what the code does:

- `move` breaks flood-value ties in left, ahead, right order. That is the order of the `free_nodes` list that Python's `min` scans. It is not compass order.
- At a dead end `move` turns left twice and still calls `go_straight`. It therefore steps back the way it came, or fails when that side is walled. It does not stay put.
- `add_horizontal_wall` and `add_vertical_wall` change only the segment sets, never `all_walls`. The maze that `maze_reader` builds therefore has boundary flags only.
- The mind maze's first flood fill adds no heuristic. A fresh `Maze` has the default render settings, which are handed over only at the end of `update_maze`.

## Model

| member | source | states |
|---|---|---|
| RunnerState.CreateRunner | runner.py:2-3 | the runner stands on the given cell with the given facing, N by default |
| RunnerState.IndexOf | runner.py:28-30 | `orientations.index` gives the position of the facing in the N, E, S, W list |
| RunnerState.OrientationOptions | runner.py:27-33 | the options are [anticlockwise neighbour, current, clockwise neighbour]; N's previous is W through index -1 |
| RunnerState.Turn | runner.py:18-24 | "Left" and "Right" rotate the facing a quarter turn; x and y never change; any other string leaves the runner as it was |
| RunnerState.Forward | runner.py:36-46 | the runner moves exactly one cell towards its facing and keeps the facing |
| RunnerState.LeftRightInverse | runner.py:18-33 | a left turn and a right turn undo each other in either order |
| RunnerState.FourLeftsAreIdentity | runner.py:18-33 | four left turns give back the same runner |
| RunnerState.ThreeLeftsAreOneRight | runner.py:18-33 | three left turns equal one right turn, which justifies the "LLL" to "R" rewrite in `move` |
| RunnerState.TurnAroundUndoesForward | runner.py:18-46 | two left turns face backwards, so step, turn around, step returns to the start cell |
| RunnerState.CollapseTurns | maze.py:211-212 | the rewritten string is no longer and contains no "LLL"; a leading L or LL comes from the original |
| RunnerState.CollapseKeepsMeaning | maze.py:211-212 | rewriting "LLL" as "R" never changes where replaying the actions leaves the runner |
| MazeGrid.NewMaze | maze.py:15-59 | the fresh maze has exactly the boundary segments, flags for exactly the grid cells, and a flag set exactly on the sides that face out of the grid |
| MazeGrid.BoundaryFlagsFaceOut | maze.py:43-55 | the constructor's flag rule (x == 0 gives west, and so on) sets exactly the sides whose neighbour is off the grid |
| MazeGrid.AddHorizontalWall | maze.py:96-98 | only an interior line within the width is recorded, only in the horizontal set, and nothing else changes |
| MazeGrid.AddVerticalWall | maze.py:100-102 | records `(line, y)` only for an interior line within the height, only in the vertical set, and nothing else changes |
| MazeGrid.AddWallIdempotent | maze.py:96-102 | adding the same segment twice is the same as adding it once |
| MazeGrid.HorizontalWallSeen | maze.py:96-112 | after `add_horizontal_wall`, `get_walls` reports an interior segment as the south side of the cell above and the north side of the cell below, and every other side reads as before |
| MazeGrid.VerticalWallSeen | maze.py:100-112 | after `add_vertical_wall`, `get_walls` reports an interior segment as the west side of the cell to its right and the east side of the cell to its left, and every other side reads as before |
| MazeGrid.SharedSegments | maze.py:104-112 | `get_walls` reports side d of a cell and the opposite side of its neighbour from the same segment |
| MazeGrid.BoundaryKeepsInGrid | maze.py:104-112 | with the boundary segments present, an open side of a grid cell leads to a grid cell |
| MazeGrid.NewMazeConsistent | maze.py:15-59 | in a fresh maze the flag lists and the segment sets agree on every side of every cell |
| MazeGrid.SenseWalls | maze.py:114-130 | the three readings are the walls on the runner's left, ahead and right, in that order |
| MazeGrid.GoStraight | maze.py:132-137 | succeeds exactly when no wall is ahead, then moves one cell ahead with the same facing; stays in a bounded grid |
| MazeGrid.FreeNodes | maze.py:441-458 | lists the neighbour on each of left, ahead and right exactly when that side has no wall, and nothing else |
| MazeGrid.RecordWallFlags | maze.py:479-568 | recording a side sets that flag on the cell and the opposite flag on the neighbour when it is a grid cell (the caught `KeyError`), and changes no other flag |
| MazeGrid.AddSideSegmentEffect | maze.py:479-568 | in a bounded maze, adding the segment of side d walls exactly that side, seen from both cells |
| MazeGrid.UpdateKnownUnchanged | maze.py:461-568 | recording walls that a consistent maze already holds gives back the same maze |
| MazeGrid.UpdateMaze | maze.py:461-568 | the flags and the walls gain exactly the sensed walls, mirrored onto the neighbour; nothing is removed; the two stores stay in agreement |
| Reach.EdgeStepSymmetric | maze.py:104-112 | an open step through the segment sets can be taken back |
| Reach.EdgesStayInGrid | maze.py:35-41 | with the boundary segments, no open side of a grid cell leaves the grid |
| Reach.FlagsStayInGrid | maze.py:43-55 | with well-formed flags, no open flag of a grid cell leaves the grid |
| Reach.BallFromLayer | maze.py:160-173 | the next breadth-first ball adds exactly the open neighbours of the newest layer |
| Reach.BallSaturates | maze.py:160-173 | once a layer adds nothing, every later ball is the same |
| Reach.BallIsWalkEnds | maze.py:160-173 | the ball of radius k holds exactly the ends of walks with at most k steps |
| Reach.LayerIsHopDistance | maze.py:160-173 | layer k holds exactly the cells whose shortest walk takes k steps |
| FloodFill.VisitSide | maze.py:164-170 | a neighbour behind an open flag that has no value yet gets the current fill value and joins the next queue; no other value changes |
| FloodFill.VisitNeighbors | maze.py:162-170 | the field gains exactly the open neighbours of the queued cell; old values are kept; the next queue gains exactly the new cells |
| FloodFill.FillLayer | maze.py:160-173 | one pass adds exactly the open neighbours of the queue, and the new queue is exactly the cells added |
| FloodFill.LayerStep | maze.py:160-173 | if the field was the ball of radius k - 1 and the queue its outer layer, one pass gives the ball of radius k and queues layer k |
| FloodFill.FloodPass | maze.py:160-173 | one pass keeps the breadth-first state and fills a new cell whenever it queues one, which bounds the loop |
| FloodFill.FloodEnd | maze.py:160-174 | when the queue runs dry the keys are exactly the reachable cells, each valued with the fill value of its layer |
| FloodFill.FloodFill | maze.py:153-174 | the keys are exactly the grid cells reachable from the goal through open flags; a cell k steps away holds k, plus its heuristic when one is in use |
| Exploration.Sensed | maze.py:139-146 | recording what the runner senses in the truth keeps the mind below the truth and makes it agree on the sensed sides |
| Exploration.SensedStaysBelow | maze.py:461-568 | `update_maze` fed by `sense_walls` of the truth never records a wall the truth lacks |
| Exploration.SensedSidesAgree | maze.py:461-568 | after recording, the mind agrees with the truth on the three sensed sides |
| Exploration.KnownStaysKnown | maze.py:461-568 | a side the mind once agreed on stays agreed on, since walls are only added and never invented |
| Exploration.GetOpenNeighbors | maze.py:139-151 | returns `free_nodes` of the truth; the new mind is exactly the old one (or a fresh maze) with the sensed walls recorded, so it grows, stays below the truth and agrees on the sensed sides; the flood keys are exactly the cells reachable from the goal in it, and a cell in layer k holds k plus its heuristic when one is in use |
| Exploration.FreeNodesRanked | maze.py:441-458 | `free_nodes` lists left before ahead before right |
| Exploration.WithFlood | maze.py:185-187 | keeps exactly the neighbours that have a flood value, in their order |
| Exploration.FirstMin | maze.py:193 | `min` returns a smallest value, and every earlier entry is strictly larger |
| Exploration.FirstMinBySide | maze.py:185-193 | the first minimum is cheapest among the candidates, and every candidate on an earlier side is strictly dearer |
| Exploration.TurnToward | maze.py:195-205 | the turning loop faces the target using left turns only, writes one L per turn, and replaying its string gives the same runner |
| Exploration.HeadingOfStep | maze.py:195-199 | the step-to-facing table recovers the facing of every one-cell step |
| Exploration.SideTurns | maze.py:195-212 | the left cell costs "L", the cell ahead "", and the right cell "R" after the rewrite |
| Exploration.FaceCheapest | maze.py:192-205 | faces the cheapest candidate across an open side and writes the turns that replay to it |
| Exploration.Face | maze.py:190-212 | with a candidate it faces the first cheapest one; without one it turns around with "LL" |
| Exploration.Decide | maze.py:176-212 | the part of `move` before the step: the cell is marked visited, the mind is exactly the old one with the sensed walls recorded, the flood values are its flood fill, and the runner turns in place to face the first cheapest candidate with the turns that replay to it, or turns around with "LL" when there is none |
| Exploration.StepForward | maze.py:213-214 | appending "F" and calling `go_straight` succeeds exactly when the faced side of the truth is open; then the runner stands one cell on across that side, and the whole action replays to it |
| Exploration.Move | maze.py:176-220 | marks the cell visited; the mind is exactly the old one with the sensed walls recorded, and the flood values are its flood fill from the goal; with a candidate it steps to the first cheapest one with the turns that face it plus "F"; without one it turns around, writes "LLF", and fails exactly when the side behind is walled; a success crosses an open side of the truth, marks the new cell, replays its action to the new runner, and the action is one of "F", "LF", "RF", "LLF" |
| Exploration.StepChoice | maze.py:190-217 | facing the choice and stepping forward reaches the first cheapest candidate, or goes back with "LLF" when there is none, and the action is one of the four |
| Exploration.MoveActions | maze.py:190-212 | a cheapest candidate lies on the left, ahead or right, so its action is "LF", "F" or "RF"; a dead end gives "LLF" |
| Exploration.ExploreStart | maze.py:287-291 | before the first move the invariant holds: empty trace, runner created on the start facing N, nothing visited |
| Exploration.TraceStep | maze.py:294-297 | one successful move appends its numbered row and keeps the walk, replay and visited-set invariant |
| Exploration.ObservedStep | maze.py:294-297 | one move records every side of the cell it leaves, except the start's south side, and keeps what was recorded before |
| Exploration.RecordedStep | maze.py:139-146 | sensing from the runner before a move extends the record of sensed walls by that move's row |
| Exploration.ExploreStep | maze.py:294-297 | one pass of the loop either fails only where `move` raises (no sensed-open neighbour is reachable in the recorded mind and the side behind is walled) or appends exactly the row (number, cell left, action) of a `move` that did what `Move` promises, keeping the invariants |
| Exploration.Explore | maze.py:287-307 | start equal to goal returns 0 steps and no mind; every trace row is one `move` (`Moved`) from the explorer and runner the earlier rows left, taken off the goal and recording the cell it left; on success the runner is on the goal, which no row records (the loop stops at the first arrival), `num` is the number of rows, the trace walks the truth, the actions replay, visited is the trail plus the goal, and the mind is exactly what sensing before each move recorded; `Stuck` means `move` raises at the state reached; `OutOfFuel` means `fuel` rows were taken without reaching the goal |
| Exploration.RunStep | maze.py:294-297 | one pass of the loop off the goal either raises exactly as `move` does or extends the run by one `move` row numbered after the earlier ones |
| Exploration.RunAvoidsGoal | maze.py:294-297 | no row of a run records the goal |
| Exploration.MovedUnique | maze.py:176-220 | `move` is deterministic: from one explorer and runner it leaves one explorer, one runner and one action |
| Exploration.CheapestUnique | maze.py:193 | the candidate `min` picks is unique |
| Exploration.FloodedUnique | maze.py:153-174 | the flood values of a mind are determined: two maps that hold the fill value of each reachable cell's layer are equal |
| Exploration.ArrivalUnique | maze.py:287-307 | two runs from the same maze, heuristic, start and goal that both end on the goal are identical, so `explore`'s trace is a function of its inputs |
| ShortestPath.SealCellEffect | maze.py:322-328 | sealing a grid cell walls exactly its four sides, seen from it and from its neighbours |
| ShortestPath.SealEffect | maze.py:320-328 | after the loop a side is a wall exactly when it was one or it borders a listed unvisited cell |
| ShortestPath.SealedWalls | maze.py:318-328 | the sealed mind has the mind's walls plus every side of every unvisited grid cell |
| ShortestPath.SealedWalkStaysVisited | maze.py:318-331 | a walk of the sealed maze from a visited grid cell never leaves the visited cells |
| ShortestPath.VisitedWalkIsSealedWalk | maze.py:318-331 | a walk through the truth on visited cells is also a walk of the sealed mind |
| ShortestPath.Score | maze.py:336-339 | the score exceeds the path length by exactly a quarter of the step count |
| ShortestPath.TrailInSealed | maze.py:309-331 | the trace's walk to the goal survives sealing, so the goal is reachable in the sealed mind |
| ShortestPath.Finish | maze.py:314-339 | the sealed maze is the given mind with every unvisited cell walled off; the final path is the start followed by a walk of it to the goal; it is on visited cells, no walk undercuts it, it is no longer than the trace's walk, and the counts and score match |
| ShortestPath.ShortestPath | maze.py:309-339 | no mind maze exactly when start equals goal; an exploration failure passes on `explore`'s reason; on success the trace is the run `explore` makes, its actions replay to a runner on the goal and no row records the goal; then the mind is exactly what exploration's sensing recorded along the trace, the sealed maze is that mind with every unvisited cell walled off, and the final path is a shortest walk of the sealed maze on visited cells, with the counts and score of `Finish` |
| ShortestPath.LookBack | maze.py:309-331 | (correction) sensing at the start facing S keeps the mind below the truth and learns the start's south side |
| ShortestPath.LookBackCompletes | maze.py:287-331 | (correction) with the start's back side learned, every side of every trace cell is known |
| ShortestPath.SealedWalkIsTrue | maze.py:318-331 | (correction) with every trace side known, a sealed walk on visited cells is a walk through the truth |
| ShortestPath.FinishLookingBack | maze.py:314-339 | (correction) the guarantees of `Finish` for the mind after looking back at the start, and the final path walks open sides of the truth |
| ShortestPath.ShortestPathLookingBack | maze.py:309-339 | (correction) failures and the trace as in `ShortestPath`; the mind is exploration's record plus what the runner senses at the start facing S; the sealed maze is that mind with every unvisited cell walled off; the final path is a shortest walk of it on visited cells, and it walks open sides of the truth |
| ShortestPath.CrossesUnsensedWall | maze.py:318-338 | when start and goal are neighbours and the sealed mind leaves open the side the truth walls, the final path is that single step through the wall |
| ShortestPath.ExploreLeft | maze.py:176-220 | a `move` from a cell where only the left side is open, and where the truth shows nothing the mind lacks, writes "LF", turns left and steps, and leaves the mind as it was |
| ShortestPath.ExploreLeftWalk | maze.py:287-297 | `explore`'s loop along a run of such left turns writes one "LF" row per runner left, ends on the last runner with the open mind, and has visited every runner's cell |
| ShortestPath.CornerRun | maze.py:287-307 | `explore` on the counterexample writes the three rows (1, 1, 1, "LF"), (2, 0, 1, "LF"), (3, 0, 0, "LF"), stops on the goal facing E, keeps the open 2 by 2 mind and visits every cell |
| ShortestPath.AsWrittenCrossesWall | maze.py:287-338 | `explore` on the counterexample gives the three-row "LF" trace and the open 2 by 2 mind, and `shortest_path` then reports the path [(1,1), (1,0)], which is not a walk of the truth |
| ShortestPath.CorrectedKeepsToTruth | maze.py:309-338 | on the same run the corrected version reports a walk of the truth, so it is not that path |
| Dijkstra.Initialize | maze.py:223-233 | before the first round every grid cell is queued exactly once; the distance is 0 at the start and infinite at every other cell; every link is empty; and these tables already meet the loop's invariant |
| Dijkstra.AllCells | maze.py:227 | the cell list holds each grid cell exactly once |
| Dijkstra.FirstMinDist | maze.py:239 | `min` over the queue picks a least distance, and every earlier entry is strictly larger |
| Dijkstra.RemoveFirst | maze.py:240 | `queue.remove` drops one occurrence when the element is listed, and changes nothing otherwise |
| Dijkstra.DijkstraNeighbors | maze.py:242-247 | the two `free_nodes` probes, facing N and then W, list exactly the open neighbours of the cell |
| Dijkstra.RelaxEdge | maze.py:248-252 | a neighbour's distance changes only when dist[u] + 1 is strictly smaller, and then its link becomes u |
| Dijkstra.Relax | maze.py:244-252 | after a round every open neighbour of u is at most dist[u] + 1, and no distance rises |
| Dijkstra.NextRound | maze.py:238-252 | the cell taken from the queue already holds its hop distance, and the queue shrinks |
| Dijkstra.SettleAll | maze.py:223-253 | when the queue is empty every grid cell holds its hop distance from the start, so its distance is finite exactly when a walk reaches it |
| Dijkstra.Reconstruct | maze.py:255-267 | the path is empty exactly when the goal is the start or unreached; otherwise it continues the start into a walk to the goal with exactly dist[goal] steps |
| Dijkstra.ShortestFromTable | maze.py:222-267 | a finite hop distance means the goal is reachable, and no walk to it is shorter |
| Dijkstra.Dijkstra | maze.py:222-268 | empty when start equals goal; otherwise non-empty exactly when the goal is reachable; a non-empty path is a walk from the start to the goal that no walk undercuts |
| MazeReader.LineLengthsSingle | maze_runner.py:19-21 | the set of line lengths has exactly one element exactly when there is a line and all lines are equally long |
| MazeReader.FirstBadChar | maze_runner.py:36-38 | finds the first character that is not '#' or '.', or none when there is none |
| MazeReader.FirstLineError | maze_runner.py:29-38 | no error exactly when every line is framed and clean; otherwise the first failing line is reported, a shape error before a character error, and a character error names the first bad character of a line that passed its shape check |
| MazeReader.HorizontalWalls | maze_runner.py:42-59 | succeeds exactly when the line exists and every intersection is '#' on all height + 1 even lines; a missing line is `Malformed`; a bad intersection is reported at its first occurrence; the '#' marks add exactly the interior segments (x, height - y) |
| MazeReader.VerticalWalls | maze_runner.py:52-57 | every '#' at index 2x of line 2y + 1 adds exactly the interior segment at column x and row height - y - 1 |
| MazeReader.ReadMaze | maze_runner.py:9-61 | unequal lengths, or no line, give `MissingLine`; a non-'#' outer line gives `OpenBoundary`; a bad shape names the first failing line; a bad character names the first bad position of the first failing line, which is framed; an even line length fails at line 0; an even line count gives `Malformed`; success happens exactly on well-formed text, and then width = line length / 2, height = line count / 2, and the walls are the drawn segments |
| MazeReader.ExtractedIsDrawn | maze_runner.py:40-57 | on accepted text the maze's segments are exactly the '#' segments of the text, boundary included |
| MazeReader.ExtractedUnique | maze_runner.py:40-57 | the lines determine the extracted maze |
| MazeReader.DrawWellFormed | maze_runner.py:19-48 | the drawing of a maze passes every check of the reader |
| MazeReader.DrawExtracts | maze_runner.py:40-57 | reading the drawing gives back exactly the drawn walls |
| MazeReader.ReadDrawn | maze_runner.py:9-61 | round trip: reading the drawing of a boundary-closed maze returns that maze |
| MazeReader.ExtractedRedraws | maze_runner.py:40-57 | every accepted maze can be drawn, and its drawing matches the input everywhere except at cell centres, which the reader ignores |

## Left out

- Rendering, file output and progress display are left out because they are I/O: `render`, `build_files`, `alive_bar`, `gc.collect`, the prints, `run_id` and video_maker.py.
- `euclidian_calc` and `hope_mode` are left out. They use floating point square roots and randomness, so the heuristic is a given map from cells to reals.
- Flood values and the score are reals. Float rounding is not modelled.
- The file reading and `strip()` of `maze_reader` are left out as I/O. `MazeReader.ReadMaze` takes the stripped lines.
- maze_runner.py's `__main__` is left out: argument parsing and profiling.
- The `Maze(width)` and `Maze()` defaults of `update_maze` are left out. The explorer always passes both sizes.
- Exploration.Explore: takes a `fuel` bound on the number of `move` calls and fails with `OutOfFuel` when it runs out, because the source's loop need not end. On a maze that traps the runner, the source can also loop forever, which the model does not capture.
- Exploration.Explore: requires the start and the goal to lie in the grid. The source does not check this; an off-grid goal is never reached.
- ShortestPath.ShortestPath: requires the start and the goal to lie in the grid, for the same reason.
- Dijkstra.Dijkstra: requires the goal to lie in the grid, since the source's `prev[goal]` raises `KeyError` otherwise. An off-grid start returns the empty path, as the source does.
- The trace has no header row. The source's `exploration_data` starts with the row Step, x-coordinate, y-coordinate, Actions, so there `num` is one less than the list's length; in the model `num` equals the number of rows.
- `set_all_walls` and the attribute getters are left out. They are plain accessors.

## Findings

| source | as written | input that shows it | evidently intended | confidence | as-written member | corrected member |
|---|---|---|---|---|---|---|
| maze.py:287-338 | `explore` creates the runner facing N, and each `move` senses only left, ahead and right. The first move therefore does not sense the start's south side, and no move senses from the goal, so that side stays unknown unless a later move happens to sense it. `shortest_path` seals only unvisited cells and runs `dijkstra` on that mind maze. | A 2 by 2 maze whose one interior wall separates (1,1) from (1,0); start (1,1), goal (1,0). The runner goes L F three times: (1,1) to (0,1) to (0,0) to (1,0). It visits every cell and senses only boundary walls, so nothing is sealed. The final path is [(1,1), (1,0)], straight through the wall. | The final path should be a walk through open sides of the maze that was explored. | not executed | ShortestPath.AsWrittenCrossesWall | ShortestPath.ShortestPathLookingBack |

The corrected `ShortestPath.ShortestPathLookingBack` adds one step before sealing: the mind senses at the start while facing S, which covers the start's east, south and west sides. The model proves that the final path is then a walk of the true maze (`ShortestPath.FinishLookingBack`). `ShortestPath.CorrectedKeepsToTruth` shows this on the same run.

=== FILE: dijkstra.dfy ===
/**
 * `Maze.dijkstra` of maze.py: every grid cell starts at distance infinity
 * (the start at 0) in a queue listed column by column; the cell with the
 * smallest distance, the earliest on a tie, leaves the queue and relaxes the
 * neighbours that `free_nodes` reports (facing north, then the new ones
 * facing west); finally the `prev` links are followed back from the goal.
 * Every edge costs one, so the finished table holds hop distances.
 */
module Dijkstra {
  import opened Wrappers
  import opened RunnerState
  import opened MazeGrid
  import opened Reach

  /** A distance of the table: a hop count, or `float("inf")`. */
  datatype Dist = Inf | Fin(n: nat) {

    /** `dist[u] + 1`, where infinity plus one stays infinite. */
    function Plus1(): Dist {
      if Fin? then Fin(n + 1) else Inf
    }

    /** `<` on distances. */
    predicate Below(other: Dist) {
      Fin? && (other.Inf? || n < other.n)
    }

    /** `<=` on distances. */
    predicate AtMost(other: Dist) {
      other.Inf? || (Fin? && n <= other.n)
    }
  }

  predicate Distinct<T(==)>(q: seq<T>) {
    forall i, j :: 0 <= i < j < |q| ==> q[i] != q[j]
  }

  lemma DistinctConcat<T>(a: seq<T>, b: seq<T>)
    requires Distinct(a) && Distinct(b)
    requires forall x :: x in a ==> x !in b
    ensures Distinct(a + b)
  {
    forall i, j | 0 <= i < j < |a + b|
      ensures (a + b)[i] != (a + b)[j]
    {
      if i < |a| && j >= |a| {
        assert (a + b)[i] in a && (a + b)[j] in b;
      }
    }
  }

  /** One column of the cell list: `(x, 0), ..., (x, height - 1)`. */
  function Column(x: int, height: nat): (col: seq<Cell>)
    ensures Distinct(col) && forall c :: c in col <==> c.x == x && 0 <= c.y < height
  {
    var col := seq(height, y => Cell(x, y));
    assert forall c: Cell :: c.x == x && 0 <= c.y < height ==> col[c.y] == c;
    col
  }

  /** The list `dijkstra` starts from: each grid cell once, column by column. */
  function AllCells(width: nat, height: nat): (cells: seq<Cell>)
    ensures forall c :: c in cells <==> 0 <= c.x < width && 0 <= c.y < height
    ensures Distinct(cells) && |cells| == width * height
  {
    if width == 0 then []
    else
      var rest := AllCells(width - 1, height);
      var col := Column(width - 1, height);
      DistinctConcat(rest, col);
      rest + col
  }

  /**
   * The queue entry `min` picks by distance: the position of the smallest
   * distance, where a later equal distance never displaces an earlier one.
   */
  function FirstMinDist(q: seq<Cell>, dist: map<Cell, Dist>): (k: nat)
    requires |q| > 0 && forall c :: c in q ==> c in dist
    ensures k < |q|
    ensures forall j :: 0 <= j < |q| ==> dist[q[k]].AtMost(dist[q[j]])
    ensures forall j :: 0 <= j < k ==> dist[q[k]].Below(dist[q[j]])
    decreases |q|
  {
    if |q| == 1 then 0
    else
      var front := q[..|q| - 1];
      var k := FirstMinDist(front, dist);
      assert forall j :: 0 <= j < |front| ==> front[j] == q[j];
      if dist[q[|q| - 1]].Below(dist[q[k]]) then |q| - 1 else k
  }

  /** `queue.remove(x)`: the first occurrence of `x` goes, the rest keep their order. */
  function RemoveFirst<T(==)>(q: seq<T>, x: T): (r: seq<T>)
    ensures x !in q ==> r == q
    ensures x in q ==> |r| == |q| - 1
  {
    if q == [] then []
    else if q[0] == x then q[1..]
    else [q[0]] + RemoveFirst(q[1..], x)
  }

  /** In a list without repeats the first occurrence of an element is its only one. */
  lemma {:induction false} RemoveAt<T>(q: seq<T>, k: nat)
    requires Distinct(q) && k < |q|
    ensures RemoveFirst(q, q[k]) == q[..k] + q[k + 1..]
    decreases k
  {
    if k > 0 {
      var t := q[1..];
      assert q[0] != q[k];
      assert Distinct(t) by {
        forall i, j | 0 <= i < j < |t| ensures t[i] != t[j] {
          assert t[i] == q[i + 1] && t[j] == q[j + 1];
        }
      }
      assert t[k - 1] == q[k];
      RemoveAt(t, k - 1);
      assert q[..k] == [q[0]] + t[..k - 1];
      assert q[k + 1..] == t[k..];
    }
  }

  /** Removing a listed element from a list without repeats leaves the others, still without repeats. */
  lemma RemoveListed<T>(q: seq<T>, k: nat)
    requires Distinct(q) && k < |q|
    ensures var r := RemoveFirst(q, q[k]);
      Distinct(r) && |r| == |q| - 1 && forall y :: y in r <==> y in q && y != q[k]
  {
    RemoveAt(q, k);
    DistinctWithout(q, k);
    OnlyAt(q, k);
    assert q == q[..k] + [q[k]] + q[k + 1..];
  }

  /** In a list without repeats an element occurs at its own position only. */
  lemma OnlyAt<T>(q: seq<T>, k: nat)
    requires Distinct(q) && k < |q|
    ensures q[k] !in q[..k] && q[k] !in q[k + 1..]
  {
    var before, after := q[..k], q[k + 1..];
    forall y | y in before ensures y != q[k] {
      var j :| 0 <= j < |before| && before[j] == y;
      assert y == q[j];
    }
    forall y | y in after ensures y != q[k] {
      var j :| 0 <= j < |after| && after[j] == y;
      assert y == q[k + 1 + j];
    }
  }

  lemma DistinctWithout<T>(q: seq<T>, k: nat)
    requires Distinct(q) && k < |q|
    ensures Distinct(q[..k] + q[k + 1..])
  {
    var r := q[..k] + q[k + 1..];
    forall a, b | 0 <= a < b < |r|
      ensures r[a] != r[b]
    {
      assert r[a] == q[if a < k then a else a + 1];
      assert r[b] == q[if b < k then b else b + 1];
    }
  }

  /** The cells of the second probe that the first one did not list, in order. */
  function Unseen(found: seq<Cell>, seen: seq<Cell>): (added: seq<Cell>)
    ensures forall v :: v in added <==> v in found && v !in seen
  {
    if found == [] then []
    else (if found[0] in seen then [] else [found[0]]) + Unseen(found[1..], seen)
  }

  /**
   * The neighbour list of one round: `free_nodes` of a runner facing north
   * (west, north, east), then those of the same runner turned left (south,
   * west, north) that are not listed yet. Together: every open side.
   */
  function DijkstraNeighbors(m: Maze, u: Cell): (ns: seq<Cell>)
    ensures forall v :: v in ns <==> v in Succ(m, ByEdges, u)
  {
    var runner := CreateRunner(u.x, u.y);
    var neighbors := FreeNodes(m, runner);
    var turned := Turn(runner, "Left");
    var more := FreeNodes(m, turned);
    NeighborsAreOpenSides(m, u, neighbors, more);
    neighbors + Unseen(more, neighbors)
  }

  lemma NeighborsAreOpenSides(m: Maze, u: Cell, neighbors: seq<Cell>, more: seq<Cell>)
    requires neighbors == FreeNodes(m, CreateRunner(u.x, u.y))
    requires more == FreeNodes(m, Turn(CreateRunner(u.x, u.y), "Left"))
    ensures forall v :: v in neighbors || v in more <==> v in Succ(m, ByEdges, u)
  {
    var north := CreateRunner(u.x, u.y);
    var west := Turn(north, "Left");
    assert OrientationOptions(N) == [W, N, E] && OrientationOptions(W) == [S, W, N];
    forall v ensures v in neighbors || v in more <==> v in Succ(m, ByEdges, u) {
      if v in Succ(m, ByEdges, u) {
        var d := SuccElim(m, ByEdges, u, v);
        if d == S {
          assert OrientationOptions(west.orientation)[0] == S;
        } else {
          if d == W { assert OrientationOptions(north.orientation)[0] == W; }
          else if d == N { assert OrientationOptions(north.orientation)[1] == N; }
          else { assert OrientationOptions(north.orientation)[2] == E; }
        }
      }
      if v in neighbors {
        var i :| 0 <= i < 3 && v == Neighbor(Pos(north), OrientationOptions(north.orientation)[i]);
        SuccIntro(m, ByEdges, u, OrientationOptions(north.orientation)[i]);
      }
      if v in more {
        var i :| 0 <= i < 3 && v == Neighbor(Pos(west), OrientationOptions(west.orientation)[i]);
        SuccIntro(m, ByEdges, u, OrientationOptions(west.orientation)[i]);
      }
    }
  }

  /**
   * The hop distance from `src`: `Fin(k)` for the cells of layer `k`, `Inf`
   * for the cells no walk reaches.
   */
  ghost function Hop(m: Maze, src: Cell, v: Cell): Dist {
    if exists k: nat :: InLayer(m, src, v, k) then
      var k: nat :| InLayer(m, src, v, k); Fin(k)
    else Inf
  }

  /** `v` is exactly `k` open steps from `src`. */
  ghost predicate InLayer(m: Maze, src: Cell, v: Cell, k: nat) {
    v in Layer(m, ByEdges, src, k)
  }

  lemma HopOfLayer(m: Maze, src: Cell, v: Cell, k: nat)
    requires v in Layer(m, ByEdges, src, k)
    ensures Hop(m, src, v) == Fin(k)
  {
    assert InLayer(m, src, v, k);
    var h := Hop(m, src, v);
    LayerUnique(m, ByEdges, src, v, h.n, k);
  }

  lemma HopFin(m: Maze, src: Cell, v: Cell)
    requires Hop(m, src, v).Fin?
    ensures v in Layer(m, ByEdges, src, Hop(m, src, v).n)
  {
  }

  /** A cell within `k` steps is at most `k` hops away. */
  lemma HopInBall(m: Maze, src: Cell, v: Cell, k: nat)
    requires v in Ball(m, ByEdges, src, k)
    ensures Hop(m, src, v).AtMost(Fin(k))
  {
    var j := InSomeLayer(m, ByEdges, src, v, k);
    HopOfLayer(m, src, v, j);
  }

  /** The hop distance is infinite exactly for the cells no walk reaches. */
  lemma HopInf(m: Maze, src: Cell, v: Cell)
    ensures Hop(m, src, v) == Inf <==> !Reachable(m, ByEdges, src, v)
  {
    if Reachable(m, ByEdges, src, v) {
      var k: nat :| v in Ball(m, ByEdges, src, k);
      HopInBall(m, src, v, k);
    }
    if Hop(m, src, v).Fin? {
      LayerInBall(m, ByEdges, src, Hop(m, src, v).n);
    }
  }

  /** One open step adds at most one hop. */
  lemma HopStep(m: Maze, src: Cell, u: Cell, v: Cell)
    requires Hop(m, src, u).Fin? && v in Succ(m, ByEdges, u)
    ensures Hop(m, src, v).AtMost(Hop(m, src, u).Plus1())
  {
    var b := StepLayer(m, src, u, Hop(m, src, u).n, v);
    HopOfLayer(m, src, v, b);
  }

  /** `hop` holds the hop distance of every grid cell. */
  ghost predicate HopTable(m: Maze, src: Cell, hop: map<Cell, Dist>) {
    hop.Keys == Grid(m.width, m.height) && forall v :: v in hop ==> hop[v] == Hop(m, src, v)
  }

  lemma TableLayer(m: Maze, src: Cell, hop: map<Cell, Dist>, v: Cell, k: nat)
    requires HopTable(m, src, hop) && v in hop && v in Layer(m, ByEdges, src, k)
    ensures hop[v] == Fin(k)
  {
    HopOfLayer(m, src, v, k);
  }

  lemma TableFin(m: Maze, src: Cell, hop: map<Cell, Dist>, v: Cell)
    requires HopTable(m, src, hop) && v in hop && hop[v].Fin?
    ensures v in Layer(m, ByEdges, src, hop[v].n)
  {
    HopFin(m, src, v);
  }

  lemma TableStep(m: Maze, src: Cell, hop: map<Cell, Dist>, u: Cell, v: Cell)
    requires HopTable(m, src, hop) && u in hop && v in hop && v in Succ(m, ByEdges, u) && hop[u].Fin?
    ensures hop[v].AtMost(hop[u].Plus1())
  {
    HopStep(m, src, u, v);
  }

  /** `dist` and `prev` have an entry for exactly the grid cells. */
  ghost predicate Tables(m: Maze, dist: map<Cell, Dist>, prev: map<Cell, Option<Cell>>) {
    dist.Keys == Grid(m.width, m.height) && prev.Keys == Grid(m.width, m.height)
  }

  /** No distance of the table undercuts the hop distance. */
  ghost predicate Achieved(dist: map<Cell, Dist>, hop: map<Cell, Dist>) {
    forall v :: v in dist ==> v in hop && hop[v].AtMost(dist[v])
  }

  /** The cells already taken from the queue hold their hop distance. */
  ghost predicate Settled(done: set<Cell>, dist: map<Cell, Dist>, hop: map<Cell, Dist>) {
    forall v {:trigger v in done} :: v in done ==> v in dist && v in hop && dist[v] == hop[v]
  }

  /** Every cell one open step from `u` is at most one further than `u`. */
  ghost predicate RelaxedAt(m: Maze, u: Cell, dist: map<Cell, Dist>) {
    u in dist && forall v {:trigger v in Succ(m, ByEdges, u)} ::
      v in Succ(m, ByEdges, u) ==> v in dist && dist[v].AtMost(dist[u].Plus1())
  }

  /** The neighbours of the cells in `relaxed` are at most one further than they are. */
  ghost predicate Relaxed(m: Maze, relaxed: set<Cell>, dist: map<Cell, Dist>) {
    forall u :: u in relaxed ==> RelaxedAt(m, u, dist)
  }

  /** `u` is a settled cell one open step before `v` and one closer to the start. */
  ghost predicate LinkOk(m: Maze, done: set<Cell>, dist: map<Cell, Dist>, v: Cell, u: Cell) {
    && u in done && u in dist && v in dist && v in Succ(m, ByEdges, u)
    && dist[v].Fin? && dist[v] == dist[u].Plus1()
  }

  /** A `prev` link goes back one open step to a settled cell one closer to the start. */
  ghost predicate Linked(m: Maze, done: set<Cell>, dist: map<Cell, Dist>, prev: map<Cell, Option<Cell>>) {
    forall v {:trigger prev[v]} :: v in prev && prev[v].Some? ==> LinkOk(m, done, dist, v, prev[v].value)
  }

  /** Every cell other than the start with a finite distance has a `prev` link. */
  ghost predicate Covered(src: Cell, dist: map<Cell, Dist>, prev: map<Cell, Option<Cell>>) {
    forall v {:trigger prev[v]} :: v in dist && v != src && dist[v].Fin? ==> v in prev && prev[v].Some?
  }

  /** What holds of the tables between rounds, `done` being the cells no longer queued. */
  ghost predicate DijkstraState(m: Maze, src: Cell, hop: map<Cell, Dist>, done: set<Cell>,
                                dist: map<Cell, Dist>, prev: map<Cell, Option<Cell>>) {
    && BoundarySegments(m) && InGrid(m, src)
    && Tables(m, dist, prev) && done <= Grid(m.width, m.height)
    && dist[src] == Fin(0) && prev[src] == None
    && Achieved(dist, hop) && Settled(done, dist, hop)
    && Linked(m, done, dist, prev) && Covered(src, dist, prev)
  }

  /** A cell of layer `k + 1` is one open step from a cell of layer `k`. */
  lemma LayerParent(m: Maze, src: Cell, v: Cell, k: nat) returns (p: Cell)
    requires v in Layer(m, ByEdges, src, k + 1)
    ensures p in Layer(m, ByEdges, src, k) && v in Succ(m, ByEdges, p)
  {
    BallFromLayer(m, ByEdges, src, k + 1);
    p :| p in Layer(m, ByEdges, src, k) && v in Succ(m, ByEdges, p);
  }

  /** One open step from a cell of layer `a` lands in a layer no further out than `a + 1`. */
  lemma StepLayer(m: Maze, src: Cell, u: Cell, a: nat, v: Cell) returns (b: nat)
    requires u in Layer(m, ByEdges, src, a) && v in Succ(m, ByEdges, u)
    ensures b <= a + 1 && v in Layer(m, ByEdges, src, b)
  {
    LayerInBall(m, ByEdges, src, a);
    assert v in Next(m, ByEdges, Ball(m, ByEdges, src, a));
    b := InSomeLayer(m, ByEdges, src, v, a + 1);
  }

  /** `p` is one open step before `v` and one hop closer to the start. */
  ghost predicate StepBack(m: Maze, hop: map<Cell, Dist>, p: Cell, v: Cell) {
    && p in hop && v in hop && hop[v].Fin? && hop[v].n > 0
    && hop[p] == Fin(hop[v].n - 1) && v in Succ(m, ByEdges, p)
  }

  /**
   * The shape of a hop table: the start alone is at hop zero, and every
   * other reached cell has a parent one hop closer.
   */
  ghost predicate HopShape(m: Maze, src: Cell, hop: map<Cell, Dist>) {
    && src in hop && hop[src] == Fin(0)
    && (forall v :: v in hop && hop[v] == Fin(0) ==> v == src)
    && (forall v :: v in hop && hop[v].Fin? && hop[v].n > 0 ==> exists p :: StepBack(m, hop, p, v))
  }

  /** Every cell one open step from `u` is in the table and at most one hop further. */
  ghost predicate HopStepsFrom(m: Maze, hop: map<Cell, Dist>, u: Cell) {
    u in hop && forall v {:trigger v in Succ(m, ByEdges, u)} ::
      v in Succ(m, ByEdges, u) ==> v in hop && (hop[u].Fin? ==> hop[v].AtMost(hop[u].Plus1()))
  }

  ghost predicate HopSteps(m: Maze, hop: map<Cell, Dist>) {
    forall u :: u in hop ==> HopStepsFrom(m, hop, u)
  }

  lemma TableParent(m: Maze, src: Cell, hop: map<Cell, Dist>, v: Cell) returns (p: Cell)
    requires BoundarySegments(m) && InGrid(m, src) && HopTable(m, src, hop)
    requires v in hop && hop[v].Fin? && hop[v].n > 0
    ensures StepBack(m, hop, p, v)
  {
    p := HopParent(m, src, v);
  }

  /** A cell `k + 1` hops away is one open step from a grid cell `k` hops away. */
  lemma HopParent(m: Maze, src: Cell, v: Cell) returns (p: Cell)
    requires BoundarySegments(m) && InGrid(m, src) && Hop(m, src, v).Fin? && Hop(m, src, v).n > 0
    ensures InGrid(m, p) && Hop(m, src, p) == Fin(Hop(m, src, v).n - 1) && v in Succ(m, ByEdges, p)
  {
    var k: nat := Hop(m, src, v).n - 1;
    HopFin(m, src, v);
    p := LayerParentInGrid(m, src, v, k);
    HopOfLayer(m, src, p, k);
  }

  /** A cell of layer `k + 1` is one open step from a grid cell of layer `k`. */
  lemma LayerParentInGrid(m: Maze, src: Cell, v: Cell, k: nat) returns (p: Cell)
    requires BoundarySegments(m) && InGrid(m, src) && v in Layer(m, ByEdges, src, k + 1)
    ensures InGrid(m, p) && p in Layer(m, ByEdges, src, k) && v in Succ(m, ByEdges, p)
  {
    p := LayerParent(m, src, v, k);
    LayerInGrid(m, src, p, k);
  }

  lemma LayerInGrid(m: Maze, src: Cell, c: Cell, k: nat)
    requires BoundarySegments(m) && InGrid(m, src) && c in Layer(m, ByEdges, src, k)
    ensures InGrid(m, c)
  {
    LayerInBall(m, ByEdges, src, k);
    EdgesStayInGrid(m);
    BallInGrid(m, ByEdges, src, k);
  }

  lemma TableShape(m: Maze, src: Cell, hop: map<Cell, Dist>)
    requires BoundarySegments(m) && InGrid(m, src) && HopTable(m, src, hop)
    ensures HopShape(m, src, hop)
  {
    TableLayer(m, src, hop, src, 0);
    forall v | v in hop && hop[v] == Fin(0) ensures v == src {
      TableFin(m, src, hop, v);
    }
    forall v | v in hop && hop[v].Fin? && hop[v].n > 0 ensures exists p :: StepBack(m, hop, p, v) {
      var p := TableParent(m, src, hop, v);
    }
  }

  lemma TableSteps(m: Maze, src: Cell, hop: map<Cell, Dist>)
    requires BoundarySegments(m) && HopTable(m, src, hop)
    ensures HopSteps(m, hop)
  {
    forall u | u in hop ensures HopStepsFrom(m, hop, u) {
      forall v | v in Succ(m, ByEdges, u) ensures v in hop && (hop[u].Fin? ==> hop[v].AtMost(hop[u].Plus1())) {
        EdgesStayInGrid(m);
        if hop[u].Fin? {
          TableStep(m, src, hop, u, v);
        }
      }
    }
  }

  /**
   * Following parents back from a queued reached cell meets a first queued
   * cell: the start itself, or a cell one step from a settled one.
   */
  lemma {:induction false} FirstUnsettled(m: Maze, src: Cell, hop: map<Cell, Dist>, done: set<Cell>, v: Cell)
    returns (q: Cell, p: Cell)
    requires HopShape(m, src, hop) && v in hop && hop[v].Fin? && v !in done
    ensures q in hop && hop[q].Fin? && hop[q].n <= hop[v].n && q !in done
    ensures hop[q].n == 0 ==> q == src
    ensures hop[q].n > 0 ==> p in done && StepBack(m, hop, p, q)
    decreases hop[v].n
  {
    if hop[v].n == 0 {
      q, p := v, v;
    } else {
      var parent :| StepBack(m, hop, parent, v);
      if parent in done {
        q, p := v, parent;
      } else {
        q, p := FirstUnsettled(m, src, hop, done, parent);
      }
    }
  }

  /** A queued reached cell leaves some queued cell whose distance is at most its hop distance. */
  lemma FrontierBelow(m: Maze, src: Cell, hop: map<Cell, Dist>, done: set<Cell>, dist: map<Cell, Dist>, v: Cell)
    returns (q: Cell)
    requires HopShape(m, src, hop) && src in dist && dist[src] == Fin(0)
    requires Settled(done, dist, hop) && Relaxed(m, done, dist)
    requires v in hop && hop[v].Fin? && v !in done
    ensures q in dist && q !in done && dist[q].AtMost(hop[v])
  {
    var p;
    q, p := FirstUnsettled(m, src, hop, done, v);
    if hop[q].n > 0 {
      assert RelaxedAt(m, p, dist);
    }
  }

  /**
   * The queued cell with the least distance holds its hop distance: a
   * shorter walk would leave a queued cell with a still smaller distance.
   */
  lemma Settle(m: Maze, src: Cell, hop: map<Cell, Dist>, done: set<Cell>, dist: map<Cell, Dist>, u: Cell)
    requires HopShape(m, src, hop) && src in dist && dist[src] == Fin(0)
    requires Achieved(dist, hop) && Settled(done, dist, hop) && Relaxed(m, done, dist)
    requires u in dist && u !in done
    requires forall q :: q in dist && q !in done ==> dist[u].AtMost(dist[q])
    ensures u in hop && dist[u] == hop[u]
  {
    if hop[u] != dist[u] {
      var q := FrontierBelow(m, src, hop, done, dist, u);
    }
  }

  /** The tables while the neighbours of `u`, just taken from the queue, are relaxed. */
  ghost predicate Round(m: Maze, src: Cell, hop: map<Cell, Dist>, done: set<Cell>, u: Cell,
                        dist: map<Cell, Dist>, prev: map<Cell, Option<Cell>>) {
    DijkstraState(m, src, hop, done + {u}, dist, prev) && Relaxed(m, done, dist) && u !in done
  }

  /** Taking the settled minimum from the queue starts its round. */
  lemma EnterRound(m: Maze, src: Cell, hop: map<Cell, Dist>, done: set<Cell>, u: Cell,
                   dist: map<Cell, Dist>, prev: map<Cell, Option<Cell>>)
    requires DijkstraState(m, src, hop, done, dist, prev) && Relaxed(m, done, dist)
    requires u in dist && u in hop && u !in done && dist[u] == hop[u]
    ensures Round(m, src, hop, done, u, dist, prev)
  {
  }

  /**
   * One pass of the inner loop: `alt = dist[u] + 1`, and if `alt < dist[v]`
   * then `v` gets the distance `alt` and the link back to `u`.
   */
  function RelaxEdge(dist: map<Cell, Dist>, prev: map<Cell, Option<Cell>>, u: Cell, v: Cell)
    : (r: (map<Cell, Dist>, map<Cell, Option<Cell>>))
    requires u in dist && v in dist && v in prev
    ensures r.0.Keys == dist.Keys && r.1.Keys == prev.Keys
    ensures r.0[v].AtMost(dist[u].Plus1()) && r.0[v].AtMost(dist[v])
    ensures forall w :: w in dist && w != v ==> r.0[w] == dist[w]
    ensures r.0[v] != dist[v] <==> dist[u].Plus1().Below(dist[v])
    ensures r.0[v] != dist[v] ==> r.0[v] == dist[u].Plus1() && r.1[v] == Some(u)
    ensures forall w :: w in prev && (w != v || r.0[v] == dist[v]) ==> r.1[w] == prev[w]
  {
    var alt := dist[u].Plus1();
    if alt.Below(dist[v]) then (dist[v := alt], prev[v := Some(u)]) else (dist, prev)
  }

  /**
   * What the hop distances say about one step of the round: a settled cell
   * is never improved, and an improved distance is still no shorter than a walk.
   */
  lemma StepBounds(m: Maze, src: Cell, hop: map<Cell, Dist>, done: set<Cell>, u: Cell,
                   dist: map<Cell, Dist>, prev: map<Cell, Option<Cell>>, v: Cell)
    requires HopSteps(m, hop) && Round(m, src, hop, done, u, dist, prev) && v in Succ(m, ByEdges, u)
    ensures u in dist && v in dist && v in prev && v in hop
    ensures dist[u].Fin? ==> hop[v].AtMost(dist[u].Plus1())
    ensures v in done + {u} ==> !dist[u].Plus1().Below(dist[v])
  {
    EdgesStayInGrid(m);
    assert u in dist && u in hop && dist[u] == hop[u];
    assert HopStepsFrom(m, hop, u);
  }

  /** A step of the round keeps every invariant and only lowers distances. */
  lemma RelaxEdgeKeeps(m: Maze, src: Cell, hop: map<Cell, Dist>, done: set<Cell>, u: Cell,
                       dist: map<Cell, Dist>, prev: map<Cell, Option<Cell>>, v: Cell)
    requires Round(m, src, hop, done, u, dist, prev) && v in Succ(m, ByEdges, u)
    requires u in dist && v in dist && v in prev && v in hop
    requires dist[u].Fin? ==> hop[v].AtMost(dist[u].Plus1())
    requires v in done + {u} ==> !dist[u].Plus1().Below(dist[v])
    ensures var r := RelaxEdge(dist, prev, u, v);
      && Round(m, src, hop, done, u, r.0, r.1)
      && u in r.0 && r.0[u] == dist[u] && r.0[v].AtMost(dist[u].Plus1())
      && NoHigher(r.0, dist)
  {
    var r := RelaxEdge(dist, prev, u, v);
    if r.0[v] != dist[v] {
      RoundAfterImprove(m, src, hop, done, u, dist, prev, v, r.0, r.1);
    }
  }

  lemma RoundAfterImprove(m: Maze, src: Cell, hop: map<Cell, Dist>, done: set<Cell>, u: Cell,
                          dist: map<Cell, Dist>, prev: map<Cell, Option<Cell>>, v: Cell,
                          dist': map<Cell, Dist>, prev': map<Cell, Option<Cell>>)
    requires Round(m, src, hop, done, u, dist, prev) && v in Succ(m, ByEdges, u)
    requires u in dist && v in dist && v in prev && v in hop && v !in done + {u} && dist[u].Fin?
    requires dist' == dist[v := dist[u].Plus1()] && prev' == prev[v := Some(u)]
    requires hop[v].AtMost(dist[u].Plus1()) && dist[u].Plus1().Below(dist[v])
    ensures Round(m, src, hop, done, u, dist', prev')
  {
    ImprovedState(m, src, hop, done + {u}, u, dist, prev, v, dist', prev');
    assert NoHigher(dist', dist);
    RelaxedLower(m, done, dist, dist');
  }

  /** Improving an unsettled cell through a settled one keeps the tables consistent. */
  lemma ImprovedState(m: Maze, src: Cell, hop: map<Cell, Dist>, done: set<Cell>, u: Cell,
                      dist: map<Cell, Dist>, prev: map<Cell, Option<Cell>>, v: Cell,
                      dist': map<Cell, Dist>, prev': map<Cell, Option<Cell>>)
    requires DijkstraState(m, src, hop, done, dist, prev) && v in Succ(m, ByEdges, u)
    requires u in done && u in dist && v in dist && v in prev && v in hop && v !in done && dist[u].Fin?
    requires dist' == dist[v := dist[u].Plus1()] && prev' == prev[v := Some(u)]
    requires hop[v].AtMost(dist[u].Plus1()) && dist[u].Plus1().Below(dist[v])
    ensures DijkstraState(m, src, hop, done, dist', prev')
  {
    assert Settled(done, dist', hop);
    assert Achieved(dist', hop);
    assert Linked(m, done, dist', prev');
  }

  /** Lowering the distances of unrelaxed cells keeps the relaxed ones relaxed. */
  lemma RelaxedLower(m: Maze, relaxed: set<Cell>, dist: map<Cell, Dist>, dist': map<Cell, Dist>)
    requires Relaxed(m, relaxed, dist)
    requires NoHigher(dist', dist)
    requires forall a :: a in relaxed ==> a in dist && a in dist' && dist'[a] == dist[a]
    ensures Relaxed(m, relaxed, dist')
  {
    forall a | a in relaxed ensures RelaxedAt(m, a, dist') {
      assert RelaxedAt(m, a, dist);
    }
  }

  /** The neighbours of `u`, all relaxed, make `u` a relaxed cell. */
  lemma LeaveRound(m: Maze, src: Cell, hop: map<Cell, Dist>, done: set<Cell>, u: Cell,
                   dist: map<Cell, Dist>, prev: map<Cell, Option<Cell>>)
    requires Round(m, src, hop, done, u, dist, prev) && RelaxedAt(m, u, dist)
    ensures DijkstraState(m, src, hop, done + {u}, dist, prev) && Relaxed(m, done + {u}, dist)
  {
  }

  /** Lowering distances keeps a bound on a prefix of the list, and the next entry joins it. */
  lemma PrefixBounded(ns: seq<Cell>, i: nat, dist: map<Cell, Dist>, dist': map<Cell, Dist>, bound: Dist)
    requires i < |ns|
    requires forall j :: 0 <= j < i ==> ns[j] in dist && dist[ns[j]].AtMost(bound)
    requires NoHigher(dist', dist)
    requires ns[i] in dist' && dist'[ns[i]].AtMost(bound)
    ensures forall j :: 0 <= j < i + 1 ==> ns[j] in dist' && dist'[ns[j]].AtMost(bound)
  {
  }

  /** No distance of `dist` is higher than in `dist0`. */
  ghost predicate NoHigher(dist: map<Cell, Dist>, dist0: map<Cell, Dist>) {
    forall w :: w in dist0 ==> w in dist && dist[w].AtMost(dist0[w])
  }

  lemma NoHigherTrans(a: map<Cell, Dist>, b: map<Cell, Dist>, c: map<Cell, Dist>)
    requires NoHigher(a, b) && NoHigher(b, c)
    ensures NoHigher(a, c)
  {
  }

  /** The bound on every listed neighbour is a bound on every open neighbour. */
  lemma AllListed(m: Maze, u: Cell, ns: seq<Cell>, dist: map<Cell, Dist>)
    requires u in dist
    requires forall v :: v in ns <==> v in Succ(m, ByEdges, u)
    requires forall j :: 0 <= j < |ns| ==> ns[j] in dist && dist[ns[j]].AtMost(dist[u].Plus1())
    ensures RelaxedAt(m, u, dist)
  {
    forall v | v in Succ(m, ByEdges, u)
      ensures v in dist && dist[v].AtMost(dist[u].Plus1())
    {
      var j :| 0 <= j < |ns| && ns[j] == v;
    }
  }

  /** One pass of the inner loop, with what it keeps. */
  method RelaxStep(m: Maze, src: Cell, ghost hop: map<Cell, Dist>, ghost done: set<Cell>, u: Cell,
                   dist: map<Cell, Dist>, prev: map<Cell, Option<Cell>>, v: Cell)
    returns (dist': map<Cell, Dist>, prev': map<Cell, Option<Cell>>)
    requires HopSteps(m, hop) && Round(m, src, hop, done, u, dist, prev) && v in Succ(m, ByEdges, u)
    ensures Round(m, src, hop, done, u, dist', prev')
    ensures u in dist && u in dist' && dist'[u] == dist[u]
    ensures v in dist' && dist'[v].AtMost(dist[u].Plus1())
    ensures NoHigher(dist', dist)
  {
    StepBounds(m, src, hop, done, u, dist, prev, v);
    RelaxEdgeKeeps(m, src, hop, done, u, dist, prev, v);
    var r := RelaxEdge(dist, prev, u, v);
    dist', prev' := r.0, r.1;
  }

  /**
   * One round of the main loop after `u` left the queue: every cell one open
   * step from `u` ends no further than `dist[u] + 1`, and `u` joins the
   * settled, relaxed cells.
   */
  method Relax(m: Maze, src: Cell, ghost hop: map<Cell, Dist>, ghost done: set<Cell>, u: Cell,
               dist0: map<Cell, Dist>, prev0: map<Cell, Option<Cell>>)
    returns (dist: map<Cell, Dist>, prev: map<Cell, Option<Cell>>)
    requires HopSteps(m, hop) && Round(m, src, hop, done, u, dist0, prev0)
    ensures DijkstraState(m, src, hop, done + {u}, dist, prev) && Relaxed(m, done + {u}, dist)
    ensures NoHigher(dist, dist0)
  {
    var ns := DijkstraNeighbors(m, u);
    dist, prev := dist0, prev0;
    var i := 0;
    while i < |ns|
      invariant i <= |ns|
      invariant Round(m, src, hop, done, u, dist, prev)
      invariant u in dist && dist[u] == dist0[u]
      invariant NoHigher(dist, dist0)
      invariant forall j :: 0 <= j < i ==> ns[j] in dist && dist[ns[j]].AtMost(dist0[u].Plus1())
    {
      ghost var before := dist;
      dist, prev := RelaxStep(m, src, hop, done, u, dist, prev, ns[i]);
      PrefixBounded(ns, i, before, dist, dist0[u].Plus1());
      NoHigherTrans(dist, before, dist0);
      i := i + 1;
    }
    AllListed(m, u, ns, dist);
    LeaveRound(m, src, hop, done, u, dist, prev);
  }


  /** The hop distance of every grid cell. */
  ghost function HopTableOf(m: Maze, src: Cell): map<Cell, Dist> {
    map v | v in Grid(m.width, m.height) :: Hop(m, src, v)
  }

  /** The tables before the first round: infinity and no link everywhere, the start at 0. */
  function InitialDist(m: Maze, src: Cell): map<Cell, Dist> {
    (map v | v in Grid(m.width, m.height) :: Inf)[src := Fin(0)]
  }

  function InitialPrev(m: Maze): map<Cell, Option<Cell>> {
    map v | v in Grid(m.width, m.height) :: None
  }

  /** Nothing is settled yet, and no distance undercuts a walk: the start is at hop zero. */
  lemma InitialState(m: Maze, src: Cell, hop: map<Cell, Dist>)
    requires BoundarySegments(m) && InGrid(m, src) && HopTable(m, src, hop) && HopShape(m, src, hop)
    ensures DijkstraState(m, src, hop, {}, InitialDist(m, src), InitialPrev(m))
    ensures Relaxed(m, {}, InitialDist(m, src))
  {
    var dist := InitialDist(m, src);
    assert dist.Keys == Grid(m.width, m.height);
  }

  /** The queued cell of least distance is at most every cell still queued. */
  lemma QueueMinimum(m: Maze, done: set<Cell>, dist: map<Cell, Dist>, queue: seq<Cell>, k: nat)
    requires dist.Keys == Grid(m.width, m.height)
    requires forall c :: c in queue <==> c in Grid(m.width, m.height) && c !in done
    requires k < |queue| && forall j :: 0 <= j < |queue| ==> dist[queue[k]].AtMost(dist[queue[j]])
    ensures forall q :: q in dist && q !in done ==> dist[queue[k]].AtMost(dist[q])
  {
    forall q | q in dist && q !in done ensures dist[queue[k]].AtMost(dist[q]) {
      var j :| 0 <= j < |queue| && queue[j] == q;
    }
  }

  /** The queue holds, once each, the grid cells not yet settled. */
  ghost predicate Queued(m: Maze, queue: seq<Cell>, done: set<Cell>) {
    Distinct(queue) && forall c :: c in queue <==> c in Grid(m.width, m.height) && c !in done
  }

  /**
   * One round of the main loop: the first queued cell of least distance
   * leaves the queue, holding its hop distance, and its neighbours are relaxed.
   */
  method NextRound(m: Maze, src: Cell, ghost hop: map<Cell, Dist>, ghost done: set<Cell>,
                   queue: seq<Cell>, dist: map<Cell, Dist>, prev: map<Cell, Option<Cell>>)
    returns (queue': seq<Cell>, dist': map<Cell, Dist>, prev': map<Cell, Option<Cell>>, u: Cell)
    requires HopShape(m, src, hop) && HopSteps(m, hop) && queue != [] && Queued(m, queue, done)
    requires DijkstraState(m, src, hop, done, dist, prev) && Relaxed(m, done, dist)
    ensures Queued(m, queue', done + {u}) && |queue'| < |queue|
    ensures DijkstraState(m, src, hop, done + {u}, dist', prev') && Relaxed(m, done + {u}, dist')
  {
    var k := FirstMinDist(queue, dist);
    u := queue[k];
    QueueMinimum(m, done, dist, queue, k);
    RemoveListed(queue, k);
    queue' := RemoveFirst(queue, u);
    Settle(m, src, hop, done, dist, u);
    EnterRound(m, src, hop, done, u, dist, prev);
    dist', prev' := Relax(m, src, hop, done, u, dist, prev);
  }

  /**
   * The main loop of `dijkstra`: rounds until the queue is empty. Every
   * grid cell ends with its hop distance from `src`, and the `prev` links
   * step back towards `src` one hop at a time.
   */
  method SettleAll(m: Maze, src: Cell) returns (dist: map<Cell, Dist>, prev: map<Cell, Option<Cell>>, ghost hop: map<Cell, Dist>)
    requires BoundarySegments(m) && InGrid(m, src)
    ensures HopTable(m, src, hop) && DijkstraState(m, src, hop, Grid(m.width, m.height), dist, prev)
    ensures forall v :: v in dist ==> v in hop && dist[v] == hop[v]
    ensures forall v :: v in dist ==> (dist[v].Fin? <==> Reachable(m, ByEdges, src, v))
  {
    var queue;
    queue, dist, prev, hop := Initialize(m, src);
    ghost var done: set<Cell> := {};
    while queue != []
      invariant Queued(m, queue, done)
      invariant DijkstraState(m, src, hop, done, dist, prev) && Relaxed(m, done, dist)
      decreases |queue|
    {
      var u;
      queue, dist, prev, u := NextRound(m, src, hop, done, queue, dist, prev);
      done := done + {u};
    }
    AllSettled(m, src, hop, done, dist, prev);
    forall v | v in dist ensures dist[v].Fin? <==> Reachable(m, ByEdges, src, v) {
      HopInf(m, src, v);
    }
  }

  /** The queue and tables before the first round, with the hop table they are measured against. */
  method Initialize(m: Maze, src: Cell)
    returns (queue: seq<Cell>, dist: map<Cell, Dist>, prev: map<Cell, Option<Cell>>, ghost hop: map<Cell, Dist>)
    requires BoundarySegments(m) && InGrid(m, src)
    ensures HopTable(m, src, hop) && HopShape(m, src, hop) && HopSteps(m, hop)
    ensures Queued(m, queue, {}) && |queue| == m.width * m.height
    ensures dist.Keys == Grid(m.width, m.height) + {src} && prev.Keys == Grid(m.width, m.height)
    ensures dist[src] == Fin(0) && forall v :: v in dist && v != src ==> dist[v] == Inf
    ensures forall v :: v in prev ==> prev[v] == None
    ensures DijkstraState(m, src, hop, {}, dist, prev) && Relaxed(m, {}, dist)
  {
    hop := HopTableOf(m, src);
    TableShape(m, src, hop);
    TableSteps(m, src, hop);
    InitialState(m, src, hop);
    dist, prev := InitialDist(m, src), InitialPrev(m);
    queue := AllCells(m.width, m.height);
  }

  /** With the queue empty every grid cell is settled at its hop distance. */
  lemma AllSettled(m: Maze, src: Cell, hop: map<Cell, Dist>, done: set<Cell>,
                   dist: map<Cell, Dist>, prev: map<Cell, Option<Cell>>)
    requires Queued(m, [], done) && DijkstraState(m, src, hop, done, dist, prev)
    ensures DijkstraState(m, src, hop, Grid(m.width, m.height), dist, prev)
    ensures forall v :: v in dist ==> v in hop && dist[v] == hop[v]
  {
    assert done == Grid(m.width, m.height);
  }

  /** A walk from `u` preceded by a step into `u` is a walk from the earlier cell. */
  lemma WalkPrepend(m: Maze, p: Cell, u: Cell, q: seq<Cell>, goal: Cell)
    requires WalkBetween(m, ByEdges, q, u, goal) && u in Succ(m, ByEdges, p)
    ensures WalkBetween(m, ByEdges, [p] + q, p, goal)
  {
    var w := [p] + q;
    forall i | 0 <= i < |w| - 1 ensures w[i + 1] in Succ(m, ByEdges, w[i]) {
      if i > 0 {
        assert w[i] == q[i - 1] && w[i + 1] == q[i];
      }
    }
  }

  /**
   * The tail of `dijkstra`: unless the goal has no link and is not the start,
   * the links are followed back from the goal, each cell taken before its
   * link, and the list is turned around (here it is built front first). A
   * link pair met twice stops the loop; with settled links that cannot happen.
   */
  method Reconstruct(m: Maze, src: Cell, ghost hop: map<Cell, Dist>, dist: map<Cell, Dist>,
                     prev: map<Cell, Option<Cell>>, goal: Cell) returns (path: seq<Cell>)
    requires DijkstraState(m, src, hop, Grid(m.width, m.height), dist, prev) && InGrid(m, goal)
    ensures path == [] <==> goal == src || dist[goal].Inf?
    ensures path != [] ==> WalkBetween(m, ByEdges, [src] + path, src, goal) && |path| == dist[goal].n
  {
    path := [];
    if prev[goal].Some? || goal == src {
      var u := goal;
      var pairs: seq<(Cell, Cell)> := [];
      while prev[u].Some?
        invariant u in dist && u in prev && dist[u].Fin? && dist[goal].Fin?
        invariant WalkBetween(m, ByEdges, [u] + path, u, goal)
        invariant |path| + dist[u].n == dist[goal].n
        invariant FartherLinks(pairs, dist, dist[u].n)
        decreases dist[u].n
      {
        var link := prev[u].value;
        LinkBack(m, src, hop, dist, prev, u);
        FartherLinksStep(pairs, dist, u, link);
        if (u, link) in pairs {
          assert false;
          break;
        }
        pairs := pairs + [(u, link)];
        WalkPrepend(m, link, u, [u] + path, goal);
        path := [u] + path;
        u := link;
      }
      assert u == src;
    }
  }

  /** Every recorded pair starts at a cell farther from the start than `n`. */
  ghost predicate FartherLinks(pairs: seq<(Cell, Cell)>, dist: map<Cell, Dist>, n: nat) {
    forall i :: 0 <= i < |pairs| ==> pairs[i].0 in dist && dist[pairs[i].0].Fin? && dist[pairs[i].0].n > n
  }

  /** The pair leaving `u` is new, and recording it keeps every pair farther than the link. */
  lemma FartherLinksStep(pairs: seq<(Cell, Cell)>, dist: map<Cell, Dist>, u: Cell, link: Cell)
    requires u in dist && dist[u].Fin? && link in dist && dist[link].Fin? && dist[u].n == dist[link].n + 1
    requires FartherLinks(pairs, dist, dist[u].n)
    ensures (u, link) !in pairs && FartherLinks(pairs + [(u, link)], dist, dist[link].n)
  {
    forall i | 0 <= i < |pairs|
      ensures pairs[i].0 != u
    {
      assert dist[pairs[i].0].n > dist[u].n;
    }
  }

  /** A `prev` link of a finished run steps back through an open side to a cell one closer to the start. */
  lemma LinkBack(m: Maze, src: Cell, hop: map<Cell, Dist>, dist: map<Cell, Dist>, prev: map<Cell, Option<Cell>>, u: Cell)
    requires DijkstraState(m, src, hop, Grid(m.width, m.height), dist, prev) && u in prev && prev[u].Some?
    ensures prev[u].value in dist && prev[u].value in prev && dist[prev[u].value].Fin? && dist[u].Fin?
    ensures dist[u].n == dist[prev[u].value].n + 1 && u in Succ(m, ByEdges, prev[u].value)
  {
    assert LinkOk(m, Grid(m.width, m.height), dist, u, prev[u].value);
  }

  /** A walk never enters the grid from outside: the boundary segments are walls on both sides. */
  lemma {:induction false} OffGridBall(m: Maze, start: Cell, k: nat)
    requires BoundarySegments(m) && !InGrid(m, start)
    ensures forall c :: c in Ball(m, ByEdges, start, k) ==> !InGrid(m, c)
  {
    if k > 0 {
      OffGridBall(m, start, k - 1);
      forall c | c in Ball(m, ByEdges, start, k) ensures !InGrid(m, c) {
        if c !in Ball(m, ByEdges, start, k - 1) {
          var u :| u in Ball(m, ByEdges, start, k - 1) && c in Succ(m, ByEdges, u);
          if InGrid(m, c) {
            EdgeStepSymmetric(m, u, c);
            var d := SuccElim(m, ByEdges, c, u);
            BoundaryKeepsInGrid(m, c, d);
          }
        }
      }
    }
  }

  /** A hop distance held in the table is the length of the shortest walk. */
  lemma ShortestFromTable(m: Maze, src: Cell, hop: map<Cell, Dist>, goal: Cell)
    requires HopTable(m, src, hop) && goal in hop
    ensures hop[goal].Fin? <==> Reachable(m, ByEdges, src, goal)
    ensures hop[goal].Fin? ==> forall q :: WalkBetween(m, ByEdges, q, src, goal) ==> |q| >= hop[goal].n + 1
  {
    HopInf(m, src, goal);
    if hop[goal].Fin? {
      TableFin(m, src, hop, goal);
      var p := LayerHasShortestWalk(m, ByEdges, src, goal, hop[goal].n);
    }
  }

  /**
   * `Maze.dijkstra(starting, goal)`: the path after the start, ending at the
   * goal. It is empty when the goal is the start or cannot be reached;
   * otherwise it continues the start into a walk through open sides that no
   * walk from the start to the goal undercuts.
   */
  method Dijkstra(m: Maze, start: Cell, goal: Cell) returns (path: seq<Cell>)
    requires BoundarySegments(m) && InGrid(m, goal)
    ensures start == goal ==> path == []
    ensures start != goal ==> (path != [] <==> Reachable(m, ByEdges, start, goal))
    ensures path != [] ==> WalkBetween(m, ByEdges, [start] + path, start, goal)
    ensures path != [] ==> forall q :: WalkBetween(m, ByEdges, q, start, goal) ==> |q| >= |path| + 1
  {
    if !InGrid(m, start) {
      if Reachable(m, ByEdges, start, goal) {
        var k: nat :| goal in Ball(m, ByEdges, start, k);
        OffGridBall(m, start, k);
      }
      return [];
    }
    var dist, prev, hop := SettleAll(m, start);
    path := Reconstruct(m, start, hop, dist, prev, goal);
    ShortestFromTable(m, start, hop, goal);
  }
}

=== FILE: exploration.dfy ===
/**
 * The exploration half of maze.py: the runner walks the ground-truth maze,
 * senses the walls on its left, ahead and on its right, records them in a
 * second "mind" maze, flood-fills the mind maze from the goal and steps to
 * the open neighbour with the smallest flood value (`get_open_neighbors`,
 * `move`, `explore`).
 */
module Exploration {
  import opened Wrappers
  import opened RunnerState
  import opened MazeGrid
  import opened Reach
  import opened FloodFill

  /**
   * The exploring `Maze` object: the ground truth it walks, `_mind_maze`
   * (absent until the first `update_maze`), `_flood_array`,
   * `_visited_cells`, and the heuristic the mind maze's flood fill adds once
   * it has been handed the render settings.
   */
  datatype Explorer = Explorer(
    truth: Maze,
    mind: Option<Maze>,
    flood: map<Cell, real>,
    visited: set<Cell>,
    heuristic: Option<map<Cell, real>>)

  /** `_mind_maze`, or the `Maze(width, height)` that `update_maze` builds when there is none. */
  function MindOf(e: Explorer): Maze {
    if e.mind.Some? then e.mind.value else NewMaze(e.truth.width, e.truth.height)
  }

  /**
   * The bias of the mind maze's flood fill: a freshly built mind maze has the
   * default render settings, so its first flood fill adds no heuristic.
   */
  function BiasOf(e: Explorer): Option<map<Cell, real>> {
    if e.mind.Some? then e.heuristic else None
  }

  /** Every wall the mind maze knows is a wall of the ground truth. */
  ghost predicate MindBelowTruth(mind: Maze, truth: Maze) {
    forall c, d :: GetWalls(mind, c).Get(d) ==> GetWalls(truth, c).Get(d)
  }

  /** A mind maze of the truth's size whose stores agree and that invents no walls. */
  ghost predicate MindFits(mind: Maze, truth: Maze) {
    && mind.width == truth.width && mind.height == truth.height
    && MindConsistent(mind)
    && MindBelowTruth(mind, truth)
  }

  /** Every wall of `a` is a wall of `b`. */
  ghost predicate Grows(a: Maze, b: Maze) {
    forall c, d :: GetWalls(a, c).Get(d) ==> GetWalls(b, c).Get(d)
  }

  /** The mind and the truth agree on side `d` of `c`. */
  ghost predicate SideKnown(mind: Maze, truth: Maze, c: Cell, d: Dir) {
    GetWalls(mind, c).Get(d) == GetWalls(truth, c).Get(d)
  }

  /** The mind agrees with the truth on the three sides the runner senses. */
  ghost predicate SensedSides(mind: Maze, truth: Maze, r: Runner) {
    forall i :: 0 <= i < 3 ==> SideKnown(mind, truth, Pos(r), OrientationOptions(r.orientation)[i])
  }

  /** The invariant exploration keeps. */
  ghost predicate Sound(e: Explorer) {
    && BoundarySegments(e.truth)
    && BiasCovers(e.truth, e.heuristic)
    && (e.mind.Some? ==> MindFits(e.mind.value, e.truth))
  }

  lemma FreshMindFits(truth: Maze)
    requires BoundarySegments(truth)
    ensures MindFits(NewMaze(truth.width, truth.height), truth)
  {
    var m := NewMaze(truth.width, truth.height);
    NewMazeConsistent(truth.width, truth.height);
    forall c, d | GetWalls(m, c).Get(d)
      ensures GetWalls(truth, c).Get(d)
    {
      match d
      case N => assert (c.x, c.y + 1) in m.hWalls;
      case S => assert (c.x, c.y) in m.hWalls;
      case E => assert (c.x + 1, c.y) in m.vWalls;
      case W => assert (c.x, c.y) in m.vWalls;
    }
  }

  lemma MindOfFits(e: Explorer)
    requires Sound(e)
    ensures MindFits(MindOf(e), e.truth)
  {
    if e.mind.None? {
      FreshMindFits(e.truth);
    }
  }

  /** `update_maze` applied to what the runner senses in the ground truth. */
  function Sensed(e: Explorer, r: Runner): (mind: Maze)
    requires Sound(e) && InGrid(e.truth, Pos(r))
    ensures MindFits(mind, e.truth) && Grows(MindOf(e), mind)
    ensures SensedSides(mind, e.truth, r)
  {
    MindOfFits(e);
    var m := MindOf(e);
    assert Pos(r) in m.flags;
    SensedStaysBelow(m, e.truth, r);
    SensedSidesAgree(m, e.truth, r);
    UpdateMaze(m, r, SenseWalls(e.truth, r))
  }

  /** A wall that the sensed walls report is a wall of the truth, seen from either cell. */
  lemma LearnedIsTrue(truth: Maze, r: Runner, c: Cell, d: Dir)
    requires Learned(r, SenseWalls(truth, r), c, d)
    ensures GetWalls(truth, c).Get(d)
  {
    var opts := OrientationOptions(r.orientation);
    var i :| 0 <= i < 3 && LearnedSide(r, SenseWalls(truth, r), i, c, d);
    SharedSegments(truth, Pos(r), opts[i]);
  }

  /** Recording what the runner senses keeps the mind below the truth. */
  lemma SensedStaysBelow(mind: Maze, truth: Maze, r: Runner)
    requires MindFits(mind, truth) && BoundarySegments(truth) && InGrid(truth, Pos(r))
    requires Pos(r) in mind.flags
    ensures MindFits(UpdateMaze(mind, r, SenseWalls(truth, r)), truth)
  {
    var walls := SenseWalls(truth, r);
    var m' := UpdateMaze(mind, r, walls);
    forall c, d | GetWalls(m', c).Get(d)
      ensures GetWalls(truth, c).Get(d)
    {
      if !GetWalls(mind, c).Get(d) {
        LearnedIsTrue(truth, r, c, d);
      }
    }
  }

  /** After recording, the mind agrees with the truth on the three sensed sides. */
  lemma SensedSidesAgree(mind: Maze, truth: Maze, r: Runner)
    requires MindFits(mind, truth) && BoundarySegments(truth) && InGrid(truth, Pos(r))
    requires Pos(r) in mind.flags
    ensures var m' := UpdateMaze(mind, r, SenseWalls(truth, r));
      forall i :: 0 <= i < 3 ==>
        var side := OrientationOptions(r.orientation)[i];
        GetWalls(m', Pos(r)).Get(side) == GetWalls(truth, Pos(r)).Get(side)
  {
    var walls := SenseWalls(truth, r);
    var opts := OrientationOptions(r.orientation);
    var m' := UpdateMaze(mind, r, walls);
    SensedStaysBelow(mind, truth, r);
    forall i | 0 <= i < 3
      ensures GetWalls(m', Pos(r)).Get(opts[i]) == GetWalls(truth, Pos(r)).Get(opts[i])
    {
      if walls[i] {
        assert LearnedSide(r, walls, i, Pos(r), opts[i]);
      }
    }
  }

  /**
   * `flood` is the flood fill of `mind` from `goal`: it values exactly the
   * cells reachable through open flags, a cell `k` steps away getting `k`
   * plus its bias.
   */
  ghost predicate Flooded(flood: map<Cell, real>, mind: Maze, goal: Cell, bias: Option<map<Cell, real>>) {
    && BiasCovers(mind, bias) && flood.Keys <= Grid(mind.width, mind.height)
    && (forall c :: c in flood <==> Reachable(mind, ByFlags, goal, c))
    && (forall c, k :: c in flood && c in Layer(mind, ByFlags, goal, k) ==> flood[c] == FillValue(bias, c, k))
  }

  /** Marking cells visited does not change what sensing records. */
  lemma SensedIgnoresVisited(e: Explorer, r: Runner, visited: set<Cell>)
    requires Sound(e) && InGrid(e.truth, Pos(r))
    ensures Sound(e.(visited := visited)) && Sensed(e.(visited := visited), r) == Sensed(e, r)
    ensures BiasOf(e.(visited := visited)) == BiasOf(e)
  {
  }

  /**
   * `get_open_neighbors`: sense the truth, record the walls in the mind maze
   * (`update_maze`, which also flood-fills the mind maze from the goal) and
   * list the sensed-open neighbours in left, ahead, right order.
   */
  method GetOpenNeighbors(e: Explorer, r: Runner, goal: Cell) returns (e': Explorer, neighbors: seq<Cell>)
    requires Sound(e) && InGrid(e.truth, Pos(r)) && InGrid(e.truth, goal)
    ensures Sound(e') && e'.mind == Some(Sensed(e, r))
    ensures e'.truth == e.truth && e'.visited == e.visited && e'.heuristic == e.heuristic
    ensures neighbors == FreeNodes(e.truth, r)
    ensures SensedSides(e'.mind.value, e.truth, r)
    ensures e.mind.Some? ==> Grows(e.mind.value, e'.mind.value)
    ensures Flooded(e'.flood, e'.mind.value, goal, BiasOf(e))
  {
    var mind := Sensed(e, r);
    ConsistentFlagsWellFormed(mind);
    var flood := FloodFill.FloodFill(mind, goal, BiasOf(e));
    e' := e.(mind := Some(mind), flood := flood);
    neighbors := FreeNodes(e.truth, r);
  }

  /** Where a cell sits among the runner's sensed sides: 0 left, 1 ahead, 2 right, 3 elsewhere. */
  function Rank(r: Runner, n: Cell): nat {
    var o := r.orientation;
    if n == Neighbor(Pos(r), LeftOf(o)) then 0
    else if n == Neighbor(Pos(r), o) then 1
    else if n == Neighbor(Pos(r), RightOf(o)) then 2
    else 3
  }

  /** The cells are listed in strictly increasing side order. */
  predicate RankedStrictly(r: Runner, cs: seq<Cell>) {
    forall i, j :: 0 <= i < j < |cs| ==> Rank(r, cs[i]) < Rank(r, cs[j])
  }

  /** The sensed side in slot `i` has rank `i`. */
  lemma RankOfSlot(r: Runner, i: int)
    requires 0 <= i < 3
    ensures Rank(r, Neighbor(Pos(r), OrientationOptions(r.orientation)[i])) == i
  {
  }

  /** `free_nodes` lists left before ahead before right. */
  lemma FreeNodesRanked(m: Maze, r: Runner)
    ensures RankedStrictly(r, FreeNodes(m, r))
  {
    RankOfSlot(r, 0);
    RankOfSlot(r, 1);
    RankOfSlot(r, 2);
    var nodes := FreeNodes(m, r);
    forall i | 0 <= i < |nodes|
      ensures Rank(r, nodes[i]) < 3
    {
      assert nodes[i] in nodes;
    }
  }

  /**
   * The list `neighbors_with_cost`, keeping the cells: the neighbours that
   * have a flood value, in order.
   */
  function WithFlood(cells: seq<Cell>, flood: map<Cell, real>): (cs: seq<Cell>)
    ensures forall c :: c in cs <==> c in cells && c in flood
    ensures |cs| <= |cells|
  {
    if cells == [] then []
    else if cells[0] in flood then [cells[0]] + WithFlood(cells[1..], flood)
    else WithFlood(cells[1..], flood)
  }

  /** Filtering keeps the order of what it keeps. */
  lemma {:induction false} WithFloodRanked(r: Runner, cells: seq<Cell>, flood: map<Cell, real>)
    requires RankedStrictly(r, cells)
    ensures RankedStrictly(r, WithFlood(cells, flood))
  {
    if cells != [] {
      var rest := cells[1..];
      assert RankedStrictly(r, rest) by {
        forall i, j | 0 <= i < j < |rest|
          ensures Rank(r, rest[i]) < Rank(r, rest[j])
        {
          assert rest[i] == cells[i + 1] && rest[j] == cells[j + 1];
        }
      }
      WithFloodRanked(r, rest, flood);
      var tail := WithFlood(rest, flood);
      forall j | 0 <= j < |tail|
        ensures Rank(r, cells[0]) < Rank(r, tail[j])
      {
        assert tail[j] in tail;
        var t :| 0 <= t < |rest| && rest[t] == tail[j];
        assert rest[t] == cells[t + 1];
      }
    }
  }

  /**
   * The candidate `min` picks by cost: the position of the smallest flood
   * value, where a later equal value never displaces an earlier one.
   */
  function FirstMin(cs: seq<Cell>, flood: map<Cell, real>): (k: nat)
    requires |cs| > 0 && forall c :: c in cs ==> c in flood
    ensures k < |cs|
    ensures forall j :: 0 <= j < |cs| ==> flood[cs[k]] <= flood[cs[j]]
    ensures forall j :: 0 <= j < k ==> flood[cs[j]] > flood[cs[k]]
    decreases |cs|
  {
    if |cs| == 1 then 0
    else
      var front := cs[..|cs| - 1];
      var k := FirstMin(front, flood);
      assert forall j :: 0 <= j < |front| ==> front[j] == cs[j];
      if flood[cs[|cs| - 1]] < flood[cs[k]] then |cs| - 1 else k
  }

  /**
   * The first minimum of a ranked list is the cheapest candidate, and every
   * candidate on an earlier side is strictly dearer.
   */
  lemma FirstMinBySide(r: Runner, cells: seq<Cell>, flood: map<Cell, real>, cs: seq<Cell>, k: nat)
    requires cs == WithFlood(cells, flood) && RankedStrictly(r, cs) && |cs| > 0
    requires k == FirstMin(cs, flood)
    ensures forall n :: n in cells && n in flood ==>
      && flood[cs[k]] <= flood[n]
      && (Rank(r, n) < Rank(r, cs[k]) ==> flood[n] > flood[cs[k]])
  {
    forall n | n in cells && n in flood
      ensures flood[cs[k]] <= flood[n]
      ensures Rank(r, n) < Rank(r, cs[k]) ==> flood[n] > flood[cs[k]]
    {
      var j :| 0 <= j < |cs| && cs[j] == n;
      if j >= k {
        assert j == k || Rank(r, cs[k]) < Rank(r, cs[j]);
      }
    }
  }

  /** The number of left turns that take facing `o` to facing `t`. */
  function LeftsNeeded(o: Dir, t: Dir): nat {
    (IndexOf(o) - IndexOf(t)) % |Orientations|
  }

  lemma LeftTurnCloser(o: Dir, t: Dir)
    requires o != t
    ensures LeftsNeeded(LeftOf(o), t) + 1 == LeftsNeeded(o, t)
  {
  }

  /** A string of `n` left turns. */
  function Lefts(n: nat): (s: string)
    ensures |s| == n && forall i :: 0 <= i < n ==> s[i] == 'L'
  {
    seq(n, _ => 'L')
  }

  lemma PerformOne(r: Runner, a: char)
    ensures Perform(r, [a]) == Act(r, a)
  {
    assert [a][1..] == [];
  }

  /**
   * The `while diff != 0` loop of `move`: turn left until the runner faces
   * `t`, writing one "L" per turn.
   */
  method TurnToward(r: Runner, t: Dir) returns (r': Runner, action: string)
    ensures Pos(r') == Pos(r) && r'.orientation == t
    ensures action == Lefts(LeftsNeeded(r.orientation, t))
    ensures Perform(r, action) == r'
  {
    r', action := r, "";
    var diff := IndexOf(t) - IndexOf(r'.orientation);
    while diff != 0
      invariant Pos(r') == Pos(r) && Perform(r, action) == r'
      invariant diff == IndexOf(t) - IndexOf(r'.orientation)
      invariant |action| + LeftsNeeded(r'.orientation, t) == LeftsNeeded(r.orientation, t)
      invariant forall i :: 0 <= i < |action| ==> action[i] == 'L'
      decreases LeftsNeeded(r'.orientation, t)
    {
      LeftTurnCloser(r'.orientation, t);
      PerformAppend(r, action, "L");
      PerformOne(r', 'L');
      r' := Turn(r', "Left");
      action := action + "L";
      diff := IndexOf(t) - IndexOf(r'.orientation);
    }
    assert action == Lefts(LeftsNeeded(r.orientation, t));
  }

  /** `orientations_dict[coord_diff]`: the facing whose step is `(dx, dy)`, a `KeyError` otherwise. */
  function Heading(dx: int, dy: int): Option<Dir> {
    if (dx, dy) == (0, 1) then Some(N)
    else if (dx, dy) == (1, 0) then Some(E)
    else if (dx, dy) == (0, -1) then Some(S)
    else if (dx, dy) == (-1, 0) then Some(W)
    else None
  }

  /** The lookup recovers the facing of any one-cell step. */
  lemma HeadingOfStep(c: Cell, d: Dir)
    ensures Heading(Neighbor(c, d).x - c.x, Neighbor(c, d).y - c.y) == Some(d)
  {
  }

  /** What `move` writes to face a sensed side: the left turns, with "LLL" rewritten as "R". */
  function TurnsFor(o: Dir, side: Dir): string {
    var lefts := Lefts(LeftsNeeded(o, side));
    if HasTripleLeft(lefts) then CollapseTurns(lefts) else lefts
  }

  lemma CollapseThreeLefts()
    ensures HasTripleLeft("LLL") && CollapseTurns("LLL") == "R"
  {
    assert "LLL"[0] == 'L' && "LLL"[1] == 'L' && "LLL"[2] == 'L';
    assert "LLL"[..3] == "LLL" && "LLL"[3..] == [];
  }

  /** The left cell costs one left turn, the cell ahead none, the right cell one right turn. */
  lemma SideTurns(o: Dir)
    ensures TurnsFor(o, LeftOf(o)) == "L"
    ensures TurnsFor(o, o) == ""
    ensures TurnsFor(o, RightOf(o)) == "R"
  {
    assert LeftsNeeded(o, LeftOf(o)) == 1 && LeftsNeeded(o, o) == 0 && LeftsNeeded(o, RightOf(o)) == 3 by {
      match o
      case N =>
      case E =>
      case S =>
      case W =>
    }
    assert Lefts(1) == "L" && Lefts(0) == "" && Lefts(3) == "LLL";
    CollapseThreeLefts();
  }

  /** `move`'s candidates: sensed-open neighbours that have a flood value. */
  predicate Candidate(truth: Maze, flood: map<Cell, real>, r: Runner, n: Cell) {
    n in FreeNodes(truth, r) && n in flood
  }

  /** Some sensed-open neighbour has a flood value, so `min` has something to choose from. */
  ghost predicate HasCandidate(truth: Maze, flood: map<Cell, real>, r: Runner) {
    exists n :: Candidate(truth, flood, r, n)
  }

  /**
   * `n'` is the candidate Python's `min` returns: no candidate has a smaller
   * flood value, and every candidate on an earlier side has a larger one.
   */
  ghost predicate Cheapest(truth: Maze, flood: map<Cell, real>, r: Runner, n': Cell) {
    && Candidate(truth, flood, r, n')
    && forall n :: Candidate(truth, flood, r, n) ==>
      && flood[n'] <= flood[n]
      && (Rank(r, n) < Rank(r, n') ==> flood[n] > flood[n'])
  }

  /** A sensed-open neighbour lies across one of the three sensed sides, which is open. */
  lemma TargetSide(truth: Maze, r: Runner, n: Cell) returns (side: Dir)
    requires n in FreeNodes(truth, r)
    ensures n == Neighbor(Pos(r), side) && !GetWalls(truth, Pos(r)).Get(side)
    ensures side == LeftOf(r.orientation) || side == r.orientation || side == RightOf(r.orientation)
  {
    var i :| 0 <= i < 3 && n == Neighbor(Pos(r), OrientationOptions(r.orientation)[i]);
    side := OrientationOptions(r.orientation)[i];
  }

  /**
   * The `try` block of `move`: pick the first cheapest candidate and turn
   * left until facing it.
   */
  method FaceCheapest(truth: Maze, flood: map<Cell, real>, r: Runner, cands: seq<Cell>) returns (cur: Runner, action: string)
    requires cands == WithFlood(FreeNodes(truth, r), flood) && cands != []
    ensures Pos(cur) == Pos(r) && Perform(r, action) == cur
    ensures !GetWalls(truth, Pos(r)).Get(cur.orientation)
    ensures Cheapest(truth, flood, r, Neighbor(Pos(r), cur.orientation))
    ensures action == TurnsFor(r.orientation, cur.orientation)
  {
    var here := Pos(r);
    var k := FirstMin(cands, flood);
    var target := cands[k];
    CheapestCandidate(truth, flood, r, cands, k);
    var side := TargetSide(truth, r, target);
    HeadingOfStep(here, side);
    var t := Heading(target.x - here.x, target.y - here.y);
    assert t == Some(side);
    cur, action := TurnAndCollapse(r, t.value);
  }

  /** The candidate `min` picks has a value no larger than any other, and beats every earlier side. */
  lemma CheapestCandidate(truth: Maze, flood: map<Cell, real>, r: Runner, cands: seq<Cell>, k: nat)
    requires cands == WithFlood(FreeNodes(truth, r), flood) && cands != []
    requires k == FirstMin(cands, flood)
    ensures Cheapest(truth, flood, r, cands[k])
  {
    assert cands[k] in cands;
    FreeNodesRanked(truth, r);
    WithFloodRanked(r, FreeNodes(truth, r), flood);
    FirstMinBySide(r, FreeNodes(truth, r), flood, cands, k);
  }

  /** The turning loop followed by the rewrite of three left turns as one right turn. */
  method TurnAndCollapse(r: Runner, t: Dir) returns (cur: Runner, action: string)
    ensures Pos(cur) == Pos(r) && cur.orientation == t
    ensures Perform(r, action) == cur
    ensures action == TurnsFor(r.orientation, t)
  {
    cur, action := TurnToward(r, t);
    if HasTripleLeft(action) {
      CollapseKeepsMeaning(r, action);
      action := CollapseTurns(action);
    }
  }

  /**
   * Everything `move` does before `go_straight`: face the cheapest candidate,
   * or turn around (the `except ValueError` branch) when there is none.
   */
  method Face(truth: Maze, flood: map<Cell, real>, r: Runner, neighbors: seq<Cell>) returns (cur: Runner, action: string)
    requires neighbors == FreeNodes(truth, r)
    ensures Pos(cur) == Pos(r) && Perform(r, action) == cur
    ensures HasCandidate(truth, flood, r) ==>
      && !GetWalls(truth, Pos(r)).Get(cur.orientation)
      && Cheapest(truth, flood, r, Neighbor(Pos(r), cur.orientation))
      && action == TurnsFor(r.orientation, cur.orientation)
    ensures !HasCandidate(truth, flood, r) ==>
      action == "LL" && cur.orientation == Opposite(r.orientation)
  {
    var cands := WithFlood(neighbors, flood);
    if cands != [] {
      cur, action := FaceCheapest(truth, flood, r, cands);
    } else {
      PerformOne(r, 'L');
      PerformOne(Turn(r, "Left"), 'L');
      PerformAppend(r, "L", "L");
      cur := Turn(Turn(r, "Left"), "Left");
      action := "LL";
      assert !HasCandidate(truth, flood, r);
      assert !HasTripleLeft(action);
    }
  }

  /** The runner and the action string `move` returns. */
  datatype Step = Step(runner: Runner, action: string)

  /** `r'` stands one cell on from `r`, across an open side of the truth, facing the way it went. */
  ghost predicate StepTaken(truth: Maze, r: Runner, r': Runner) {
    && Pos(r') == Neighbor(Pos(r), r'.orientation)
    && !GetWalls(truth, Pos(r)).Get(r'.orientation)
    && InGrid(truth, Pos(r'))
  }

  /**
   * `move`: mark the cell visited, update the mind and its flood values,
   * face the cheapest candidate (ties go to the earliest of left, ahead,
   * right) or turn around when there is none, and step forward; a wall
   * ahead makes `go_straight` raise.
   */
  method Move(e: Explorer, r: Runner, goal: Cell) returns (e': Explorer, res: Result<Step, MoveError>)
    requires Sound(e) && InGrid(e.truth, Pos(r)) && InGrid(e.truth, goal)
    ensures Sound(e') && e'.mind == Some(Sensed(e, r))
    ensures e'.truth == e.truth && e'.heuristic == e.heuristic
    ensures Flooded(e'.flood, e'.mind.value, goal, BiasOf(e))
    ensures e'.visited == e.visited + {Pos(r)} + (if res.Success? then {Pos(res.value.runner)} else {})
    ensures res.Success? ==> Perform(r, res.value.action) == res.value.runner && StepTaken(e.truth, r, res.value.runner)
    ensures res.Success? ==> res.value.action in {"F", "LF", "RF", "LLF"}
    ensures SensedSides(e'.mind.value, e.truth, r)
    ensures e.mind.Some? ==> Grows(e.mind.value, e'.mind.value)
    ensures HasCandidate(e.truth, e'.flood, r) ==>
      && res.Success?
      && Cheapest(e.truth, e'.flood, r, Pos(res.value.runner))
      && res.value.action == TurnsFor(r.orientation, res.value.runner.orientation) + "F"
    ensures !HasCandidate(e.truth, e'.flood, r) ==>
      && (res.Success? <==> !GetWalls(e.truth, Pos(r)).Get(Opposite(r.orientation)))
      && (res.Success? ==> res.value.action == "LLF" && res.value.runner.orientation == Opposite(r.orientation))
  {
    var e1, cur, action := Decide(e, r, goal);
    res := StepForward(e.truth, r, cur, action);
    e' := e1.(visited := e1.visited + (if res.Success? then {Pos(res.value.runner)} else {}));
    StepChoice(e.truth, e1.flood, r, cur, action, res);
  }

  /** The part of `move` before `action += "F"`: mark, sense, flood, and face the next cell. */
  method Decide(e: Explorer, r: Runner, goal: Cell) returns (e': Explorer, cur: Runner, action: string)
    requires Sound(e) && InGrid(e.truth, Pos(r)) && InGrid(e.truth, goal)
    ensures Sound(e') && e'.mind == Some(Sensed(e, r))
    ensures e'.truth == e.truth && e'.heuristic == e.heuristic && e'.visited == e.visited + {Pos(r)}
    ensures SensedSides(e'.mind.value, e.truth, r)
    ensures e.mind.Some? ==> Grows(e.mind.value, e'.mind.value)
    ensures Flooded(e'.flood, e'.mind.value, goal, BiasOf(e))
    ensures Pos(cur) == Pos(r) && Perform(r, action) == cur
    ensures HasCandidate(e.truth, e'.flood, r) ==>
      && !GetWalls(e.truth, Pos(r)).Get(cur.orientation)
      && Cheapest(e.truth, e'.flood, r, Neighbor(Pos(r), cur.orientation))
      && action == TurnsFor(r.orientation, cur.orientation)
    ensures !HasCandidate(e.truth, e'.flood, r) ==>
      action == "LL" && cur.orientation == Opposite(r.orientation)
  {
    var neighbors;
    var marked := e.(visited := e.visited + {Pos(r)});
    SensedIgnoresVisited(e, r, marked.visited);
    e', neighbors := GetOpenNeighbors(marked, r, goal);
    cur, action := Face(e.truth, e'.flood, r, neighbors);
  }

  /** What facing and stepping make of the choice: the step goes to the cell chosen, with one of four actions. */
  lemma StepChoice(truth: Maze, flood: map<Cell, real>, r: Runner, cur: Runner, action: string, res: Result<Step, MoveError>)
    requires HasCandidate(truth, flood, r) ==>
      && !GetWalls(truth, Pos(r)).Get(cur.orientation)
      && Cheapest(truth, flood, r, Neighbor(Pos(r), cur.orientation))
      && action == TurnsFor(r.orientation, cur.orientation)
    requires !HasCandidate(truth, flood, r) ==>
      action == "LL" && cur.orientation == Opposite(r.orientation)
    requires res.Success? <==> !GetWalls(truth, Pos(r)).Get(cur.orientation)
    requires res.Success? ==>
      && res.value.action == action + "F"
      && res.value.runner.orientation == cur.orientation
      && StepTaken(truth, r, res.value.runner)
    ensures HasCandidate(truth, flood, r) ==>
      && res.Success?
      && Cheapest(truth, flood, r, Pos(res.value.runner))
      && res.value.action == TurnsFor(r.orientation, res.value.runner.orientation) + "F"
    ensures !HasCandidate(truth, flood, r) ==>
      && (res.Success? <==> !GetWalls(truth, Pos(r)).Get(Opposite(r.orientation)))
      && (res.Success? ==> res.value.action == "LLF" && res.value.runner.orientation == Opposite(r.orientation))
    ensures res.Success? ==> res.value.action in {"F", "LF", "RF", "LLF"}
  {
    if res.Success? {
      if !HasCandidate(truth, flood, r) {
        assert res.value.action == "LL" + "F";
      }
      MoveActions(truth, flood, r, res.value);
    }
  }

  /** Two sides of a cell with the same neighbour are the same side. */
  lemma NeighborInjective(c: Cell, d: Dir, d': Dir)
    requires Neighbor(c, d) == Neighbor(c, d')
    ensures d == d'
  {
  }

  /**
   * Whatever `move` chooses, its action is one of "F", "LF", "RF" and "LLF":
   * the chosen cell lies on a sensed side, which costs "", "L" or "R", and a
   * dead end costs "LL".
   */
  lemma MoveActions(truth: Maze, flood: map<Cell, real>, r: Runner, step: Step)
    requires Pos(step.runner) == Neighbor(Pos(r), step.runner.orientation)
    requires HasCandidate(truth, flood, r) ==>
      && Cheapest(truth, flood, r, Pos(step.runner))
      && step.action == TurnsFor(r.orientation, step.runner.orientation) + "F"
    requires !HasCandidate(truth, flood, r) ==> step.action == "LLF"
    ensures step.action in {"F", "LF", "RF", "LLF"}
  {
    if HasCandidate(truth, flood, r) {
      var side := TargetSide(truth, r, Pos(step.runner));
      NeighborInjective(Pos(r), side, step.runner.orientation);
      SideActions(r.orientation, side);
    }
  }

  /** Facing a sensed side and stepping costs "F", "LF" or "RF". */
  lemma SideActions(o: Dir, side: Dir)
    requires side == LeftOf(o) || side == o || side == RightOf(o)
    ensures TurnsFor(o, side) + "F" in {"F", "LF", "RF", "LLF"}
  {
    SideTurns(o);
    if side == LeftOf(o) {
      assert TurnsFor(o, side) + "F" == "LF";
    } else if side == o {
      assert TurnsFor(o, side) + "F" == "F";
    } else {
      assert TurnsFor(o, side) + "F" == "RF";
    }
  }

  /** `action += "F"` and `go_straight`, which raises when a wall is ahead. */
  method StepForward(truth: Maze, r: Runner, cur: Runner, action: string) returns (res: Result<Step, MoveError>)
    requires BoundarySegments(truth) && InGrid(truth, Pos(r))
    requires Pos(cur) == Pos(r) && Perform(r, action) == cur
    ensures res.Success? <==> !GetWalls(truth, Pos(r)).Get(cur.orientation)
    ensures res.Success? ==>
      && res.value.action == action + "F"
      && res.value.runner.orientation == cur.orientation
      && Perform(r, res.value.action) == res.value.runner
      && StepTaken(truth, r, res.value.runner)
  {
    PerformAppend(r, action, "F");
    PerformOne(cur, 'F');
    var stepped := GoStraight(truth, cur);
    if stepped.Failure? {
      res := Failure(Blocked);
    } else {
      SuccIntro(truth, ByEdges, Pos(r), cur.orientation);
      res := Success(Step(stepped.value, action + "F"));
    }
  }

  /** One row of `exploration_data`: the step number, the cell the step left, and its action string. */
  datatype TraceEntry = TraceEntry(step: nat, x: int, y: int, action: string)

  /** `move` raised (a wall behind a dead end), or the fuel ran out before the goal. */
  datatype ExploreError = Stuck | OutOfFuel

  /** The state `explore` leaves behind: the explorer, the runner, the trace and `num`. */
  datatype Explored = Explored(explorer: Explorer, runner: Runner, trace: seq<TraceEntry>, steps: nat)

  /** The cells the trace rows record, in order. */
  function Trail(trace: seq<TraceEntry>): seq<Cell> {
    seq(|trace|, i requires 0 <= i < |trace| => Cell(trace[i].x, trace[i].y))
  }

  /** The action strings of the trace, concatenated. */
  function Actions(trace: seq<TraceEntry>): string {
    if trace == [] then [] else Actions(trace[..|trace| - 1]) + trace[|trace| - 1].action
  }

  /**
   * The mind `explore` has built after the rows `trace`: the fresh maze, with
   * what the runner senses in the truth recorded before each row's move,
   * the runner being the start runner with the earlier rows replayed.
   */
  function Recorded(truth: Maze, start: Cell, trace: seq<TraceEntry>): Maze
    decreases |trace|
  {
    if trace == [] then NewMaze(truth.width, truth.height)
    else
      var before := trace[..|trace| - 1];
      var m := Recorded(truth, start, before);
      var r := Perform(CreateRunner(start.x, start.y), Actions(before));
      if Pos(r) in m.flags then UpdateMaze(m, r, SenseWalls(truth, r)) else m
  }

  /**
   * What holds after every step of `explore`: the trace is numbered 1, 2, ...,
   * its cells followed by the runner's cell form a walk through open
   * ground-truth sides from the start, replaying its actions from the start
   * runner gives the current runner, the visited cells are the trace cells
   * plus the current one, and the mind is what sensing before each move
   * recorded.
   */
  ghost predicate ExploreInvariant(truth: Maze, heuristic: Option<map<Cell, real>>, start: Cell,
                                   e: Explorer, runner: Runner, trace: seq<TraceEntry>) {
    && TraceInvariant(truth, heuristic, start, e, runner, trace)
    && (e.mind.Some? ==> e.mind.value == Recorded(truth, start, trace))
  }

  /** The part of the invariant about the trace, the runner and the visited cells. */
  ghost predicate TraceInvariant(truth: Maze, heuristic: Option<map<Cell, real>>, start: Cell,
                                 e: Explorer, runner: Runner, trace: seq<TraceEntry>) {
    && Sound(e) && e.truth == truth && e.heuristic == heuristic
    && InGrid(truth, Pos(runner))
    && (forall i :: 0 <= i < |trace| ==> trace[i].step == i + 1)
    && WalkBetween(truth, ByEdges, Trail(trace) + [Pos(runner)], start, Pos(runner))
    && Perform(CreateRunner(start.x, start.y), Actions(trace)) == runner
    && e.visited == Members(Trail(trace)) + (if trace == [] then {} else {Pos(runner)})
    && (e.mind.None? <==> trace == [])
  }

  /**
   * The mind agrees with the truth on every side of every trace cell, except
   * the back of the start: the runner is created facing north there and
   * senses only its left, ahead and right.
   */
  ghost predicate Observed(mind: Maze, truth: Maze, start: Cell, trace: seq<TraceEntry>) {
    forall i, d :: 0 <= i < |trace| && (Trail(trace)[i] != start || d != S) ==>
      SideKnown(mind, truth, Trail(trace)[i], d)
  }

  /**
   * What exploration has seen: the trace cells' sides, and, once the runner
   * has moved, the open side behind it, which it came through.
   */
  ghost predicate ObservedState(truth: Maze, start: Cell, e: Explorer, runner: Runner, trace: seq<TraceEntry>) {
    && (trace == [] ==> runner == CreateRunner(start.x, start.y))
    && (trace != [] ==> e.mind.Some? && Observed(e.mind.value, truth, start, trace))
    && (trace != [] ==> !GetWalls(truth, Pos(runner)).Get(Opposite(runner.orientation)))
  }

  /** Every side is one of the three a runner senses or the one behind it. */
  lemma SidesAround(o: Dir, d: Dir)
    ensures d == LeftOf(o) || d == o || d == RightOf(o) || d == Opposite(o)
  {
  }

  /** A side the old mind agreed on stays agreed on by a larger mind that is still below the truth. */
  lemma KnownStaysKnown(mind: Maze, mind': Maze, truth: Maze, c: Cell, d: Dir)
    requires SideKnown(mind, truth, c, d) && Grows(mind, mind') && MindBelowTruth(mind', truth)
    ensures SideKnown(mind', truth, c, d)
  {
  }

  /** One move records the sides of the cell it leaves and keeps the record of the earlier ones. */
  lemma ObservedStep(truth: Maze, start: Cell, e: Explorer, runner: Runner, trace: seq<TraceEntry>,
                     e': Explorer, step: Step)
    requires ObservedState(truth, start, e, runner, trace)
    requires e'.mind.Some? && MindBelowTruth(e'.mind.value, truth)
    requires SensedSides(e'.mind.value, truth, runner)
    requires e.mind.Some? ==> Grows(e.mind.value, e'.mind.value)
    requires StepTaken(truth, runner, step.runner)
    ensures ObservedState(truth, start, e', step.runner,
                          trace + [TraceEntry(|trace| + 1, runner.x, runner.y, step.action)])
  {
    var row := TraceEntry(|trace| + 1, runner.x, runner.y, step.action);
    var trace' := trace + [row];
    var mind' := e'.mind.value;
    TrailSnoc(trace, row);
    forall i, d | 0 <= i < |trace'| && (Trail(trace')[i] != start || d != S)
      ensures SideKnown(mind', truth, Trail(trace')[i], d)
    {
      if i < |trace| {
        assert Trail(trace')[i] == Trail(trace)[i];
        KnownStaysKnown(e.mind.value, mind', truth, Trail(trace)[i], d);
      } else {
        var o := runner.orientation;
        SidesAround(o, d);
        if d == Opposite(o) {
          if trace == [] {
            assert false;
          }
        } else if d == LeftOf(o) {
          assert OrientationOptions(o)[0] == d;
        } else if d == o {
          assert OrientationOptions(o)[1] == d;
        } else {
          assert OrientationOptions(o)[2] == d;
        }
      }
    }
    SharedSegments(truth, Pos(runner), step.runner.orientation);
  }

  lemma ExploreStart(truth: Maze, heuristic: Option<map<Cell, real>>, start: Cell)
    requires BoundarySegments(truth) && BiasCovers(truth, heuristic) && InGrid(truth, start)
    ensures ExploreInvariant(truth, heuristic, start, Explorer(truth, None, map[], {}, heuristic),
                             CreateRunner(start.x, start.y), [])
  {
    assert Trail([]) + [start] == [start];
    assert Members(Trail([])) == {};
  }

  /** One successful `move` appends its row and keeps the trace part of the invariant. */
  lemma TraceStep(truth: Maze, heuristic: Option<map<Cell, real>>, start: Cell,
                  e: Explorer, runner: Runner, trace: seq<TraceEntry>, e': Explorer, step: Step)
    requires TraceInvariant(truth, heuristic, start, e, runner, trace)
    requires Sound(e') && e'.mind.Some? && e'.truth == truth && e'.heuristic == heuristic
    requires e'.visited == e.visited + {Pos(runner)} + {Pos(step.runner)}
    requires Perform(runner, step.action) == step.runner
    requires StepTaken(truth, runner, step.runner)
    ensures TraceInvariant(truth, heuristic, start, e', step.runner,
                             trace + [TraceEntry(|trace| + 1, runner.x, runner.y, step.action)])
  {
    var row := TraceEntry(|trace| + 1, runner.x, runner.y, step.action);
    SuccIntro(truth, ByEdges, Pos(runner), step.runner.orientation);
    WalkStep(truth, start, runner, trace, row, Pos(step.runner));
    ReplayStep(start, runner, trace, row, step.runner);
    VisitedStep(e.visited, runner, trace, row, Pos(step.runner));
    NumberedStep(trace, row);
  }

  /** Sensing before a move extends the record by that move's row. */
  lemma RecordedStep(truth: Maze, start: Cell, e: Explorer, runner: Runner, trace: seq<TraceEntry>, row: TraceEntry)
    requires Sound(e) && e.truth == truth && InGrid(truth, Pos(runner))
    requires Perform(CreateRunner(start.x, start.y), Actions(trace)) == runner
    requires e.mind.None? <==> trace == []
    requires e.mind.Some? ==> e.mind.value == Recorded(truth, start, trace)
    ensures Sensed(e, runner) == Recorded(truth, start, trace + [row])
  {
    assert (trace + [row])[..|trace|] == trace;
    MindOfFits(e);
    assert MindOf(e) == Recorded(truth, start, trace);
  }

  lemma NumberedStep(trace: seq<TraceEntry>, row: TraceEntry)
    requires forall i :: 0 <= i < |trace| ==> trace[i].step == i + 1
    requires row.step == |trace| + 1
    ensures forall i :: 0 <= i < |trace + [row]| ==> (trace + [row])[i].step == i + 1
  {
    assert forall i :: 0 <= i < |trace| ==> (trace + [row])[i] == trace[i];
  }

  lemma WalkStep(truth: Maze, start: Cell, runner: Runner, trace: seq<TraceEntry>, row: TraceEntry, next: Cell)
    requires WalkBetween(truth, ByEdges, Trail(trace) + [Pos(runner)], start, Pos(runner))
    requires row.x == runner.x && row.y == runner.y && next in Succ(truth, ByEdges, Pos(runner))
    ensures WalkBetween(truth, ByEdges, Trail(trace + [row]) + [next], start, next)
  {
    TrailSnoc(trace, row);
    var p := Extend(truth, ByEdges, Trail(trace) + [Pos(runner)], start, Pos(runner), next);
  }

  lemma ReplayStep(start: Cell, runner: Runner, trace: seq<TraceEntry>, row: TraceEntry, runner': Runner)
    requires Perform(CreateRunner(start.x, start.y), Actions(trace)) == runner
    requires Perform(runner, row.action) == runner'
    ensures Perform(CreateRunner(start.x, start.y), Actions(trace + [row])) == runner'
  {
    ActionsSnoc(trace, row);
    PerformAppend(CreateRunner(start.x, start.y), Actions(trace), row.action);
  }

  lemma VisitedStep(visited: set<Cell>, runner: Runner, trace: seq<TraceEntry>, row: TraceEntry, next: Cell)
    requires visited == Members(Trail(trace)) + (if trace == [] then {} else {Pos(runner)})
    requires row.x == runner.x && row.y == runner.y
    ensures visited + {Pos(runner)} + {next} == Members(Trail(trace + [row])) + {next}
  {
    TrailSnoc(trace, row);
    MembersAppend(Trail(trace), Pos(runner));
  }

  lemma TrailSnoc(trace: seq<TraceEntry>, row: TraceEntry)
    ensures Trail(trace + [row]) == Trail(trace) + [Cell(row.x, row.y)]
  {
  }

  lemma ActionsSnoc(trace: seq<TraceEntry>, row: TraceEntry)
    ensures Actions(trace + [row]) == Actions(trace) + row.action
  {
    assert (trace + [row])[..|trace|] == trace;
  }

  lemma MembersAppend<T>(q: seq<T>, x: T)
    ensures Members(q + [x]) == Members(q) + {x}
  {
  }

  /**
   * `move` took runner `r` to `step.runner` and left explorer `e'`: the mind
   * is what sensing from `r` records, the flood values are its flood fill,
   * both cells are marked visited, and the step goes to the first cheapest
   * candidate, or straight back when there is none.
   */
  ghost predicate Moved(e: Explorer, r: Runner, goal: Cell, e': Explorer, step: Step) {
    && Sound(e) && InGrid(e.truth, Pos(r))
    && e'.truth == e.truth && e'.heuristic == e.heuristic
    && e'.mind == Some(Sensed(e, r))
    && Flooded(e'.flood, e'.mind.value, goal, BiasOf(e))
    && e'.visited == e.visited + {Pos(r)} + {Pos(step.runner)}
    && Perform(r, step.action) == step.runner && StepTaken(e.truth, r, step.runner)
    && (HasCandidate(e.truth, e'.flood, r) ==>
      && Cheapest(e.truth, e'.flood, r, Pos(step.runner))
      && step.action == TurnsFor(r.orientation, step.runner.orientation) + "F")
    && (!HasCandidate(e.truth, e'.flood, r) ==>
      step.action == "LLF" && step.runner.orientation == Opposite(r.orientation))
  }

  /**
   * `move` raises only at a dead end with a wall behind: no sensed-open
   * neighbour is reachable in the mind it records.
   */
  ghost predicate MoveFails(e: Explorer, r: Runner, goal: Cell)
    requires Sound(e) && InGrid(e.truth, Pos(r))
  {
    && (forall n :: n in FreeNodes(e.truth, r) ==> !Reachable(Sensed(e, r), ByFlags, goal, n))
    && GetWalls(e.truth, Pos(r)).Get(Opposite(r.orientation))
  }

  /** Without a candidate, no sensed-open neighbour has a flood value, so none is reachable. */
  lemma NoCandidateUnreachable(truth: Maze, flood: map<Cell, real>, r: Runner, mind: Maze, goal: Cell,
                               bias: Option<map<Cell, real>>)
    requires Flooded(flood, mind, goal, bias) && !HasCandidate(truth, flood, r)
    ensures forall n :: n in FreeNodes(truth, r) ==> !Reachable(mind, ByFlags, goal, n)
  {
    forall n | n in FreeNodes(truth, r)
      ensures !Reachable(mind, ByFlags, goal, n)
    {
      assert !Candidate(truth, flood, r, n);
    }
  }

  /**
   * The run `explore` makes: `es[i]` and `rs[i]` are the explorer and the
   * runner before row `i`, starting from the fresh explorer and the start
   * runner; every row is one `move` taken from a cell other than the goal,
   * and records the cell it left.
   */
  ghost predicate GreedyRun(truth: Maze, heuristic: Option<map<Cell, real>>, start: Cell, goal: Cell,
                            es: seq<Explorer>, rs: seq<Runner>, trace: seq<TraceEntry>) {
    RunShape(truth, heuristic, start, es, rs, trace) && RunRows(goal, es, rs, trace)
  }

  /** A run starts fresh at the start and ends in a sound state on the grid. */
  ghost predicate RunShape(truth: Maze, heuristic: Option<map<Cell, real>>, start: Cell,
                           es: seq<Explorer>, rs: seq<Runner>, trace: seq<TraceEntry>) {
    && |es| == |trace| + 1 && |rs| == |trace| + 1
    && es[0] == Explorer(truth, None, map[], {}, heuristic)
    && rs[0] == CreateRunner(start.x, start.y)
    && Sound(es[|trace|]) && es[|trace|].truth == truth && InGrid(truth, Pos(rs[|trace|]))
  }

  ghost predicate RunRows(goal: Cell, es: seq<Explorer>, rs: seq<Runner>, trace: seq<TraceEntry>)
    requires |es| == |trace| + 1 && |rs| == |trace| + 1
  {
    forall i :: 0 <= i < |trace| ==> RunRow(goal, es, rs, trace, i)
  }

  /** Row `i` of a run: `move` from `rs[i]`, which is not the goal, gave `es[i + 1]` and `rs[i + 1]`. */
  ghost predicate RunRow(goal: Cell, es: seq<Explorer>, rs: seq<Runner>, trace: seq<TraceEntry>, i: nat)
    requires i < |trace| && |es| == |trace| + 1 && |rs| == |trace| + 1
  {
    && Pos(rs[i]) != goal
    && trace[i] == TraceEntry(i + 1, rs[i].x, rs[i].y, trace[i].action)
    && Moved(es[i], rs[i], goal, es[i + 1], Step(rs[i + 1], trace[i].action))
  }

  /**
   * Why a run ended without reaching the goal: `move` raised at the last
   * state, or `fuel` rows were taken.
   */
  ghost predicate RunFailed(goal: Cell, fuel: nat, es: seq<Explorer>, rs: seq<Runner>, trace: seq<TraceEntry>,
                            error: ExploreError)
    requires |es| == |trace| + 1 && |rs| == |trace| + 1
    requires Sound(es[|trace|]) && InGrid(es[|trace|].truth, Pos(rs[|trace|]))
  {
    && Pos(rs[|trace|]) != goal
    && match error
       case Stuck => MoveFails(es[|trace|], rs[|trace|], goal)
       case OutOfFuel => |trace| == fuel
  }

  /** A run grows by one `move` from a state off the goal. */
  lemma RunExtend(truth: Maze, heuristic: Option<map<Cell, real>>, start: Cell, goal: Cell,
                  es: seq<Explorer>, rs: seq<Runner>, trace: seq<TraceEntry>, e': Explorer, r': Runner, row: TraceEntry)
    requires GreedyRun(truth, heuristic, start, goal, es, rs, trace)
    requires RunRow(goal, es + [e'], rs + [r'], trace + [row], |trace|)
    requires Sound(e') && e'.truth == truth && InGrid(truth, Pos(r'))
    ensures GreedyRun(truth, heuristic, start, goal, es + [e'], rs + [r'], trace + [row])
  {
    ShapeSnoc(truth, heuristic, start, es, rs, trace, e', r', row);
    RowsSnoc(goal, es, rs, trace, e', r', row);
  }

  lemma ShapeSnoc(truth: Maze, heuristic: Option<map<Cell, real>>, start: Cell,
                  es: seq<Explorer>, rs: seq<Runner>, trace: seq<TraceEntry>, e': Explorer, r': Runner, row: TraceEntry)
    requires RunShape(truth, heuristic, start, es, rs, trace)
    requires Sound(e') && e'.truth == truth && InGrid(truth, Pos(r'))
    ensures RunShape(truth, heuristic, start, es + [e'], rs + [r'], trace + [row])
  {
    assert (es + [e'])[0] == es[0] && (rs + [r'])[0] == rs[0];
  }

  lemma RowsSnoc(goal: Cell, es: seq<Explorer>, rs: seq<Runner>, trace: seq<TraceEntry>, e': Explorer, r': Runner,
                 row: TraceEntry)
    requires |es| == |trace| + 1 && |rs| == |trace| + 1
    requires RunRows(goal, es, rs, trace)
    requires RunRow(goal, es + [e'], rs + [r'], trace + [row], |trace|)
    ensures RunRows(goal, es + [e'], rs + [r'], trace + [row])
  {
    forall i | 0 <= i < |trace| + 1
      ensures RunRow(goal, es + [e'], rs + [r'], trace + [row], i)
    {
      if i < |trace| {
        assert RunRow(goal, es, rs, trace, i);
        RowSnoc(goal, es, rs, trace, e', r', row, i);
      } else {
        assert i == |trace|;
      }
    }
  }

  lemma LastRow(goal: Cell, es: seq<Explorer>, rs: seq<Runner>, trace: seq<TraceEntry>, e': Explorer, r': Runner, action: string)
    requires |es| == |trace| + 1 && |rs| == |trace| + 1 && Pos(rs[|trace|]) != goal
    requires Moved(es[|trace|], rs[|trace|], goal, e', Step(r', action))
    ensures RunRow(goal, es + [e'], rs + [r'], trace + [TraceEntry(|trace| + 1, rs[|trace|].x, rs[|trace|].y, action)], |trace|)
  {
    var n := |trace|;
    assert (es + [e'])[n] == es[n] && (es + [e'])[n + 1] == e';
    assert (rs + [r'])[n] == rs[n] && (rs + [r'])[n + 1] == r';
  }

  lemma RowSnoc(goal: Cell, es: seq<Explorer>, rs: seq<Runner>, trace: seq<TraceEntry>, e': Explorer, r': Runner,
                row: TraceEntry, i: nat)
    requires i < |trace| && |es| == |trace| + 1 && |rs| == |trace| + 1
    requires RunRow(goal, es, rs, trace, i)
    ensures RunRow(goal, es + [e'], rs + [r'], trace + [row], i)
  {
    assert (es + [e'])[i] == es[i] && (es + [e'])[i + 1] == es[i + 1];
    assert (rs + [r'])[i] == rs[i] && (rs + [r'])[i + 1] == rs[i + 1];
    assert (trace + [row])[i] == trace[i];
  }

  /** A run leaves the goal out of its trace: `explore` stops on the first arrival. */
  lemma RunAvoidsGoal(truth: Maze, heuristic: Option<map<Cell, real>>, start: Cell, goal: Cell,
                      es: seq<Explorer>, rs: seq<Runner>, trace: seq<TraceEntry>)
    requires GreedyRun(truth, heuristic, start, goal, es, rs, trace)
    ensures goal !in Members(Trail(trace))
  {
    forall i | 0 <= i < |trace|
      ensures Trail(trace)[i] != goal
    {
      assert RunRows(goal, es, rs, trace) && RunRow(goal, es, rs, trace, i);
    }
  }

  /** The flood fill of a mind is determined: two maps meeting `Flooded` are equal. */
  lemma FloodedUnique(f: map<Cell, real>, f': map<Cell, real>, mind: Maze, goal: Cell, bias: Option<map<Cell, real>>)
    requires Flooded(f, mind, goal, bias) && Flooded(f', mind, goal, bias)
    ensures f == f'
  {
    forall c | c in f
      ensures c in f' && f[c] == f'[c]
    {
      assert Reachable(mind, ByFlags, goal, c);
      var k: nat :| c in Ball(mind, ByFlags, goal, k);
      var j := InSomeLayer(mind, ByFlags, goal, c, k);
      assert c in f';
      assert f[c] == FillValue(bias, c, j);
    }
    assert f.Keys == f'.Keys;
  }

  /** Two sensed-open neighbours of the same rank are the same cell. */
  lemma RankUnique(m: Maze, r: Runner, n: Cell, n': Cell)
    requires n in FreeNodes(m, r) && n' in FreeNodes(m, r) && Rank(r, n) == Rank(r, n')
    ensures n == n'
  {
    var i :| 0 <= i < 3 && n == Neighbor(Pos(r), OrientationOptions(r.orientation)[i]);
    var j :| 0 <= j < 3 && n' == Neighbor(Pos(r), OrientationOptions(r.orientation)[j]);
    RankOfSlot(r, i);
    RankOfSlot(r, j);
  }

  /** `min` has one answer: the first cheapest candidate is unique. */
  lemma CheapestUnique(truth: Maze, flood: map<Cell, real>, r: Runner, n: Cell, n': Cell)
    requires Cheapest(truth, flood, r, n) && Cheapest(truth, flood, r, n')
    ensures n == n'
  {
    RankUnique(truth, r, n, n');
  }

  /** `move` is deterministic: from one state it leaves one explorer and takes one step. */
  lemma MovedUnique(e: Explorer, r: Runner, goal: Cell, e1: Explorer, s1: Step, e2: Explorer, s2: Step)
    requires Moved(e, r, goal, e1, s1) && Moved(e, r, goal, e2, s2)
    ensures e1 == e2 && s1 == s2
  {
    FloodedUnique(e1.flood, e2.flood, e1.mind.value, goal, BiasOf(e));
    if HasCandidate(e.truth, e1.flood, r) {
      CheapestUnique(e.truth, e1.flood, r, Pos(s1.runner), Pos(s2.runner));
      NeighborInjective(Pos(r), s1.runner.orientation, s2.runner.orientation);
    }
  }

  /** Row `i` of a run was taken off the goal. */
  lemma RunOffGoal(truth: Maze, heuristic: Option<map<Cell, real>>, start: Cell, goal: Cell,
                   es: seq<Explorer>, rs: seq<Runner>, trace: seq<TraceEntry>, i: nat)
    requires GreedyRun(truth, heuristic, start, goal, es, rs, trace) && i < |trace|
    ensures Pos(rs[i]) != goal
  {
    assert RunRows(goal, es, rs, trace) && RunRow(goal, es, rs, trace, i);
  }

  /** Two runs from the same inputs agree on their first `k` rows and on the state after them. */
  lemma {:induction false} RunsAgree(truth: Maze, heuristic: Option<map<Cell, real>>, start: Cell, goal: Cell,
                                     es: seq<Explorer>, rs: seq<Runner>, trace: seq<TraceEntry>,
                                     es': seq<Explorer>, rs': seq<Runner>, trace': seq<TraceEntry>, k: nat)
    requires GreedyRun(truth, heuristic, start, goal, es, rs, trace)
    requires GreedyRun(truth, heuristic, start, goal, es', rs', trace')
    requires k <= |trace| && k <= |trace'|
    ensures es[k] == es'[k] && rs[k] == rs'[k]
    ensures forall i :: 0 <= i < k ==> trace[i] == trace'[i]
    decreases k
  {
    if k > 0 {
      RunsAgree(truth, heuristic, start, goal, es, rs, trace, es', rs', trace', k - 1);
      RowsAgree(goal, es, rs, trace, es', rs', trace', k - 1);
    }
  }

  /** Two runs in the same state take the same next row. */
  lemma RowsAgree(goal: Cell, es: seq<Explorer>, rs: seq<Runner>, trace: seq<TraceEntry>,
                  es': seq<Explorer>, rs': seq<Runner>, trace': seq<TraceEntry>, j: nat)
    requires |es| == |trace| + 1 && |rs| == |trace| + 1 && RunRows(goal, es, rs, trace)
    requires |es'| == |trace'| + 1 && |rs'| == |trace'| + 1 && RunRows(goal, es', rs', trace')
    requires j < |trace| && j < |trace'| && es[j] == es'[j] && rs[j] == rs'[j]
    ensures es[j + 1] == es'[j + 1] && rs[j + 1] == rs'[j + 1] && trace[j] == trace'[j]
  {
    assert RunRow(goal, es, rs, trace, j);
    assert RunRow(goal, es', rs', trace', j);
    MovedUnique(es[j], rs[j], goal, es[j + 1], Step(rs[j + 1], trace[j].action),
                es'[j + 1], Step(rs'[j + 1], trace'[j].action));
  }

  /**
   * The run that reaches the goal is unique: two runs from the same inputs
   * that both end on the goal have the same states and the same rows.
   */
  lemma ArrivalUnique(truth: Maze, heuristic: Option<map<Cell, real>>, start: Cell, goal: Cell,
                      es: seq<Explorer>, rs: seq<Runner>, trace: seq<TraceEntry>,
                      es': seq<Explorer>, rs': seq<Runner>, trace': seq<TraceEntry>)
    requires GreedyRun(truth, heuristic, start, goal, es, rs, trace) && Pos(rs[|trace|]) == goal
    requires GreedyRun(truth, heuristic, start, goal, es', rs', trace') && Pos(rs'[|trace'|]) == goal
    ensures es == es' && rs == rs' && trace == trace'
  {
    if |trace| < |trace'| {
      RunsAgree(truth, heuristic, start, goal, es, rs, trace, es', rs', trace', |trace|);
      RunOffGoal(truth, heuristic, start, goal, es', rs', trace', |trace|);
      assert false;
    }
    if |trace'| < |trace| {
      RunsAgree(truth, heuristic, start, goal, es, rs, trace, es', rs', trace', |trace'|);
      RunOffGoal(truth, heuristic, start, goal, es, rs, trace, |trace'|);
      assert false;
    }
    forall i | 0 <= i <= |trace|
      ensures es[i] == es'[i] && rs[i] == rs'[i]
    {
      RunsAgree(truth, heuristic, start, goal, es, rs, trace, es', rs', trace', i);
    }
    RunsAgree(truth, heuristic, start, goal, es, rs, trace, es', rs', trace', |trace|);
  }

  /** One pass of `explore`'s loop: `move`, `num += 1`, and the new trace row. */
  method ExploreStep(truth: Maze, heuristic: Option<map<Cell, real>>, start: Cell, goal: Cell,
                     e: Explorer, runner: Runner, trace: seq<TraceEntry>)
    returns (res: Result<Explored, ExploreError>)
    requires ExploreInvariant(truth, heuristic, start, e, runner, trace) && InGrid(truth, goal)
    requires ObservedState(truth, start, e, runner, trace)
    ensures res.Failure? ==> res.error == Stuck && MoveFails(e, runner, goal)
    ensures res.Success? ==>
      && res.value.steps == |res.value.trace| == |trace| + 1
      && res.value.trace == trace + [TraceEntry(|trace| + 1, runner.x, runner.y, res.value.trace[|trace|].action)]
      && Moved(e, runner, goal, res.value.explorer, Step(res.value.runner, res.value.trace[|trace|].action))
      && ExploreInvariant(truth, heuristic, start, res.value.explorer, res.value.runner, res.value.trace)
      && ObservedState(truth, start, res.value.explorer, res.value.runner, res.value.trace)
  {
    var e', step := Move(e, runner, goal);
    if step.Failure? {
      NoCandidateUnreachable(truth, e'.flood, runner, e'.mind.value, goal, BiasOf(e));
      return Failure(Stuck);
    }
    TraceStep(truth, heuristic, start, e, runner, trace, e', step.value);
    RecordedStep(truth, start, e, runner, trace, TraceEntry(|trace| + 1, runner.x, runner.y, step.value.action));
    ObservedStep(truth, start, e, runner, trace, e', step.value);
    var num := |trace| + 1;
    var trace' := trace + [TraceEntry(num, runner.x, runner.y, step.value.action)];
    assert trace'[|trace|].action == step.value.action;
    res := Success(Explored(e', step.value.runner, trace', num));
  }

  /** One pass of `explore`'s loop, off the goal, extending the run it makes by that pass's row. */
  method RunStep(truth: Maze, heuristic: Option<map<Cell, real>>, start: Cell, goal: Cell,
                 e: Explorer, runner: Runner, trace: seq<TraceEntry>, ghost es: seq<Explorer>, ghost rs: seq<Runner>)
    returns (res: Result<Explored, ExploreError>)
    requires ExploreInvariant(truth, heuristic, start, e, runner, trace) && InGrid(truth, goal)
    requires ObservedState(truth, start, e, runner, trace)
    requires GreedyRun(truth, heuristic, start, goal, es, rs, trace) && es[|trace|] == e && rs[|trace|] == runner
    requires Pos(runner) != goal
    ensures res.Failure? ==> res.error == Stuck && MoveFails(e, runner, goal)
    ensures res.Success? ==>
      && res.value.steps == |res.value.trace| == |trace| + 1
      && ExploreInvariant(truth, heuristic, start, res.value.explorer, res.value.runner, res.value.trace)
      && ObservedState(truth, start, res.value.explorer, res.value.runner, res.value.trace)
      && GreedyRun(truth, heuristic, start, goal, es + [res.value.explorer], rs + [res.value.runner], res.value.trace)
  {
    res := ExploreStep(truth, heuristic, start, goal, e, runner, trace);
    if res.Success? {
      var action := res.value.trace[|trace|].action;
      LastRow(goal, es, rs, trace, res.value.explorer, res.value.runner, action);
      RunExtend(truth, heuristic, start, goal, es, rs, trace, res.value.explorer, res.value.runner,
                TraceEntry(|trace| + 1, runner.x, runner.y, action));
    }
  }

  /**
   * `explore`: call `move` until the runner stands on the goal, recording one
   * trace row per call, and return the number of calls. The source loops
   * without bound; `fuel` caps the number of calls. The ghost results are
   * the run made, `es`, `rs` and `rows`, whether or not it reached the goal.
   */
  method Explore(truth: Maze, heuristic: Option<map<Cell, real>>, start: Cell, goal: Cell, fuel: nat)
    returns (res: Result<Explored, ExploreError>, ghost es: seq<Explorer>, ghost rs: seq<Runner>,
             ghost rows: seq<TraceEntry>)
    requires BoundarySegments(truth) && BiasCovers(truth, heuristic)
    requires InGrid(truth, start) && InGrid(truth, goal)
    ensures GreedyRun(truth, heuristic, start, goal, es, rs, rows)
    ensures res.Failure? ==> RunFailed(goal, fuel, es, rs, rows, res.error)
    ensures start == goal ==> res.Success? && res.value.steps == 0 && res.value.explorer.mind.None?
    ensures res.Success? ==>
      && res.value == Explored(es[|rows|], rs[|rows|], rows, |rows|)
      && Pos(res.value.runner) == goal && goal !in Members(Trail(rows))
      && res.value.steps == |res.value.trace| <= fuel
      && ExploreInvariant(truth, heuristic, start, res.value.explorer, res.value.runner, res.value.trace)
      && ObservedState(truth, start, res.value.explorer, res.value.runner, res.value.trace)
  {
    var e := Explorer(truth, None, map[], {}, heuristic);
    var runner := CreateRunner(start.x, start.y);
    var trace: seq<TraceEntry> := [];
    var num: nat := 0;
    es, rs, rows := [e], [runner], [];
    ExploreStart(truth, heuristic, start);
    while Pos(runner) != goal
      invariant ExploreInvariant(truth, heuristic, start, e, runner, trace)
      invariant ObservedState(truth, start, e, runner, trace)
      invariant GreedyRun(truth, heuristic, start, goal, es, rs, trace)
      invariant rows == trace && es[|trace|] == e && rs[|trace|] == runner
      invariant num == |trace| <= fuel
      invariant trace == [] ==> Pos(runner) == start
      invariant trace != [] ==> start != goal
      decreases fuel - num
    {
      if num == fuel {
        res := Failure(OutOfFuel);
        return;
      }
      var next := RunStep(truth, heuristic, start, goal, e, runner, trace, es, rs);
      if next.Failure? {
        res := Failure(Stuck);
        return;
      }
      es, rs := es + [next.value.explorer], rs + [next.value.runner];
      e, runner, trace, num := next.value.explorer, next.value.runner, next.value.trace, next.value.steps;
      rows := trace;
    }
    RunAvoidsGoal(truth, heuristic, start, goal, es, rs, trace);
    res := Success(Explored(e, runner, trace, num));
  }
}

=== FILE: floodfill.dfy ===
/**
 * `Maze.flood_fill`: a layered breadth-first search from the goal over the
 * per-cell wall flags. The first value written for a cell is kept. With a
 * bias (the Euclidean or "hope" heuristic), a cell first reached in layer k
 * stores k plus its bias; the goal always stores 0.
 */
module FloodFill {
  import opened Wrappers
  import opened RunnerState
  import opened MazeGrid
  import opened Reach

  /** A bias is defined on every cell of the grid, as the heuristic maps are. */
  predicate BiasCovers(m: Maze, bias: Option<map<Cell, real>>) {
    bias.Some? ==> Grid(m.width, m.height) <= bias.value.Keys
  }

  /** The value stored for a cell first reached in layer `k`. */
  function FillValue(bias: Option<map<Cell, real>>, c: Cell, k: nat): real
    requires bias.Some? && k > 0 ==> c in bias.value
  {
    if k == 0 then 0.0
    else if bias.None? then k as real
    else k as real + bias.value[c]
  }

  /**
   * `after` keeps every value of `before`, and each cell it adds holds the
   * fill value of pass `fill`.
   */
  ghost predicate Extends(bias: Option<map<Cell, real>>, fill: nat, before: map<Cell, real>, after: map<Cell, real>) {
    && (forall n :: n in before ==> n in after && after[n] == before[n])
    && (forall n :: n in after && n !in before ==> (bias.Some? ==> n in bias.value) && after[n] == FillValue(bias, n, fill))
  }

  lemma ExtendsTrans(bias: Option<map<Cell, real>>, fill: nat, a: map<Cell, real>, b: map<Cell, real>, c: map<Cell, real>)
    requires Extends(bias, fill, a, b) && Extends(bias, fill, b, c)
    ensures Extends(bias, fill, a, c)
  {
  }

  /**
   * One step of the inner loop over the four sides: the
   * neighbour on side `d` gets the current fill value and joins the next
   * queue when its flag is open and it has no value yet.
   */
  method VisitSide(m: Maze, c: Cell, d: Dir, bias: Option<map<Cell, real>>, fill: nat,
                   field: map<Cell, real>, nextQueue: seq<Cell>)
    returns (field': map<Cell, real>, nextQueue': seq<Cell>)
    requires FlagsWellFormed(m) && InGrid(m, c) && BiasCovers(m, bias) && fill > 0
    ensures field'.Keys == field.Keys + (if Open(m, ByFlags, c, d) then {Neighbor(c, d)} else {})
    ensures Extends(bias, fill, field, field')
    ensures forall n :: n in nextQueue' <==> n in nextQueue || (n in field' && n !in field)
  {
    var n := Neighbor(c, d);
    if !m.flags[c].Get(d) && n !in field {
      assert InGrid(m, n);
      var value := if bias.Some? then fill as real + bias.value[n] else fill as real;
      field', nextQueue' := field[n := value], nextQueue + [n];
    } else {
      field', nextQueue' := field, nextQueue;
    }
  }

  /**
   * The inner loop for one queued cell, over the neighbours in the order
   * N, E, S, W: every neighbour behind an open flag that has no value yet
   * gets the current fill value and joins the next queue.
   */
  method VisitNeighbors(m: Maze, c: Cell, bias: Option<map<Cell, real>>, fill: nat,
                        field: map<Cell, real>, nextQueue: seq<Cell>)
    returns (field': map<Cell, real>, nextQueue': seq<Cell>)
    requires FlagsWellFormed(m) && InGrid(m, c) && BiasCovers(m, bias) && fill > 0
    ensures field'.Keys == field.Keys + Succ(m, ByFlags, c)
    ensures Extends(bias, fill, field, field')
    ensures forall n :: n in nextQueue' <==> n in nextQueue || (n in field' && n !in field)
  {
    field', nextQueue' := field, nextQueue;
    var i := 0;
    while i < |Orientations|
      invariant 0 <= i <= |Orientations|
      invariant field'.Keys == field.Keys + SuccPrefix(m, ByFlags, c, i)
      invariant Extends(bias, fill, field, field')
      invariant forall n :: n in nextQueue' <==> n in nextQueue || (n in field' && n !in field)
    {
      ghost var prev := field';
      field', nextQueue' := VisitSide(m, c, Orientations[i], bias, fill, field', nextQueue');
      assert Extends(bias, fill, field, field') by {
        ExtendsTrans(bias, fill, field, prev, field');
      }
      assert field'.Keys == field.Keys + SuccPrefix(m, ByFlags, c, i + 1) by {
        SuccPrefixStep(m, ByFlags, c, i);
      }
      i := i + 1;
    }
    SuccPrefixAll(m, ByFlags, c);
  }

  /**
   * One pass of the outer `while queue:` loop: every cell of the queue is
   * visited in order, so the field grows by the successors of the queued
   * cells, and the cells newly given a value form the next queue.
   */
  method FillLayer(m: Maze, bias: Option<map<Cell, real>>, fill: nat,
                   queue: seq<Cell>, field: map<Cell, real>)
    returns (field': map<Cell, real>, nextQueue: seq<Cell>)
    requires FlagsWellFormed(m) && BiasCovers(m, bias) && fill >= 1
    requires forall c :: c in queue ==> InGrid(m, c)
    ensures field'.Keys == field.Keys + Next(m, ByFlags, Members(queue))
    ensures forall c :: c in nextQueue <==> c in field' && c !in field
    ensures Extends(bias, fill, field, field')
  {
    nextQueue := [];
    field' := field;
    var i := 0;
    while i < |queue|
      invariant 0 <= i <= |queue|
      invariant field'.Keys == field.Keys + Next(m, ByFlags, Members(queue[..i]))
      invariant Extends(bias, fill, field, field')
      invariant forall c :: c in nextQueue <==> c in field' && c !in field
    {
      assert queue[i] in queue;
      ghost var prev := field';
      field', nextQueue := VisitNeighbors(m, queue[i], bias, fill, field', nextQueue);
      ExtendsTrans(bias, fill, field, prev, field');
      MembersSnoc(queue, i);
      NextGrows(m, ByFlags, field.Keys, prev.Keys, field'.Keys, Members(queue[..i]), queue[i]);
      i := i + 1;
    }
    assert queue[..|queue|] == queue;
  }

  lemma NextGrows(m: Maze, adj: Adjacency, base: set<Cell>, keys: set<Cell>, keys': set<Cell>,
                  done: set<Cell>, u: Cell)
    requires keys == base + Next(m, adj, done)
    requires keys' == keys + Succ(m, adj, u)
    ensures keys' == base + Next(m, adj, done + {u})
  {
    NextUnion(m, adj, done, {u});
    NextSingleton(m, adj, u);
  }

  /**
   * The breadth-first step in terms of balls and layers: if the queue lists
   * layer `fill - 1` and the field held the ball of radius `fill - 1`, one
   * pass leaves the ball of radius `fill` and queues layer `fill`.
   */
  lemma LayerStep(m: Maze, goal: Cell, fill: nat, queue: seq<Cell>, before: set<Cell>,
                  after: set<Cell>, nextQueue: seq<Cell>)
    requires fill >= 1
    requires before == Ball(m, ByFlags, goal, fill - 1)
    requires forall c :: c in queue <==> c in Layer(m, ByFlags, goal, fill - 1)
    requires after == before + Next(m, ByFlags, Members(queue))
    requires forall c :: c in nextQueue <==> c in after && c !in before
    ensures after == Ball(m, ByFlags, goal, fill)
    ensures forall c :: c in nextQueue <==> c in Layer(m, ByFlags, goal, fill)
  {
    assert Members(queue) == Layer(m, ByFlags, goal, fill - 1);
    BallFromLayer(m, ByFlags, goal, fill);
  }

  lemma ShrinkingRemainder<T>(all: set<T>, small: set<T>, large: set<T>, x: T)
    requires small <= large <= all
    ensures |all - large| <= |all - small|
    ensures x in large && x !in small ==> |all - large| < |all - small|
  {
    var a, b := all - large, all - small;
    assert b == a + (b - a) && a * (b - a) == {};
    if x in large && x !in small {
      assert b - a == (b - a - {x}) + {x};
    }
  }

  lemma ListedSetEmpty<T>(q: seq<T>, s: set<T>)
    requires q == [] && forall c :: c in q <==> c in s
    ensures s == {}
  {
  }

  /** Every stored value is the fill value of the layer its cell lies in. */
  ghost predicate LayerValues(m: Maze, goal: Cell, bias: Option<map<Cell, real>>, field: map<Cell, real>) {
    && (bias.Some? ==> field.Keys <= bias.value.Keys)
    && forall c, k :: c in field && c in Layer(m, ByFlags, goal, k) ==> field[c] == FillValue(bias, c, k)
  }

  lemma LayerValuesStart(m: Maze, goal: Cell, bias: Option<map<Cell, real>>)
    requires InGrid(m, goal) && BiasCovers(m, bias)
    ensures LayerValues(m, goal, bias, map[goal := 0.0])
  {
    forall c, k | c in map[goal := 0.0] && c in Layer(m, ByFlags, goal, k)
      ensures k == 0
    {
      LayerUnique(m, ByFlags, goal, c, k, 0);
    }
  }

  lemma LayerValuesStep(m: Maze, goal: Cell, bias: Option<map<Cell, real>>, fill: nat,
                        before: map<Cell, real>, field: map<Cell, real>)
    requires fill >= 1 && LayerValues(m, goal, bias, before)
    requires before.Keys == Ball(m, ByFlags, goal, fill - 1)
    requires field.Keys == Ball(m, ByFlags, goal, fill)
    requires Extends(bias, fill, before, field)
    ensures LayerValues(m, goal, bias, field)
  {
    forall c, k | c in field && c in Layer(m, ByFlags, goal, k)
      ensures field[c] == FillValue(bias, c, k)
    {
      if c !in before {
        LayerUnique(m, ByFlags, goal, c, k, fill);
      }
    }
  }

  /** When a layer comes out empty, the ball so far holds every reachable cell. */
  lemma BallComplete(m: Maze, goal: Cell, fill: nat)
    requires fill >= 2 && Layer(m, ByFlags, goal, fill - 1) == {}
    ensures forall c :: Reachable(m, ByFlags, goal, c) ==> c in Ball(m, ByFlags, goal, fill - 1)
  {
    forall c | Reachable(m, ByFlags, goal, c)
      ensures c in Ball(m, ByFlags, goal, fill - 1)
    {
      var k: nat :| c in Ball(m, ByFlags, goal, k);
      assert Ball(m, ByFlags, goal, fill - 1) == Ball(m, ByFlags, goal, fill - 2);
      BallMonotone(m, ByFlags, goal, fill - 2, fill - 1);
      if k <= fill - 1 {
        BallMonotone(m, ByFlags, goal, k, fill - 1);
      } else {
        BallSaturates(m, ByFlags, goal, fill - 2, k);
      }
    }
  }

  /** The state of `flood_fill` before pass `fill`: the ball so far, and its outer layer queued. */
  ghost predicate FloodState(m: Maze, goal: Cell, bias: Option<map<Cell, real>>, fill: nat,
                             queue: seq<Cell>, field: map<Cell, real>) {
    && fill >= 1
    && field.Keys == Ball(m, ByFlags, goal, fill - 1)
    && field.Keys <= Grid(m.width, m.height)
    && (forall c :: c in queue <==> c in Layer(m, ByFlags, goal, fill - 1))
    && LayerValues(m, goal, bias, field)
  }

  lemma FloodStart(m: Maze, goal: Cell, bias: Option<map<Cell, real>>)
    requires InGrid(m, goal) && BiasCovers(m, bias)
    ensures FloodState(m, goal, bias, 1, [goal], map[goal := 0.0])
  {
    LayerValuesStart(m, goal, bias);
  }

  /** When the queue runs dry the field is final: reachability and the layer values. */
  lemma FloodEnd(m: Maze, goal: Cell, bias: Option<map<Cell, real>>, fill: nat, field: map<Cell, real>)
    requires fill >= 2 && FloodState(m, goal, bias, fill, [], field)
    ensures field.Keys <= Grid(m.width, m.height)
    ensures forall c :: c in field <==> Reachable(m, ByFlags, goal, c)
    ensures forall c, k :: c in field && c in Layer(m, ByFlags, goal, k) ==> field[c] == FillValue(bias, c, k)
  {
    ListedSetEmpty([], Layer(m, ByFlags, goal, fill - 1));
    BallComplete(m, goal, fill);
  }

  /** The number of grid cells still without a value. */
  function Unfilled(m: Maze, field: map<Cell, real>): nat {
    |Grid(m.width, m.height) - field.Keys|
  }

  lemma UnfilledShrinks(m: Maze, field: map<Cell, real>, field': map<Cell, real>, added: seq<Cell>)
    requires field.Keys <= field'.Keys <= Grid(m.width, m.height)
    requires forall c :: c in added ==> c in field' && c !in field
    ensures Unfilled(m, field') <= Unfilled(m, field)
    ensures added != [] ==> Unfilled(m, field') < Unfilled(m, field)
  {
    if added != [] {
      assert added[0] in added;
      ShrinkingRemainder(Grid(m.width, m.height), field.Keys, field'.Keys, added[0]);
    } else {
      ShrinkingRemainder(Grid(m.width, m.height), field.Keys, field'.Keys, Cell(0, 0));
    }
  }

  /** What one pass of `FillLayer` does to the loop state. */
  lemma PassKeepsState(m: Maze, goal: Cell, bias: Option<map<Cell, real>>, fill: nat,
                       queue: seq<Cell>, field: map<Cell, real>, queue': seq<Cell>, field': map<Cell, real>)
    requires FlagsWellFormed(m) && InGrid(m, goal) && BiasCovers(m, bias)
    requires FloodState(m, goal, bias, fill, queue, field)
    requires field'.Keys == field.Keys + Next(m, ByFlags, Members(queue))
    requires forall c :: c in queue' <==> c in field' && c !in field
    requires Extends(bias, fill, field, field')
    ensures FloodState(m, goal, bias, fill + 1, queue', field')
    ensures field.Keys <= field'.Keys
  {
    LayerStep(m, goal, fill, queue, field.Keys, field'.Keys, queue');
    FlagsStayInGrid(m);
    BallInGrid(m, ByFlags, goal, fill);
    LayerValuesStep(m, goal, bias, fill, field, field');
  }

  /** One pass of the outer loop, with the facts that keep the loop going and make it stop. */
  method FloodPass(m: Maze, goal: Cell, bias: Option<map<Cell, real>>, fill: nat,
                   queue: seq<Cell>, field: map<Cell, real>)
    returns (field': map<Cell, real>, queue': seq<Cell>)
    requires FlagsWellFormed(m) && InGrid(m, goal) && BiasCovers(m, bias)
    requires FloodState(m, goal, bias, fill, queue, field)
    ensures FloodState(m, goal, bias, fill + 1, queue', field')
    ensures Unfilled(m, field') <= Unfilled(m, field)
    ensures queue' != [] ==> Unfilled(m, field') < Unfilled(m, field)
  {
    LayerInBall(m, ByFlags, goal, fill - 1);
    field', queue' := FillLayer(m, bias, fill, queue, field);
    PassKeepsState(m, goal, bias, fill, queue, field, queue', field');
    UnfilledShrinks(m, field, field', queue');
  }

  /**
   * `flood_fill(goal)`: the keys are exactly the cells reachable from the
   * goal through open flags, and a cell in layer `k` holds the fill value of
   * layer `k`; without a bias that is its hop distance from the goal.
   */
  method FloodFill(m: Maze, goal: Cell, bias: Option<map<Cell, real>>) returns (field: map<Cell, real>)
    requires FlagsWellFormed(m) && InGrid(m, goal) && BiasCovers(m, bias)
    ensures field.Keys <= Grid(m.width, m.height)
    ensures forall c :: c in field <==> Reachable(m, ByFlags, goal, c)
    ensures forall c, k :: c in field && c in Layer(m, ByFlags, goal, k) ==> field[c] == FillValue(bias, c, k)
  {
    var queue := [goal];
    field := map[goal := 0.0];
    var fillValue: nat := 1;
    FloodStart(m, goal, bias);
    while queue != []
      invariant FloodState(m, goal, bias, fillValue, queue, field)
      invariant queue == [] ==> fillValue >= 2
      decreases Unfilled(m, field), |queue|
    {
      field, queue := FloodPass(m, goal, bias, fillValue, queue, field);
      fillValue := fillValue + 1;
    }
    FloodEnd(m, goal, bias, fillValue, field);
  }
}

=== FILE: maze.dfy ===
/**
 * The wall store of the Maze class in maze.py. Walls are kept twice: as two
 * sets of edge segments (`_h_walls` keyed `(x, line)`, `_v_walls` keyed
 * `(line, y)`) and as four flags per cell (`all_walls[(x, y)] = [N, E, S, W]`).
 * The segment inserts write only the sets; `update_maze` writes both.
 */
module MazeGrid {
  import opened Wrappers
  import opened RunnerState

  /** A wall segment key: `(x, line)` for horizontal, `(line, y)` for vertical walls. */
  type Segment = (int, int)

  /** `all_walls[(x, y)]`, the list `[north, east, south, west]`. */
  datatype WallFlags = WallFlags(north: bool, east: bool, south: bool, west: bool) {

    /** The flag of side `d`; the source indexes the list with N=0, E=1, S=2, W=3. */
    function Get(d: Dir): bool {
      match d
      case N => north
      case E => east
      case S => south
      case W => west
    }

    /** The flags with the one of side `d` set. */
    function Set(d: Dir): (f: WallFlags)
      ensures f.Get(d)
      ensures forall d' :: d' != d ==> f.Get(d') == Get(d')
    {
      match d
      case N => this.(north := true)
      case E => this.(east := true)
      case S => this.(south := true)
      case W => this.(west := true)
    }
  }

  datatype Maze = Maze(
    width: nat,
    height: nat,
    hWalls: set<Segment>,
    vWalls: set<Segment>,
    flags: map<Cell, WallFlags>)

  /** The source's failure when the runner is asked to walk into a wall. */
  datatype MoveError = Blocked

  predicate InGrid(m: Maze, c: Cell) {
    0 <= c.x < m.width && 0 <= c.y < m.height
  }

  /** All cells of a `width` by `height` grid. */
  function Grid(width: nat, height: nat): (g: set<Cell>)
    ensures forall c :: c in g <==> 0 <= c.x < width && 0 <= c.y < height
  {
    set x: int, y: int | 0 <= x < width && 0 <= y < height :: Cell(x, y)
  }

  /** The flags the constructor gives cell `c`: set on the sides at the grid's edge. */
  function BoundaryFlags(width: nat, height: nat, c: Cell): WallFlags {
    WallFlags(c.y == height - 1, c.x == width - 1, c.y == 0, c.x == 0)
  }

  /**
   * `Maze.__init__`, wall part: the outer boundary as segments, and flags that
   * are set exactly on the sides facing out of the grid.
   */
  function NewMaze(width: nat, height: nat): (m: Maze)
    ensures m.width == width && m.height == height
    ensures forall s :: s in m.vWalls <==> (s.0 == 0 || s.0 == width) && 0 <= s.1 < height
    ensures forall s :: s in m.hWalls <==> (s.1 == 0 || s.1 == height) && 0 <= s.0 < width
    ensures m.flags.Keys == Grid(width, height)
    ensures forall c, d :: c in m.flags ==> (m.flags[c].Get(d) <==> !InGrid(m, Neighbor(c, d)))
  {
    var vWalls := (set i | 0 <= i < height :: (0, i)) + (set i | 0 <= i < height :: (width, i));
    var hWalls := (set i | 0 <= i < width :: (i, 0)) + (set i | 0 <= i < width :: (i, height));
    var flags := map c | c in Grid(width, height) :: BoundaryFlags(width, height, c);
    BoundaryFlagsFaceOut(width, height);
    Maze(width, height, hWalls, vWalls, flags)
  }

  /** The constructor's flags are set on exactly the sides that lead out of the grid. */
  lemma BoundaryFlagsFaceOut(width: nat, height: nat)
    ensures forall c: Cell, d :: 0 <= c.x < width && 0 <= c.y < height ==>
      (BoundaryFlags(width, height, c).Get(d) <==> !(0 <= Neighbor(c, d).x < width && 0 <= Neighbor(c, d).y < height))
  {
  }

  /** `add_horizontal_wall`: only interior lines are recorded, and only in `_h_walls`. */
  function AddHorizontalWall(m: Maze, x: int, line: int): (m': Maze)
    ensures m'.width == m.width && m'.height == m.height
    ensures m'.vWalls == m.vWalls && m'.flags == m.flags
    ensures m.hWalls <= m'.hWalls && m'.hWalls - m.hWalls <= {(x, line)}
    ensures (x, line) in m'.hWalls <==> (x, line) in m.hWalls || (0 <= x < m.width && 1 <= line < m.height)
  {
    if 0 <= x < m.width && 1 <= line < m.height then m.(hWalls := m.hWalls + {(x, line)}) else m
  }

  /** `add_vertical_wall(y, line)`: records `(line, y)` for interior lines only. */
  function AddVerticalWall(m: Maze, y: int, line: int): (m': Maze)
    ensures m'.width == m.width && m'.height == m.height
    ensures m'.hWalls == m.hWalls && m'.flags == m.flags
    ensures m.vWalls <= m'.vWalls && m'.vWalls - m.vWalls <= {(line, y)}
    ensures (line, y) in m'.vWalls <==> (line, y) in m.vWalls || (0 <= y < m.height && 1 <= line < m.width)
  {
    if 0 <= y < m.height && 1 <= line < m.width then m.(vWalls := m.vWalls + {(line, y)}) else m
  }

  /** Inserting the same segment twice changes nothing beyond the first insert. */
  lemma AddWallIdempotent(m: Maze, a: int, line: int)
    ensures AddHorizontalWall(AddHorizontalWall(m, a, line), a, line) == AddHorizontalWall(m, a, line)
    ensures AddVerticalWall(AddVerticalWall(m, a, line), a, line) == AddVerticalWall(m, a, line)
  {
  }

  /** `get_walls`: the four sides of `(x, y)` read from the segment sets. */
  function GetWalls(m: Maze, c: Cell): WallFlags {
    WallFlags(
      (c.x, c.y + 1) in m.hWalls,
      (c.x + 1, c.y) in m.vWalls,
      (c.x, c.y) in m.hWalls,
      (c.x, c.y) in m.vWalls)
  }

  /**
   * What `get_walls` reports after `add_horizontal_wall`: an interior
   * segment walls the south side of the cell above it and the north side of
   * the cell below it, and every other side reads as before.
   */
  lemma HorizontalWallSeen(m: Maze, x: int, line: int)
    ensures forall c, d :: GetWalls(AddHorizontalWall(m, x, line), c).Get(d) <==>
      || GetWalls(m, c).Get(d)
      || (&& 0 <= x < m.width && 1 <= line < m.height
          && ((c == Cell(x, line) && d == S) || (c == Cell(x, line - 1) && d == N)))
  {
  }

  /**
   * What `get_walls` reports after `add_vertical_wall`: an interior segment
   * walls the west side of the cell right of it and the east side of the
   * cell left of it, and every other side reads as before.
   */
  lemma VerticalWallSeen(m: Maze, y: int, line: int)
    ensures forall c, d :: GetWalls(AddVerticalWall(m, y, line), c).Get(d) <==>
      || GetWalls(m, c).Get(d)
      || (&& 0 <= y < m.height && 1 <= line < m.width
          && ((c == Cell(line, y) && d == W) || (c == Cell(line - 1, y) && d == E)))
  {
  }

  /**
   * Neighbouring cells read the same segment key, so the wall on side `d` of
   * `c` is the wall on the opposite side of the neighbour across it.
   */
  lemma SharedSegments(m: Maze, c: Cell, d: Dir)
    ensures GetWalls(m, c).Get(d) == GetWalls(m, Neighbor(c, d)).Get(Opposite(d))
  {
  }

  /** The outer boundary segments that the constructor inserts. */
  predicate BoundarySegments(m: Maze) {
    && (forall i :: 0 <= i < m.height ==> (0, i) in m.vWalls && (m.width, i) in m.vWalls)
    && (forall i :: 0 <= i < m.width ==> (i, 0) in m.hWalls && (i, m.height) in m.hWalls)
  }

  /** Flags for exactly the grid cells, set on every side that faces out of the grid. */
  predicate FlagsWellFormed(m: Maze) {
    && m.flags.Keys == Grid(m.width, m.height)
    && forall c, d :: c in m.flags && !InGrid(m, Neighbor(c, d)) ==> m.flags[c].Get(d)
  }

  /** The two stores agree: every cell's flags are what `get_walls` reads from the segments. */
  predicate MindConsistent(m: Maze) {
    && m.flags.Keys == Grid(m.width, m.height)
    && BoundarySegments(m)
    && forall c :: c in m.flags ==> m.flags[c] == GetWalls(m, c)
  }

  /** With the boundary segments present, no open side of a grid cell leads out of the grid. */
  lemma BoundaryKeepsInGrid(m: Maze, c: Cell, d: Dir)
    requires BoundarySegments(m) && InGrid(m, c)
    requires !GetWalls(m, c).Get(d)
    ensures InGrid(m, Neighbor(c, d))
  {
  }

  lemma ConsistentFlagsWellFormed(m: Maze)
    requires MindConsistent(m)
    ensures FlagsWellFormed(m)
  {
    forall c, d | c in m.flags && !InGrid(m, Neighbor(c, d))
      ensures m.flags[c].Get(d)
    {
      if !m.flags[c].Get(d) {
        BoundaryKeepsInGrid(m, c, d);
      }
    }
  }

  /** A freshly constructed maze already has its two stores in agreement. */
  lemma NewMazeConsistent(width: nat, height: nat)
    ensures MindConsistent(NewMaze(width, height))
  {
    var m := NewMaze(width, height);
    forall c | c in m.flags
      ensures m.flags[c] == GetWalls(m, c)
    {
      assert m.flags[c].Get(N) == GetWalls(m, c).Get(N);
      assert m.flags[c].Get(E) == GetWalls(m, c).Get(E);
      assert m.flags[c].Get(S) == GetWalls(m, c).Get(S);
      assert m.flags[c].Get(W) == GetWalls(m, c).Get(W);
    }
  }

  /**
   * `sense_walls`: the walls at the runner's cell on its left, ahead and on
   * its right, in that order.
   */
  function SenseWalls(m: Maze, r: Runner): (sensed: seq<bool>)
    ensures |sensed| == 3
    ensures sensed[0] == GetWalls(m, Pos(r)).Get(LeftOf(r.orientation))
    ensures sensed[1] == GetWalls(m, Pos(r)).Get(r.orientation)
    ensures sensed[2] == GetWalls(m, Pos(r)).Get(RightOf(r.orientation))
  {
    var walls := GetWalls(m, Pos(r));
    var options := OrientationOptions(r.orientation);
    [walls.Get(options[0]), walls.Get(options[1]), walls.Get(options[2])]
  }

  /** `go_straight`: one step forward when nothing is sensed ahead, else `ValueError`. */
  function GoStraight(m: Maze, r: Runner): (res: Result<Runner, MoveError>)
    ensures res.Success? <==> !GetWalls(m, Pos(r)).Get(r.orientation)
    ensures res.Success? ==> Pos(res.value) == Neighbor(Pos(r), r.orientation)
    ensures res.Success? ==> res.value.orientation == r.orientation
    ensures res.Success? && BoundarySegments(m) && InGrid(m, Pos(r)) ==> InGrid(m, Pos(res.value))
  {
    if !SenseWalls(m, r)[1] then Success(Forward(r)) else Failure(Blocked)
  }

  /**
   * `free_nodes`: probe left, ahead and right with a copy of the runner and
   * list the cells that are not walled off, in that order.
   */
  function FreeNodes(m: Maze, r: Runner): (nodes: seq<Cell>)
    ensures |nodes| <= 3
    ensures forall i :: 0 <= i < 3 ==>
      var side := OrientationOptions(r.orientation)[i];
      (Neighbor(Pos(r), side) in nodes <==> !GetWalls(m, Pos(r)).Get(side))
    ensures forall c :: c in nodes ==>
      exists i :: 0 <= i < 3 && c == Neighbor(Pos(r), OrientationOptions(r.orientation)[i])
  {
    var free := SenseWalls(m, r);
    var left := if !free[0] then [Pos(Forward(Turn(r, "Left")))] else [];
    var ahead := if !free[1] then [Pos(Forward(r))] else [];
    var right := if !free[2] then [Pos(Forward(Turn(r, "Right")))] else [];
    left + ahead + right
  }

  /** The wall segment between `c` and its neighbour on side `d` goes into the segment sets. */
  function AddSideSegment(m: Maze, c: Cell, d: Dir): Maze {
    match d
    case N => AddHorizontalWall(m, c.x, c.y + 1)
    case E => AddVerticalWall(m, c.y, c.x + 1)
    case S => AddHorizontalWall(m, c.x, c.y)
    case W => AddVerticalWall(m, c.y, c.x)
  }

  /** The neighbour's flag: a `KeyError` for a cell outside the grid is caught and ignored. */
  function SetNeighborFlag(flags: map<Cell, WallFlags>, c: Cell, d: Dir): map<Cell, WallFlags> {
    if c in flags then flags[c := flags[c].Set(d)] else flags
  }

  /**
   * One `if walls[i]:` block of `update_maze`: the segment, the flag on the
   * runner's own cell, and the mirrored flag on the neighbour across the wall.
   */
  function RecordWall(m: Maze, c: Cell, d: Dir): Maze
    requires c in m.flags
  {
    var m1 := AddSideSegment(m, c, d);
    var flags := m1.flags[c := m1.flags[c].Set(d)];
    m1.(flags := SetNeighborFlag(flags, Neighbor(c, d), Opposite(d)))
  }

  /** Side `d` of cell `c` is a wall that slot `i` of `walls`, sensed by `r`, reports. */
  predicate LearnedSide(r: Runner, walls: seq<bool>, i: int, c: Cell, d: Dir)
    requires |walls| == 3
  {
    && 0 <= i < 3
    && walls[i]
    && SameSide(Pos(r), OrientationOptions(r.orientation)[i], c, d)
  }

  /** Side `d` of cell `c` is one that the sensed walls report, seen from either cell. */
  predicate Learned(r: Runner, walls: seq<bool>, c: Cell, d: Dir)
    requires |walls| == 3
  {
    LearnedSide(r, walls, 0, c, d) || LearnedSide(r, walls, 1, c, d) || LearnedSide(r, walls, 2, c, d)
  }

  /** Flags are equal when all four sides agree. */
  lemma FlagsExtensional(a: WallFlags, b: WallFlags)
    requires forall d :: a.Get(d) == b.Get(d)
    ensures a == b
  {
    assert a.Get(N) == b.Get(N) && a.Get(E) == b.Get(E) && a.Get(S) == b.Get(S) && a.Get(W) == b.Get(W);
  }

  /** One slot of `update_maze`: what recording (or skipping) slot `i` changes. */
  lemma UpdateStep(a: Maze, r: Runner, walls: seq<bool>, i: int, b: Maze)
    requires |walls| == 3 && 0 <= i < 3 && Pos(r) in a.flags
    requires b == if walls[i] then RecordWall(a, Pos(r), OrientationOptions(r.orientation)[i]) else a
    ensures b.width == a.width && b.height == a.height && b.flags.Keys == a.flags.Keys
    ensures a.hWalls <= b.hWalls && a.vWalls <= b.vWalls
    ensures forall c, d :: c in a.flags ==>
      (b.flags[c].Get(d) <==> a.flags[c].Get(d) || LearnedSide(r, walls, i, c, d))
    ensures BoundarySegments(a) && InGrid(a, Pos(r)) ==>
      && BoundarySegments(b)
      && forall c, d :: GetWalls(b, c).Get(d) <==> GetWalls(a, c).Get(d) || LearnedSide(r, walls, i, c, d)
  {
    var side := OrientationOptions(r.orientation)[i];
    if walls[i] {
      RecordWallFlags(a, Pos(r), side);
      if BoundarySegments(a) && InGrid(a, Pos(r)) {
        RecordWallSegments(a, Pos(r), side);
      }
    }
  }

  /** Recording side `d` of `c` sets exactly that side's flag, on `c` and on the cell across it. */
  lemma RecordWallFlags(a: Maze, c: Cell, d: Dir)
    requires c in a.flags
    ensures var b := RecordWall(a, c, d);
      && b.width == a.width && b.height == a.height && b.flags.Keys == a.flags.Keys
      && a.hWalls <= b.hWalls && a.vWalls <= b.vWalls
      && forall c', d' :: c' in a.flags ==> (b.flags[c'].Get(d') <==> a.flags[c'].Get(d') || SameSide(c, d, c', d'))
  {
  }

  /** Within a bounded maze, recording side `d` of `c` adds exactly that segment. */
  lemma RecordWallSegments(a: Maze, c: Cell, d: Dir)
    requires c in a.flags && BoundarySegments(a) && InGrid(a, c)
    ensures var b := RecordWall(a, c, d);
      && BoundarySegments(b)
      && forall c', d' :: GetWalls(b, c').Get(d') <==> GetWalls(a, c').Get(d') || SameSide(c, d, c', d')
  {
    var b := RecordWall(a, c, d);
    var m1 := AddSideSegment(a, c, d);
    AddSideSegmentEffect(a, c, d);
    assert b.hWalls == m1.hWalls && b.vWalls == m1.vWalls;
    forall c': Cell ensures GetWalls(b, c') == GetWalls(m1, c') {
    }
  }

  /** Two names of one segment: side `d` of `c` and the opposite side of the cell across it. */
  predicate SameSide(c: Cell, d: Dir, c': Cell, d': Dir) {
    (c' == c && d' == d) || (c' == Neighbor(c, d) && d' == Opposite(d))
  }

  /** Within a bounded maze, recording side `d` of `c` walls exactly that side, from both cells. */
  lemma AddSideSegmentEffect(m: Maze, c: Cell, d: Dir)
    requires BoundarySegments(m) && InGrid(m, c)
    ensures var m' := AddSideSegment(m, c, d);
      && m'.width == m.width && m'.height == m.height && m'.flags == m.flags
      && BoundarySegments(m')
      && forall c', d' :: GetWalls(m', c').Get(d') <==> GetWalls(m, c').Get(d') || SameSide(c, d, c', d')
  {
    var m' := AddSideSegment(m, c, d);
    forall c', d'
      ensures GetWalls(m', c').Get(d') <==> GetWalls(m, c').Get(d') || SameSide(c, d, c', d')
    {
      match d
      case N =>
        assert GetWalls(m', c').Get(d') <==> GetWalls(m, c').Get(d') || (d' == N && (c'.x, c'.y + 1) == (c.x, c.y + 1)) || (d' == S && (c'.x, c'.y) == (c.x, c.y + 1));
      case S =>
        assert GetWalls(m', c').Get(d') <==> GetWalls(m, c').Get(d') || (d' == N && (c'.x, c'.y + 1) == (c.x, c.y)) || (d' == S && (c'.x, c'.y) == (c.x, c.y));
      case E =>
        assert GetWalls(m', c').Get(d') <==> GetWalls(m, c').Get(d') || (d' == E && (c'.x + 1, c'.y) == (c.x + 1, c.y)) || (d' == W && (c'.x, c'.y) == (c.x + 1, c.y));
      case W =>
        assert GetWalls(m', c').Get(d') <==> GetWalls(m, c').Get(d') || (d' == E && (c'.x + 1, c'.y) == (c.x, c.y)) || (d' == W && (c'.x, c'.y) == (c.x, c.y));
    }
  }

  /**
   * The wall-learning half of `update_maze`: every sensed slot `i` becomes a
   * wall on side `orientation_options[i]` of the runner's cell, in both
   * stores, mirrored onto the neighbour; nothing is removed and nothing else
   * changes.
   */
  function UpdateMaze(m: Maze, r: Runner, walls: seq<bool>): (m': Maze)
    requires |walls| == 3 && Pos(r) in m.flags
    ensures m'.width == m.width && m'.height == m.height
    ensures m'.flags.Keys == m.flags.Keys
    ensures m.hWalls <= m'.hWalls && m.vWalls <= m'.vWalls
    ensures forall c, d :: c in m.flags ==>
      (m'.flags[c].Get(d) <==> m.flags[c].Get(d) || Learned(r, walls, c, d))
    ensures BoundarySegments(m) && InGrid(m, Pos(r)) ==>
      && BoundarySegments(m')
      && forall c, d :: GetWalls(m', c).Get(d) <==> GetWalls(m, c).Get(d) || Learned(r, walls, c, d)
    ensures InGrid(m, Pos(r)) && MindConsistent(m) ==> MindConsistent(m')
  {
    var c := Pos(r);
    var options := OrientationOptions(r.orientation);
    var m0 := if walls[0] then RecordWall(m, c, options[0]) else m;
    UpdateStep(m, r, walls, 0, m0);
    var m1 := if walls[1] then RecordWall(m0, c, options[1]) else m0;
    UpdateStep(m0, r, walls, 1, m1);
    var m2 := if walls[2] then RecordWall(m1, c, options[2]) else m1;
    UpdateStep(m1, r, walls, 2, m2);
    UpdateKeepsConsistent(m, r, walls, m2);
    m2
  }

  lemma UpdateKeepsConsistent(m: Maze, r: Runner, walls: seq<bool>, m': Maze)
    requires |walls| == 3
    requires m'.width == m.width && m'.height == m.height && m'.flags.Keys == m.flags.Keys
    requires forall c, d :: c in m.flags ==>
      (m'.flags[c].Get(d) <==> m.flags[c].Get(d) || Learned(r, walls, c, d))
    requires BoundarySegments(m) && InGrid(m, Pos(r)) ==>
      && BoundarySegments(m')
      && forall c, d :: GetWalls(m', c).Get(d) <==> GetWalls(m, c).Get(d) || Learned(r, walls, c, d)
    ensures InGrid(m, Pos(r)) && MindConsistent(m) ==> MindConsistent(m')
  {
    if InGrid(m, Pos(r)) && MindConsistent(m) {
      forall c | c in m'.flags
        ensures m'.flags[c] == GetWalls(m', c)
      {
        FlagsExtensional(m'.flags[c], GetWalls(m', c));
      }
    }
  }

  /** A wall the runner senses in `m` is already a wall of `m`, seen from either cell. */
  lemma LearnedIsKnown(m: Maze, r: Runner, c: Cell, d: Dir)
    requires Learned(r, SenseWalls(m, r), c, d)
    ensures GetWalls(m, c).Get(d)
  {
    var i :| 0 <= i < 3 && LearnedSide(r, SenseWalls(m, r), i, c, d);
    SharedSegments(m, Pos(r), OrientationOptions(r.orientation)[i]);
  }

  /** Recording walls the maze already holds changes nothing: sensing a consistent maze and updating it gives it back. */
  lemma UpdateKnownUnchanged(m: Maze, r: Runner)
    requires MindConsistent(m) && InGrid(m, Pos(r))
    ensures UpdateMaze(m, r, SenseWalls(m, r)) == m
  {
    var m' := UpdateMaze(m, r, SenseWalls(m, r));
    UnchangedFlags(m, r, m');
    UnchangedSegments(m, r, m');
  }

  lemma UnchangedFlags(m: Maze, r: Runner, m': Maze)
    requires MindConsistent(m) && m'.flags.Keys == m.flags.Keys
    requires forall c, d :: c in m.flags ==>
      (m'.flags[c].Get(d) <==> m.flags[c].Get(d) || Learned(r, SenseWalls(m, r), c, d))
    ensures m'.flags == m.flags
  {
    forall c | c in m.flags
      ensures m'.flags[c] == m.flags[c]
    {
      forall d ensures m'.flags[c].Get(d) == m.flags[c].Get(d) {
        if Learned(r, SenseWalls(m, r), c, d) {
          LearnedIsKnown(m, r, c, d);
        }
      }
      FlagsExtensional(m'.flags[c], m.flags[c]);
    }
  }

  lemma UnchangedSegments(m: Maze, r: Runner, m': Maze)
    requires m.hWalls <= m'.hWalls && m.vWalls <= m'.vWalls
    requires forall c, d :: GetWalls(m', c).Get(d) <==> GetWalls(m, c).Get(d) || Learned(r, SenseWalls(m, r), c, d)
    ensures m'.hWalls == m.hWalls && m'.vWalls == m.vWalls
  {
    forall s | s in m'.hWalls
      ensures s in m.hWalls
    {
      var c := Cell(s.0, s.1);
      assert GetWalls(m', c).Get(S);
      if Learned(r, SenseWalls(m, r), c, S) {
        LearnedIsKnown(m, r, c, S);
      }
    }
    forall s | s in m'.vWalls
      ensures s in m.vWalls
    {
      var c := Cell(s.0, s.1);
      assert GetWalls(m', c).Get(W);
      if Learned(r, SenseWalls(m, r), c, W) {
        LearnedIsKnown(m, r, c, W);
      }
    }
  }
}

=== FILE: parser.dfy ===
/**
 * `maze_reader` of maze_runner.py, on the file's lines after `strip()`: it
 * checks that the text is a grid of '#' and '.' framed by '#', with '#' at
 * every wall intersection, and turns each '#' between two intersections into
 * a wall segment of a fresh `Maze`. File row 0 is the north edge, so line
 * `2 * y` of the file holds horizontal line `height - y`.
 */
module MazeReader {
  import opened Wrappers
  import opened MazeGrid

  /**
   * Why `maze_reader` raises `ValueError`. The indices are the 0-based loop
   * indices; the messages print `line + 1`, `position + 1` and, for an
   * intersection, `2 * y + 1 : 2 * x + 1`.
   */
  datatype ReadError =
    | MissingLine                             // the lines differ in length, or there is none
    | OpenBoundary                            // the first or the last line is not all '#'
    | BadWallLine(line: nat)                  // wrong length, or not framed by '#'
    | BadChar(line: nat, position: nat)       // a character other than '#' and '.'
    | BadIntersection(y: nat, x: nat)         // intersection x of horizontal line y is not '#'
    | Malformed                               // an even number of lines: the `IndexError` turned `ValueError`

  /** The set of the lines' lengths. */
  function LineLengths(lines: seq<string>): set<nat> {
    set l | l in lines :: |l|
  }

  /** There is a line, and every line is as long as the first. */
  predicate SameLengths(lines: seq<string>) {
    |lines| > 0 && forall i :: 0 <= i < |lines| ==> |lines[i]| == |lines[0]|
  }

  /** Every character of the line is '#'. */
  predicate AllHash(line: string) {
    forall k :: 0 <= k < |line| ==> line[k] == '#'
  }

  /** `c in "#."`. */
  predicate MazeChar(c: char) {
    c == '#' || c == '.'
  }

  /** The shape test every line must pass: length `2 * width + 1`, '#' at both ends. */
  predicate Framed(line: string, width: nat) {
    |line| == 2 * width + 1 && line[0] == '#' && line[|line| - 1] == '#'
  }

  /** The set of lengths has one element exactly when there is a line and all lengths agree. */
  lemma LineLengthsSingle(lines: seq<string>)
    ensures |LineLengths(lines)| == 1 <==> SameLengths(lines)
  {
    var lengths := LineLengths(lines);
    if SameLengths(lines) {
      assert lengths == {|lines[0]|} by {
        forall l | l in lengths ensures l == |lines[0]| {
          var line :| line in lines && |line| == l;
          var i :| 0 <= i < |lines| && lines[i] == line;
        }
        assert |lines[0]| in lengths;
      }
    } else if |lines| == 0 {
      assert lengths == {};
    } else {
      var i :| 0 <= i < |lines| && |lines[i]| != |lines[0]|;
      assert {|lines[0]|, |lines[i]|} <= lengths;
      assert |{|lines[0]|, |lines[i]|}| == 2;
      SubsetCardinality({|lines[0]|, |lines[i]|}, lengths);
    }
  }

  lemma SubsetCardinality(a: set<nat>, b: set<nat>)
    requires a <= b
    ensures |a| <= |b|
  {
    assert b == a + (b - a);
  }

  /** The first character of `line` at or after `j` that is not '#' or '.'. */
  function FirstBadChar(line: string, j: nat): (r: Option<nat>)
    requires j <= |line|
    ensures r.None? <==> forall k :: j <= k < |line| ==> MazeChar(line[k])
    ensures r.Some? ==> j <= r.value < |line| && !MazeChar(line[r.value])
    ensures r.Some? ==> forall k :: j <= k < r.value ==> MazeChar(line[k])
    decreases |line| - j
  {
    if j == |line| then None
    else if !MazeChar(line[j]) then Some(j)
    else FirstBadChar(line, j + 1)
  }

  /** The checks of one line `i`: its shape first, then its characters. */
  function LineError(line: string, i: nat, width: nat): Option<ReadError> {
    if !Framed(line, width) then Some(BadWallLine(i))
    else match FirstBadChar(line, 0)
      case Some(j) => Some(BadChar(i, j))
      case None => None
  }

  /** Line `i` passes the checks of the line loop. */
  predicate LineValid(line: string, width: nat) {
    Framed(line, width) && forall k :: 0 <= k < |line| ==> MazeChar(line[k])
  }

  /** The line loop from line `i` on: the error of the first line that fails. */
  function FirstLineError(lines: seq<string>, width: nat, i: nat): (r: Option<ReadError>)
    requires i <= |lines|
    ensures r.None? <==> forall k :: i <= k < |lines| ==> LineValid(lines[k], width)
    ensures r.Some? && r.value.BadWallLine? ==>
      i <= r.value.line < |lines| && !Framed(lines[r.value.line], width)
      && forall k :: i <= k < r.value.line ==> LineValid(lines[k], width)
    ensures r.Some? && r.value.BadChar? ==>
      && i <= r.value.line < |lines| && r.value.position < |lines[r.value.line]|
      && Framed(lines[r.value.line], width)
      && !MazeChar(lines[r.value.line][r.value.position])
      && (forall k :: 0 <= k < r.value.position ==> MazeChar(lines[r.value.line][k]))
      && forall k :: i <= k < r.value.line ==> LineValid(lines[k], width)
    ensures r.Some? ==> r.value.BadWallLine? || r.value.BadChar?
    decreases |lines| - i
  {
    if i == |lines| then None
    else match LineError(lines[i], i, width)
      case Some(e) => Some(e)
      case None => FirstLineError(lines, width, i + 1)
  }

  /** The intersections `2 * x` (`x < width`) of the horizontal lines `y < rows` that exist are all '#'. */
  ghost predicate IntersectionsOk(lines: seq<string>, width: nat, rows: nat) {
    forall y, x :: 0 <= y < rows && 0 <= x < width && 2 * y < |lines| && 2 * x < |lines[2 * y]| ==>
      lines[2 * y][2 * x] == '#'
  }

  /** Horizontal segment `s` is drawn as a '#' right of intersection `s.0` on file line `2 * (height - s.1)`. */
  predicate HorizontalMark(lines: seq<string>, width: nat, height: nat, s: Segment) {
    && 0 <= s.0 < width && 0 <= s.1 <= height
    && 2 * (height - s.1) < |lines| && 2 * s.0 + 1 < |lines[2 * (height - s.1)]|
    && lines[2 * (height - s.1)][2 * s.0 + 1] == '#'
  }

  /** Vertical segment `s` is drawn as a '#' at intersection column `s.0` of file line `2 * (height - s.1) - 1`. */
  predicate VerticalMark(lines: seq<string>, width: nat, height: nat, s: Segment) {
    && 0 <= s.0 <= width && 0 <= s.1 < height
    && 2 * (height - s.1) - 1 < |lines| && 2 * s.0 < |lines[2 * (height - s.1) - 1]|
    && lines[2 * (height - s.1) - 1][2 * s.0] == '#'
  }

  /** The marks of the horizontal lines `y < rows` that `add_horizontal_wall` keeps: interior ones. */
  predicate HorizontalAdded(lines: seq<string>, width: nat, height: nat, rows: nat, s: Segment) {
    HorizontalMark(lines, width, height, s) && 1 <= s.1 < height && height - s.1 < rows
  }

  /** Intersection `x` of horizontal line `y` is the first one, in file order, that is not '#'. */
  ghost predicate FirstBadIntersection(lines: seq<string>, width: nat, y: nat, x: nat) {
    && 2 * y < |lines| && x < width && 2 * x < |lines[2 * y]| && lines[2 * y][2 * x] != '#'
    && IntersectionsOk(lines, width, y)
    && forall x' :: 0 <= x' < x && 2 * x' < |lines[2 * y]| ==> lines[2 * y][2 * x'] == '#'
  }

  /**
   * The horizontal-wall loop: for `y` in `0 ..= height`, read line `2 * y`,
   * check its intersections and add the marked segments. A missing line is
   * the `IndexError` that becomes `Malformed`.
   */
  method HorizontalWalls(lines: seq<string>, width: nat, height: nat, m0: Maze) returns (r: Result<Maze, ReadError>)
    requires forall i :: 0 <= i < |lines| ==> |lines[i]| == 2 * width + 1
    requires m0.width == width && m0.height == height
    ensures r.Success? <==> 2 * height < |lines| && IntersectionsOk(lines, width, height + 1)
    ensures r.Failure? ==> (r.error == Malformed <==> IntersectionsOk(lines, width, height + 1))
    ensures r.Failure? ==> r.error == Malformed || r.error.BadIntersection?
    ensures r.Failure? && r.error.BadIntersection? ==> FirstBadIntersection(lines, width, r.error.y, r.error.x)
    ensures r.Success? ==> r.value.width == width && r.value.height == height
    ensures r.Success? ==> r.value.vWalls == m0.vWalls && r.value.flags == m0.flags
    ensures r.Success? ==> forall s :: s in r.value.hWalls <==>
      s in m0.hWalls || HorizontalAdded(lines, width, height, height + 1, s)
  {
    var m := m0;
    var y: nat := 0;
    while y <= height
      invariant y <= height + 1 && (y > 0 ==> 2 * (y - 1) < |lines|)
      invariant IntersectionsOk(lines, width, y)
      invariant m.width == width && m.height == height && m.vWalls == m0.vWalls && m.flags == m0.flags
      invariant forall s :: s in m.hWalls <==> s in m0.hWalls || HorizontalAdded(lines, width, height, y, s)
    {
      if 2 * y >= |lines| {
        return Failure(Malformed);
      }
      var line := lines[2 * y];
      var x: nat := 0;
      while x < width
        invariant x <= width
        invariant forall x' :: 0 <= x' < x ==> line[2 * x'] == '#'
        invariant m.width == width && m.height == height && m.vWalls == m0.vWalls && m.flags == m0.flags
        invariant forall s :: s in m.hWalls <==>
          || s in m0.hWalls || HorizontalAdded(lines, width, height, y, s)
          || (HorizontalAdded(lines, width, height, y + 1, s) && s.0 < x)
      {
        if line[2 * x] != '#' {
          return Failure(BadIntersection(y, x));
        }
        if line[2 * x + 1] == '#' {
          m := AddHorizontalWall(m, x, height - y);
        }
        x := x + 1;
      }
      y := y + 1;
    }
    return Success(m);
  }

  /**
   * The vertical-wall loop: for `y` in `0 .. height`, read line `2 * y + 1`
   * and add the segment of every '#' at an intersection column. It cannot
   * fail once the line count is odd.
   */
  method VerticalWalls(lines: seq<string>, width: nat, height: nat, m0: Maze) returns (m: Maze)
    requires 2 * height < |lines| && forall i :: 0 <= i < |lines| ==> |lines[i]| == 2 * width + 1
    requires m0.width == width && m0.height == height
    ensures m.width == width && m.height == height && m.hWalls == m0.hWalls && m.flags == m0.flags
    ensures forall s :: s in m.vWalls <==> s in m0.vWalls || (VerticalMark(lines, width, height, s) && 1 <= s.0 < width)
  {
    m := m0;
    var y: nat := 0;
    while y < height
      invariant y <= height
      invariant m.width == width && m.height == height && m.hWalls == m0.hWalls && m.flags == m0.flags
      invariant forall s :: s in m.vWalls <==>
        s in m0.vWalls || (VerticalMark(lines, width, height, s) && 1 <= s.0 < width && height - 1 - s.1 < y)
    {
      var line := lines[2 * y + 1];
      var x: nat := 0;
      while x <= width
        invariant x <= width + 1
        invariant m.width == width && m.height == height && m.hWalls == m0.hWalls && m.flags == m0.flags
        invariant forall s :: s in m.vWalls <==>
          || s in m0.vWalls
          || (VerticalMark(lines, width, height, s) && 1 <= s.0 < width && height - 1 - s.1 < y)
          || (VerticalMark(lines, width, height, s) && 1 <= s.0 < width && height - 1 - s.1 == y && s.0 < x)
      {
        if line[2 * x] == '#' {
          m := AddVerticalWall(m, height - y - 1, x);
        }
        x := x + 1;
      }
      y := y + 1;
    }
  }

  /** Everything `maze_reader` checks before it extracts walls. */
  predicate LinesValid(lines: seq<string>) {
    && SameLengths(lines) && AllHash(lines[0]) && AllHash(lines[|lines| - 1])
    && forall i :: 0 <= i < |lines| ==> LineValid(lines[i], |lines[0]| / 2)
  }

  /** A text `maze_reader` accepts: valid lines, an odd count, '#' at every intersection. */
  ghost predicate WellFormed(lines: seq<string>) {
    && LinesValid(lines) && |lines| % 2 == 1
    && IntersectionsOk(lines, |lines[0]| / 2, |lines| / 2 + 1)
  }

  /** The maze `maze_reader` builds from accepted lines: the fresh maze plus every interior '#' segment. */
  ghost predicate Extracted(lines: seq<string>, m: Maze)
    requires |lines| > 0
  {
    var width, height := |lines[0]| / 2, |lines| / 2;
    && m.width == width && m.height == height && m.flags == NewMaze(width, height).flags
    && (forall s :: s in m.hWalls <==> (s in NewMaze(width, height).hWalls || HorizontalMark(lines, width, height, s)))
    && (forall s :: s in m.vWalls <==> (s in NewMaze(width, height).vWalls || VerticalMark(lines, width, height, s)))
  }

  /** `maze_reader(input_lines)`, with the lines already stripped. */
  method ReadMaze(lines: seq<string>) returns (r: Result<Maze, ReadError>)
    ensures r == Failure(MissingLine) <==> !SameLengths(lines)
    ensures r == Failure(OpenBoundary) <==>
      SameLengths(lines) && !(AllHash(lines[0]) && AllHash(lines[|lines| - 1]))
    ensures r.Failure? && (r.error.BadWallLine? || r.error.BadChar?) ==>
      SameLengths(lines) && AllHash(lines[0]) && AllHash(lines[|lines| - 1]) && !LinesValid(lines)
    ensures r.Failure? && r.error.BadWallLine? ==>
      && r.error.line < |lines| && !Framed(lines[r.error.line], |lines[0]| / 2)
      && forall k :: 0 <= k < r.error.line ==> LineValid(lines[k], |lines[0]| / 2)
    ensures r.Failure? && r.error.BadChar? ==>
      && r.error.line < |lines| && r.error.position < |lines[r.error.line]|
      && Framed(lines[r.error.line], |lines[0]| / 2)
      && !MazeChar(lines[r.error.line][r.error.position])
      && (forall k :: 0 <= k < r.error.position ==> MazeChar(lines[r.error.line][k]))
      && forall k :: 0 <= k < r.error.line ==> LineValid(lines[k], |lines[0]| / 2)
    ensures SameLengths(lines) && AllHash(lines[0]) && AllHash(lines[|lines| - 1]) && |lines[0]| % 2 == 0 ==>
      r == Failure(BadWallLine(0))
    ensures r == Failure(Malformed) <==>
      LinesValid(lines) && |lines| % 2 == 0 && IntersectionsOk(lines, |lines[0]| / 2, |lines| / 2 + 1)
    ensures r.Failure? && r.error.BadIntersection? ==>
      LinesValid(lines) && FirstBadIntersection(lines, |lines[0]| / 2, r.error.y, r.error.x)
    ensures r.Success? <==> WellFormed(lines)
    ensures r.Success? ==> Extracted(lines, r.value)
  {
    LineLengthsSingle(lines);
    if |LineLengths(lines)| != 1 {
      return Failure(MissingLine);
    }
    if !(AllHash(lines[0]) && AllHash(lines[|lines| - 1])) {
      return Failure(OpenBoundary);
    }
    var height, width := |lines| / 2, |lines[0]| / 2;
    var lineError := FirstLineError(lines, width, 0);
    if lineError.Some? {
      return Failure(lineError.value);
    }
    var m := NewMaze(width, height);
    var h := HorizontalWalls(lines, width, height, m);
    if h.Failure? {
      return h;
    }
    m := VerticalWalls(lines, width, height, h.value);
    return Success(m);
  }

  /** Two mazes extracted from the same lines are the same maze. */
  lemma ExtractedUnique(lines: seq<string>, m1: Maze, m2: Maze)
    requires |lines| > 0 && Extracted(lines, m1) && Extracted(lines, m2)
    ensures m1 == m2
  {
    assert m1.hWalls == m2.hWalls;
    assert m1.vWalls == m2.vWalls;
  }

  /**
   * In an accepted text the boundary is drawn too, so the extracted walls are
   * exactly the '#' segments of the text, and the maze is closed all round.
   */
  lemma ExtractedIsDrawn(lines: seq<string>, m: Maze)
    requires WellFormed(lines) && Extracted(lines, m)
    ensures forall s :: s in m.hWalls <==> HorizontalMark(lines, m.width, m.height, s)
    ensures forall s :: s in m.vWalls <==> VerticalMark(lines, m.width, m.height, s)
    ensures BoundarySegments(m)
  {
    forall s | s in NewMaze(m.width, m.height).hWalls ensures HorizontalMark(lines, m.width, m.height, s) {
      BoundaryHorizontalDrawn(lines, s);
    }
    forall s | s in NewMaze(m.width, m.height).vWalls ensures VerticalMark(lines, m.width, m.height, s) {
      BoundaryVerticalDrawn(lines, s);
    }
  }

  /** The top and bottom segments are drawn in the all-'#' first and last lines. */
  lemma BoundaryHorizontalDrawn(lines: seq<string>, s: Segment)
    requires WellFormed(lines)
    requires (s.1 == 0 || s.1 == |lines| / 2) && 0 <= s.0 < |lines[0]| / 2
    ensures HorizontalMark(lines, |lines[0]| / 2, |lines| / 2, s)
  {
    var height := |lines| / 2;
    assert LineValid(lines[0], |lines[0]| / 2);
    assert 2 * (height - s.1) == 0 || 2 * (height - s.1) == |lines| - 1;
  }

  /** The west and east segments are drawn in the '#' frame of the odd lines. */
  lemma BoundaryVerticalDrawn(lines: seq<string>, s: Segment)
    requires WellFormed(lines)
    requires (s.0 == 0 || s.0 == |lines[0]| / 2) && 0 <= s.1 < |lines| / 2
    ensures VerticalMark(lines, |lines[0]| / 2, |lines| / 2, s)
  {
    var width := |lines[0]| / 2;
    assert LineValid(lines[0], width);
    assert LineValid(lines[2 * (|lines| / 2 - s.1) - 1], width);
  }

  /** The mazes a text can draw: walls on grid lines only, the boundary closed, fresh flags. */
  predicate Drawable(m: Maze) {
    && BoundarySegments(m) && m.flags == NewMaze(m.width, m.height).flags
    && (forall s :: s in m.hWalls ==> 0 <= s.0 < m.width && 0 <= s.1 <= m.height)
    && (forall s :: s in m.vWalls ==> 0 <= s.0 <= m.width && 0 <= s.1 < m.height)
  }

  /**
   * The character at row `i`, column `j` of the text that draws `m`:
   * '#' at intersections and on walls, '.' elsewhere and at cell centres.
   */
  function DrawChar(m: Maze, i: int, j: int): char {
    if i % 2 == 0 && j % 2 == 0 then '#'
    else if i % 2 == 0 then (if ((j - 1) / 2, m.height - i / 2) in m.hWalls then '#' else '.')
    else if j % 2 == 0 then (if (j / 2, m.height - (i + 1) / 2) in m.vWalls then '#' else '.')
    else '.'
  }

  /** Intersections are drawn as '#'. */
  lemma DrawIntersection(m: Maze, y: int, x: int)
    ensures DrawChar(m, 2 * y, 2 * x) == '#'
  {
  }

  /** Horizontal segment `(x, line)` is drawn right of intersection `x` on row `2 * (height - line)`. */
  lemma DrawHorizontal(m: Maze, x: int, line: int)
    ensures DrawChar(m, 2 * (m.height - line), 2 * x + 1) == if (x, line) in m.hWalls then '#' else '.'
  {
    assert (2 * (m.height - line)) % 2 == 0 && (2 * (m.height - line)) / 2 == m.height - line;
    assert (2 * x + 1) % 2 == 1 && (2 * x + 1 - 1) / 2 == x;
  }

  /** Vertical segment `(col, y)` is drawn at column `2 * col` of row `2 * (height - y) - 1`. */
  lemma DrawVertical(m: Maze, col: int, y: int)
    ensures DrawChar(m, 2 * (m.height - y) - 1, 2 * col) == if (col, y) in m.vWalls then '#' else '.'
  {
    assert (2 * (m.height - y) - 1) % 2 == 1 && (2 * (m.height - y) - 1 + 1) / 2 == m.height - y;
    assert (2 * col) % 2 == 0 && (2 * col) / 2 == col;
  }

  /** Every drawn character is '#' or '.'. */
  lemma DrawMazeChar(m: Maze, i: int, j: int)
    ensures MazeChar(DrawChar(m, i, j))
  {
  }

  /** The text of `m` in the layout `maze_reader` reads, north edge first. */
  function Draw(m: Maze): (lines: seq<string>)
    ensures |lines| == 2 * m.height + 1
    ensures forall i :: 0 <= i < |lines| ==> |lines[i]| == 2 * m.width + 1
    ensures forall i, j :: 0 <= i < |lines| && 0 <= j < |lines[i]| ==> lines[i][j] == DrawChar(m, i, j)
  {
    seq(2 * m.height + 1, i => seq(2 * m.width + 1, j => DrawChar(m, i, j)))
  }

  /** The drawn text passes every check of the reader. */
  lemma DrawWellFormed(m: Maze)
    requires Drawable(m)
    ensures WellFormed(Draw(m))
  {
    var lines := Draw(m);
    HalfOfOdd(m.width);
    HalfOfOdd(m.height);
    DrawLinesValid(m);
    DrawIntersectionsOk(m);
    assert SameLengths(lines);
  }

  lemma HalfOfOdd(n: nat)
    ensures (2 * n + 1) / 2 == n && (2 * n + 1) % 2 == 1
  {
  }

  /** Every intersection of the drawn text is '#'. */
  lemma DrawIntersectionsOk(m: Maze)
    ensures IntersectionsOk(Draw(m), m.width, m.height + 1)
  {
    var lines := Draw(m);
    forall y, x | 0 <= y < m.height + 1 && 0 <= x < m.width && 2 * y < |lines| && 2 * x < |lines[2 * y]|
      ensures lines[2 * y][2 * x] == '#'
    {
      DrawIntersection(m, y, x);
      assert lines[2 * y][2 * x] == DrawChar(m, 2 * y, 2 * x);
    }
  }

  /** Each drawn line is framed by '#' and holds only '#' and '.', and the outer lines are all '#'. */
  lemma DrawLinesValid(m: Maze)
    requires Drawable(m)
    ensures AllHash(Draw(m)[0]) && AllHash(Draw(m)[2 * m.height])
    ensures forall i :: 0 <= i < |Draw(m)| ==> LineValid(Draw(m)[i], m.width)
  {
    var lines := Draw(m);
    forall i | 0 <= i < |lines| ensures LineValid(lines[i], m.width) {
      DrawLineValid(m, i);
    }
    forall k | 0 <= k < |lines[0]| ensures lines[0][k] == '#' && lines[2 * m.height][k] == '#' {
      DrawOuterChar(m, k);
      assert lines[0][k] == DrawChar(m, 0, k) && lines[2 * m.height][k] == DrawChar(m, 2 * m.height, k);
    }
  }

  /** One line of `DrawLinesValid`. */
  lemma DrawLineValid(m: Maze, i: int)
    requires Drawable(m) && 0 <= i < 2 * m.height + 1
    ensures LineValid(Draw(m)[i], m.width)
  {
    var line := Draw(m)[i];
    forall k | 0 <= k < |line| ensures MazeChar(line[k]) {
      DrawMazeChar(m, i, k);
    }
    if i % 2 == 0 {
      DrawIntersection(m, i / 2, 0);
      DrawIntersection(m, i / 2, m.width);
    } else {
      DrawVertical(m, 0, m.height - (i + 1) / 2);
      DrawVertical(m, m.width, m.height - (i + 1) / 2);
    }
  }

  /** Column `k` of the first and of the last drawn line is '#'. */
  lemma DrawOuterChar(m: Maze, k: int)
    requires BoundarySegments(m) && 0 <= k < 2 * m.width + 1
    ensures DrawChar(m, 0, k) == '#' && DrawChar(m, 2 * m.height, k) == '#'
  {
    if k % 2 == 1 {
      var x := (k - 1) / 2;
      assert (x, m.height) in m.hWalls && (x, 0) in m.hWalls;
    }
  }

  /** Reading the drawn text extracts the maze that was drawn. */
  lemma DrawExtracts(m: Maze)
    requires Drawable(m)
    ensures Extracted(Draw(m), m)
  {
    var lines, width, height := Draw(m), m.width, m.height;
    assert |lines[0]| / 2 == width && |lines| / 2 == height;
    forall s ensures s in m.hWalls <==> s in NewMaze(width, height).hWalls || HorizontalMark(lines, width, height, s) {
      DrawExtractsHorizontal(m, s);
    }
    forall s ensures s in m.vWalls <==> s in NewMaze(width, height).vWalls || VerticalMark(lines, width, height, s) {
      DrawExtractsVertical(m, s);
    }
  }

  /** One horizontal segment of `DrawExtracts`. */
  lemma DrawExtractsHorizontal(m: Maze, s: Segment)
    requires Drawable(m)
    ensures s in m.hWalls <==> s in NewMaze(m.width, m.height).hWalls || HorizontalMark(Draw(m), m.width, m.height, s)
  {
    if 0 <= s.0 < m.width && 0 <= s.1 <= m.height {
      DrawHorizontal(m, s.0, s.1);
    }
  }

  /** One vertical segment of `DrawExtracts`. */
  lemma DrawExtractsVertical(m: Maze, s: Segment)
    requires Drawable(m)
    ensures s in m.vWalls <==> s in NewMaze(m.width, m.height).vWalls || VerticalMark(Draw(m), m.width, m.height, s)
  {
    if 0 <= s.0 <= m.width && 0 <= s.1 < m.height {
      DrawVertical(m, s.0, s.1);
    }
  }

  /** Round trip: `maze_reader` on the text of a drawable maze gives that maze back. */
  method ReadDrawn(m: Maze) returns (r: Result<Maze, ReadError>)
    requires Drawable(m)
    ensures r == Success(m)
  {
    r := ReadMaze(Draw(m));
    DrawWellFormed(m);
    DrawExtracts(m);
    ExtractedUnique(Draw(m), r.value, m);
  }

  /**
   * The other direction: every maze the reader accepts is drawable, and its
   * text agrees with the input everywhere except at cell centres, which the
   * reader ignores.
   */
  lemma ExtractedRedraws(lines: seq<string>, m: Maze)
    requires WellFormed(lines) && Extracted(lines, m)
    ensures Drawable(m)
    ensures |Draw(m)| == |lines|
    ensures forall i, j :: 0 <= i < |lines| && 0 <= j < |lines[i]| && !(i % 2 == 1 && j % 2 == 1) ==>
      Draw(m)[i][j] == lines[i][j]
  {
    ExtractedIsDrawn(lines, m);
    forall i, j | 0 <= i < |lines| && 0 <= j < |lines[i]| && !(i % 2 == 1 && j % 2 == 1)
      ensures Draw(m)[i][j] == lines[i][j]
    {
      RedrawChar(lines, m, i, j);
      assert Draw(m)[i][j] == DrawChar(m, i, j);
    }
  }

  /** One character of `ExtractedRedraws`, given that the walls are exactly the drawn segments. */
  lemma RedrawChar(lines: seq<string>, m: Maze, i: int, j: int)
    requires |lines| == 2 * m.height + 1 && forall k :: 0 <= k < |lines| ==> |lines[k]| == 2 * m.width + 1
    requires IntersectionsOk(lines, m.width, m.height + 1)
    requires forall k :: 0 <= k < |lines| ==> LineValid(lines[k], m.width)
    requires forall s :: s in m.hWalls <==> HorizontalMark(lines, m.width, m.height, s)
    requires forall s :: s in m.vWalls <==> VerticalMark(lines, m.width, m.height, s)
    requires 0 <= i < |lines| && 0 <= j < |lines[i]| && !(i % 2 == 1 && j % 2 == 1)
    ensures DrawChar(m, i, j) == lines[i][j]
  {
    var height := m.height;
    if i % 2 == 0 && j % 2 == 0 {
      DrawIntersection(m, i / 2, j / 2);
      if j / 2 < m.width {
        assert lines[2 * (i / 2)][2 * (j / 2)] == '#';
      } else {
        assert LineValid(lines[i], m.width) && j == |lines[i]| - 1;
      }
    } else if i % 2 == 0 {
      var s := ((j - 1) / 2, height - i / 2);
      DrawHorizontal(m, s.0, s.1);
      assert 2 * (height - s.1) == i && 2 * s.0 + 1 == j;
      assert s in m.hWalls <==> HorizontalMark(lines, m.width, height, s);
    } else {
      var s := (j / 2, height - (i + 1) / 2);
      DrawVertical(m, s.0, s.1);
      assert 2 * (height - s.1) - 1 == i && 2 * s.0 == j;
      assert s in m.vWalls <==> VerticalMark(lines, m.width, height, s);
    }
  }
}

=== FILE: reach.dfy ===
/**
 * Reference definitions for the two searches of maze.py: which cells are one
 * open step apart, the set of cells within k steps of a source (the
 * breadth-first "ball"), its layers, and explicit walks. Flood fill reads the
 * per-cell flags; Dijkstra reads the segment sets through `free_nodes`.
 */
module Reach {
  import opened RunnerState
  import opened MazeGrid

  /** Which wall store a search reads. */
  datatype Adjacency = ByFlags | ByEdges

  /** Side `d` of `c` has no wall in the chosen store. */
  predicate Open(m: Maze, adj: Adjacency, c: Cell, d: Dir) {
    match adj
    case ByFlags => c in m.flags && !m.flags[c].Get(d)
    case ByEdges => !GetWalls(m, c).Get(d)
  }

  /** The cells one open step from `c`. */
  function Succ(m: Maze, adj: Adjacency, c: Cell): set<Cell> {
    set i | 0 <= i < |Orientations| && Open(m, adj, c, Orientations[i]) :: Neighbor(c, Orientations[i])
  }

  /** The open neighbours found on the first `i` sides, in the order of `Orientations`. */
  function SuccPrefix(m: Maze, adj: Adjacency, c: Cell, i: nat): set<Cell> {
    set t | 0 <= t < i && t < |Orientations| && Open(m, adj, c, Orientations[t]) :: Neighbor(c, Orientations[t])
  }

  lemma SuccPrefixStep(m: Maze, adj: Adjacency, c: Cell, i: nat)
    requires i < |Orientations|
    ensures SuccPrefix(m, adj, c, i + 1) ==
      SuccPrefix(m, adj, c, i) + (if Open(m, adj, c, Orientations[i]) then {Neighbor(c, Orientations[i])} else {})
  {
  }

  lemma SuccPrefixAll(m: Maze, adj: Adjacency, c: Cell)
    ensures SuccPrefix(m, adj, c, |Orientations|) == Succ(m, adj, c)
  {
  }

  /** The set of the elements of a list. */
  function Members<T>(q: seq<T>): set<T> {
    set x | x in q
  }

  lemma MembersSnoc<T>(q: seq<T>, i: nat)
    requires i < |q|
    ensures Members(q[..i + 1]) == Members(q[..i]) + {q[i]}
  {
    assert q[..i + 1] == q[..i] + [q[i]];
  }

  /** The cells one open step from some cell of `s`. */
  function Next(m: Maze, adj: Adjacency, s: set<Cell>): set<Cell> {
    set u, v | u in s && v in Succ(m, adj, u) :: v
  }

  /** The cells at most `k` open steps from `src`. */
  function Ball(m: Maze, adj: Adjacency, src: Cell, k: nat): set<Cell> {
    if k == 0 then {src} else Ball(m, adj, src, k - 1) + Next(m, adj, Ball(m, adj, src, k - 1))
  }

  /** The cells exactly `k` open steps from `src`, and no fewer. */
  function Layer(m: Maze, adj: Adjacency, src: Cell, k: nat): set<Cell> {
    if k == 0 then {src} else Ball(m, adj, src, k) - Ball(m, adj, src, k - 1)
  }

  ghost predicate Reachable(m: Maze, adj: Adjacency, src: Cell, c: Cell) {
    exists k: nat :: c in Ball(m, adj, src, k)
  }

  /** Every step of `p` goes through an open side. */
  ghost predicate IsWalk(m: Maze, adj: Adjacency, p: seq<Cell>) {
    forall i :: 0 <= i < |p| - 1 ==> p[i + 1] in Succ(m, adj, p[i])
  }

  /** No open side of a grid cell leads out of the grid. */
  ghost predicate StaysInGrid(m: Maze, adj: Adjacency) {
    forall c, d :: InGrid(m, c) && Open(m, adj, c, d) ==> InGrid(m, Neighbor(c, d))
  }

  lemma SuccIntro(m: Maze, adj: Adjacency, c: Cell, d: Dir)
    requires Open(m, adj, c, d)
    ensures Neighbor(c, d) in Succ(m, adj, c)
  {
    assert Orientations[IndexOf(d)] == d;
  }

  lemma SuccElim(m: Maze, adj: Adjacency, c: Cell, v: Cell) returns (d: Dir)
    requires v in Succ(m, adj, c)
    ensures Open(m, adj, c, d) && v == Neighbor(c, d)
  {
    var i :| 0 <= i < |Orientations| && Open(m, adj, c, Orientations[i]) && v == Neighbor(c, Orientations[i]);
    d := Orientations[i];
  }

  lemma FlagsStayInGrid(m: Maze)
    requires FlagsWellFormed(m)
    ensures StaysInGrid(m, ByFlags)
  {
  }

  lemma EdgesStayInGrid(m: Maze)
    requires BoundarySegments(m)
    ensures StaysInGrid(m, ByEdges)
  {
    forall c, d | InGrid(m, c) && Open(m, ByEdges, c, d)
      ensures InGrid(m, Neighbor(c, d))
    {
      BoundaryKeepsInGrid(m, c, d);
    }
  }

  /** Segment walls are shared, so an open step by segments can always be taken back. */
  lemma EdgeStepSymmetric(m: Maze, u: Cell, v: Cell)
    requires v in Succ(m, ByEdges, u)
    ensures u in Succ(m, ByEdges, v)
  {
    var d := SuccElim(m, ByEdges, u, v);
    SharedSegments(m, u, d);
    SuccIntro(m, ByEdges, v, Opposite(d));
  }

  lemma {:induction false} BallMonotone(m: Maze, adj: Adjacency, src: Cell, j: nat, k: nat)
    requires j <= k
    ensures Ball(m, adj, src, j) <= Ball(m, adj, src, k)
    decreases k
  {
    if j < k {
      BallMonotone(m, adj, src, j, k - 1);
      BallGrows(m, adj, src, k);
    }
  }

  lemma BallGrows(m: Maze, adj: Adjacency, src: Cell, k: nat)
    requires k >= 1
    ensures Ball(m, adj, src, k - 1) <= Ball(m, adj, src, k)
  {
  }

  lemma {:induction false} BallInGrid(m: Maze, adj: Adjacency, src: Cell, k: nat)
    requires StaysInGrid(m, adj) && InGrid(m, src)
    ensures forall c :: c in Ball(m, adj, src, k) ==> InGrid(m, c)
    decreases k
  {
    if k > 0 {
      BallInGrid(m, adj, src, k - 1);
      forall v | v in Next(m, adj, Ball(m, adj, src, k - 1))
        ensures InGrid(m, v)
      {
        var u :| u in Ball(m, adj, src, k - 1) && v in Succ(m, adj, u);
        var d := SuccElim(m, adj, u, v);
      }
    }
  }

  /** A cell of an inner layer lies in no outer layer. */
  lemma LayerBefore(m: Maze, adj: Adjacency, src: Cell, c: Cell, j: nat, k: nat)
    requires j < k && c in Layer(m, adj, src, j)
    ensures c !in Layer(m, adj, src, k)
  {
    LayerInBall(m, adj, src, j);
    BallMonotone(m, adj, src, j, k - 1);
    assert c in Ball(m, adj, src, k - 1);
  }

  /** The layers partition the ball: a cell lies in at most one of them. */
  lemma LayerUnique(m: Maze, adj: Adjacency, src: Cell, c: Cell, j: nat, k: nat)
    requires c in Layer(m, adj, src, j) && c in Layer(m, adj, src, k)
    ensures j == k
  {
    if j < k {
      LayerBefore(m, adj, src, c, j, k);
    } else if k < j {
      LayerBefore(m, adj, src, c, k, j);
    }
  }

  lemma LayerInBall(m: Maze, adj: Adjacency, src: Cell, k: nat)
    ensures Layer(m, adj, src, k) <= Ball(m, adj, src, k)
  {
  }

  /** A cell of the ball lies in the layer of some radius no larger than the ball's. */
  lemma {:induction false} InSomeLayer(m: Maze, adj: Adjacency, src: Cell, c: Cell, k: nat) returns (j: nat)
    requires c in Ball(m, adj, src, k)
    ensures j <= k && c in Layer(m, adj, src, j)
    decreases k
  {
    if k == 0 || c !in Ball(m, adj, src, k - 1) {
      j := k;
    } else {
      j := InSomeLayer(m, adj, src, c, k - 1);
    }
  }

  lemma NextUnion(m: Maze, adj: Adjacency, a: set<Cell>, b: set<Cell>)
    ensures Next(m, adj, a + b) == Next(m, adj, a) + Next(m, adj, b)
  {
  }

  lemma NextSingleton(m: Maze, adj: Adjacency, u: Cell)
    ensures Next(m, adj, {u}) == Succ(m, adj, u)
  {
  }

  /** Breadth-first expansion: the next ball adds the successors of the newest layer. */
  lemma BallFromLayer(m: Maze, adj: Adjacency, src: Cell, k: nat)
    requires k >= 1
    ensures Ball(m, adj, src, k) == Ball(m, adj, src, k - 1) + Next(m, adj, Layer(m, adj, src, k - 1))
  {
    if k >= 2 {
      var older := Ball(m, adj, src, k - 2);
      var prev := Ball(m, adj, src, k - 1);
      assert prev == older + Layer(m, adj, src, k - 1);
      NextUnion(m, adj, older, Layer(m, adj, src, k - 1));
    }
  }

  /** Once a layer is empty every later ball is the same. */
  lemma {:induction false} BallSaturates(m: Maze, adj: Adjacency, src: Cell, j: nat, k: nat)
    requires Ball(m, adj, src, j + 1) == Ball(m, adj, src, j)
    requires j <= k
    ensures Ball(m, adj, src, k) == Ball(m, adj, src, j)
    decreases k
  {
    if k > j {
      BallSaturates(m, adj, src, j, k - 1);
      assert Ball(m, adj, src, k) == Ball(m, adj, src, k - 1) + Next(m, adj, Ball(m, adj, src, k - 1));
      assert Ball(m, adj, src, j + 1) == Ball(m, adj, src, j) + Next(m, adj, Ball(m, adj, src, j));
    }
  }

  /** `p` is a walk from `src` to `c`. */
  ghost predicate WalkBetween(m: Maze, adj: Adjacency, p: seq<Cell>, src: Cell, c: Cell) {
    IsWalk(m, adj, p) && |p| > 0 && p[0] == src && p[|p| - 1] == c
  }

  /** A ball of radius `k` holds exactly the ends of walks from `src` with at most `k` steps. */
  lemma BallIsWalkEnds(m: Maze, adj: Adjacency, src: Cell, c: Cell, k: nat)
    ensures c in Ball(m, adj, src, k) <==> exists p :: WalkBetween(m, adj, p, src, c) && |p| <= k + 1
  {
    if c in Ball(m, adj, src, k) {
      var p := WalkTo(m, adj, src, c, k);
    }
    if p :| WalkBetween(m, adj, p, src, c) && |p| <= k + 1 {
      WalkEndInBall(m, adj, p, src, c, k);
    }
  }

  lemma {:induction false} WalkTo(m: Maze, adj: Adjacency, src: Cell, c: Cell, k: nat) returns (p: seq<Cell>)
    requires c in Ball(m, adj, src, k)
    ensures WalkBetween(m, adj, p, src, c) && |p| <= k + 1
    decreases k
  {
    if k == 0 {
      p := [src];
    } else if c in Ball(m, adj, src, k - 1) {
      p := WalkTo(m, adj, src, c, k - 1);
    } else {
      var u :| u in Ball(m, adj, src, k - 1) && c in Succ(m, adj, u);
      var q := WalkTo(m, adj, src, u, k - 1);
      p := Extend(m, adj, q, src, u, c);
    }
  }

  /** A walk to `u` followed by one open step to `c` is a walk to `c`. */
  lemma Extend(m: Maze, adj: Adjacency, q: seq<Cell>, src: Cell, u: Cell, c: Cell) returns (p: seq<Cell>)
    requires WalkBetween(m, adj, q, src, u) && c in Succ(m, adj, u)
    ensures p == q + [c] && WalkBetween(m, adj, p, src, c)
  {
    p := q + [c];
    assert forall i :: 0 <= i < |q| ==> p[i] == q[i];
  }

  /** The end of a walk with `k` steps or fewer lies in the ball of radius `k`. */
  lemma {:induction false} WalkEndInBall(m: Maze, adj: Adjacency, p: seq<Cell>, src: Cell, c: Cell, k: nat)
    requires WalkBetween(m, adj, p, src, c) && |p| <= k + 1
    ensures c in Ball(m, adj, src, k)
    decreases |p|
  {
    if |p| > 1 {
      var q := p[..|p| - 1];
      assert IsWalk(m, adj, q);
      assert p[|p| - 1] in Succ(m, adj, q[|q| - 1]);
      WalkEndInBall(m, adj, q, src, q[|q| - 1], k - 1);
      assert c in Next(m, adj, Ball(m, adj, src, k - 1));
    } else {
      BallMonotone(m, adj, src, 0, k);
    }
  }

  /** A cell of layer `k` is the end of a walk with exactly `k` steps and of none shorter. */
  lemma LayerHasShortestWalk(m: Maze, adj: Adjacency, src: Cell, c: Cell, k: nat) returns (p: seq<Cell>)
    requires c in Layer(m, adj, src, k)
    ensures WalkBetween(m, adj, p, src, c) && |p| == k + 1
    ensures forall q :: WalkBetween(m, adj, q, src, c) ==> |q| >= k + 1
  {
    p := WalkTo(m, adj, src, c, k);
    forall q | WalkBetween(m, adj, q, src, c)
      ensures |q| >= k + 1
    {
      if |q| < k + 1 {
        WalkEndInBall(m, adj, q, src, c, k - 1);
      }
    }
  }

  /** Conversely, a cell whose shortest walk has exactly `k` steps is in layer `k`. */
  lemma ShortestWalkInLayer(m: Maze, adj: Adjacency, src: Cell, c: Cell, k: nat, p: seq<Cell>)
    requires WalkBetween(m, adj, p, src, c) && |p| == k + 1
    requires forall q :: WalkBetween(m, adj, q, src, c) ==> |q| >= k + 1
    ensures c in Layer(m, adj, src, k)
  {
    WalkEndInBall(m, adj, p, src, c, k);
    if k > 0 && c in Ball(m, adj, src, k - 1) {
      var q := WalkTo(m, adj, src, c, k - 1);
    }
  }

  /**
   * Layer `k` holds exactly the cells whose shortest walk from `src` takes
   * `k` steps: one with `k` steps exists and none with fewer does.
   */
  lemma LayerIsHopDistance(m: Maze, adj: Adjacency, src: Cell, c: Cell, k: nat)
    ensures c in Layer(m, adj, src, k) <==>
      && (exists p :: WalkBetween(m, adj, p, src, c) && |p| == k + 1)
      && (forall q :: WalkBetween(m, adj, q, src, c) ==> |q| >= k + 1)
  {
    if c in Layer(m, adj, src, k) {
      var p := LayerHasShortestWalk(m, adj, src, c, k);
    }
    if p :| WalkBetween(m, adj, p, src, c) && |p| == k + 1 {
      if forall q :: WalkBetween(m, adj, q, src, c) ==> |q| >= k + 1 {
        ShortestWalkInLayer(m, adj, src, c, k, p);
      }
    }
  }
}

=== FILE: runner.dfy ===
/**
 * The runner of runner.py: a grid position plus a facing, changed only by
 * quarter turns and one-cell forward steps. The source keeps the state in a
 * mutable dictionary; here it is an immutable record and every transition is
 * a pure function returning the new record.
 */
module RunnerState {

  /** The four facings, spelled "N", "E", "S", "W" in the source. */
  datatype Dir = N | E | S | W

  /** The source's orientation list, in its index order. */
  const Orientations: seq<Dir> := [N, E, S, W]

  /** A grid cell, the `(x, y)` tuple of the source; y grows towards the north. */
  datatype Cell = Cell(x: int, y: int)

  /** The runner dictionary `{"x", "y", "orientation"}`. */
  datatype Runner = Runner(x: int, y: int, orientation: Dir)

  function Pos(r: Runner): Cell {
    Cell(r.x, r.y)
  }

  function Abs(n: int): nat {
    if n < 0 then -n else n
  }

  /** Compass reference: the facing a quarter turn anticlockwise from `d`. */
  function LeftOf(d: Dir): Dir {
    match d
    case N => W
    case W => S
    case S => E
    case E => N
  }

  /** Compass reference: the facing a quarter turn clockwise from `d`. */
  function RightOf(d: Dir): Dir {
    match d
    case N => E
    case E => S
    case S => W
    case W => N
  }

  /** Compass reference: the facing directly behind `d`. */
  function Opposite(d: Dir): Dir {
    match d
    case N => S
    case S => N
    case E => W
    case W => E
  }

  /**
   * The cell next to `c` on side `d`: one up, right, down or left for N, E,
   * S and W, the order of maze.py's neighbour lists.
   */
  function Neighbor(c: Cell, d: Dir): Cell {
    match d
    case N => Cell(c.x, c.y + 1)
    case E => Cell(c.x + 1, c.y)
    case S => Cell(c.x, c.y - 1)
    case W => Cell(c.x - 1, c.y)
  }

  /** The position of `d` in the list N, E, S, W. */
  function IndexOf(d: Dir): (i: nat)
    ensures i < |Orientations| && Orientations[i] == d
  {
    match d
    case N => 0
    case E => 1
    case S => 2
    case W => 3
  }

  /** Python list indexing, where a negative index counts back from the end. */
  function PyAt<T>(s: seq<T>, k: int): T
    requires -|s| <= k < |s|
  {
    if k < 0 then s[|s| + k] else s[k]
  }

  /** `create_runner`: a runner at `(x, y)`, facing north unless told otherwise. */
  function CreateRunner(x: int := 0, y: int := 0, orientation: Dir := N): (r: Runner)
    ensures Pos(r) == Cell(x, y) && r.orientation == orientation
  {
    Runner(x, y, orientation)
  }

  /**
   * `orientation_options`: `[previous, current, next]` in the cyclic list,
   * where "previous" of N is found through the Python index -1.
   */
  function OrientationOptions(d: Dir): (opts: seq<Dir>)
    ensures |opts| == 3
    ensures opts[0] == LeftOf(d) && opts[1] == d && opts[2] == RightOf(d)
  {
    var i := IndexOf(d);
    [PyAt(Orientations, i - 1), d, Orientations[(i + 1) % |Orientations|]]
  }

  /** `turn`: "Left" and "Right" rotate the facing; any other string changes nothing. */
  function Turn(r: Runner, direction: string): (r': Runner)
    ensures Pos(r') == Pos(r)
    ensures direction == "Left" ==> r'.orientation == LeftOf(r.orientation)
    ensures direction == "Right" ==> r'.orientation == RightOf(r.orientation)
    ensures direction != "Left" && direction != "Right" ==> r' == r
  {
    var options := OrientationOptions(r.orientation);
    if direction == "Left" then r.(orientation := options[0])
    else if direction == "Right" then r.(orientation := options[2])
    else r
  }

  /** `forward`: one cell in the facing direction, with no wall or bounds check. */
  function Forward(r: Runner): (r': Runner)
    ensures r'.orientation == r.orientation
    ensures Pos(r') == Neighbor(Pos(r), r.orientation)
    ensures Abs(r'.x - r.x) + Abs(r'.y - r.y) == 1
  {
    match r.orientation
    case N => r.(y := r.y + 1)
    case S => r.(y := r.y - 1)
    case E => r.(x := r.x + 1)
    case W => r.(x := r.x - 1)
  }

  lemma LeftRightInverse(r: Runner)
    ensures Turn(Turn(r, "Left"), "Right") == r
    ensures Turn(Turn(r, "Right"), "Left") == r
  {
  }

  lemma FourLeftsAreIdentity(r: Runner)
    ensures Turn(Turn(Turn(Turn(r, "Left"), "Left"), "Left"), "Left") == r
  {
  }

  lemma ThreeLeftsAreOneRight(r: Runner)
    ensures Turn(Turn(Turn(r, "Left"), "Left"), "Left") == Turn(r, "Right")
  {
  }

  /** Two left turns face the runner back the way it came, so a step undoes a step. */
  lemma TurnAroundUndoesForward(r: Runner)
    ensures Pos(Forward(Turn(Turn(Forward(r), "Left"), "Left"))) == Pos(r)
    ensures Turn(Turn(r, "Left"), "Left").orientation == Opposite(r.orientation)
  {
  }

  /**
   * Replays one character of an action string: 'L' and 'R' turn, 'F' steps
   * forward; the exploration trace uses no other characters.
   */
  function Act(r: Runner, a: char): Runner {
    if a == 'L' then Turn(r, "Left")
    else if a == 'R' then Turn(r, "Right")
    else if a == 'F' then Forward(r)
    else r
  }

  /** Replays a whole action string from left to right. */
  function Perform(r: Runner, actions: string): Runner
    decreases |actions|
  {
    if actions == [] then r else Perform(Act(r, actions[0]), actions[1..])
  }

  predicate HasTripleLeft(s: string) {
    exists i :: 0 <= i && i + 2 < |s| && s[i] == 'L' && s[i + 1] == 'L' && s[i + 2] == 'L'
  }

  /**
   * The rewrite of three left turns as one right turn in `move`'s action:
   * it scans from the left and replaces non-overlapping occurrences.
   */
  function CollapseTurns(a: string): (c: string)
    ensures |c| <= |a|
    ensures !HasTripleLeft(c)
    ensures |c| > 0 && c[0] == 'L' ==> |a| > 0 && a[0] == 'L'
    ensures |c| > 1 && c[0] == 'L' && c[1] == 'L' ==> |a| > 1 && a[1] == 'L'
    decreases |a|
  {
    if |a| >= 3 && a[..3] == "LLL" then "R" + CollapseTurns(a[3..])
    else if a == [] then []
    else [a[0]] + CollapseTurns(a[1..])
  }

  lemma PerformAppend(r: Runner, a: string, b: string)
    ensures Perform(r, a + b) == Perform(Perform(r, a), b)
    decreases |a|
  {
    if a == [] {
      assert a + b == b;
    } else {
      assert (a + b)[0] == a[0];
      assert (a + b)[1..] == a[1..] + b;
      PerformAppend(Act(r, a[0]), a[1..], b);
    }
  }

  /** Rewriting "LLL" as "R" never changes where the replayed actions leave the runner. */
  lemma {:induction false} CollapseKeepsMeaning(r: Runner, a: string)
    ensures Perform(r, CollapseTurns(a)) == Perform(r, a)
    decreases |a|
  {
    if |a| >= 3 && a[..3] == "LLL" {
      assert a == "LLL" + a[3..];
      PerformAppend(r, "LLL", a[3..]);
      PerformAppend(r, "R", CollapseTurns(a[3..]));
      ThreeLeftsAreOneRight(r);
      CollapseKeepsMeaning(Turn(r, "Right"), a[3..]);
    } else if a != [] {
      assert CollapseTurns(a) == [a[0]] + CollapseTurns(a[1..]);
      PerformAppend(r, [a[0]], CollapseTurns(a[1..]));
      CollapseKeepsMeaning(Act(r, a[0]), a[1..]);
    }
  }
}

=== FILE: shortestpath.dfy ===
/**
 * `Maze.shortest_path` of maze.py: explore the ground truth, wall off in the
 * mind maze every cell the runner never stood on, run `dijkstra` on the mind
 * maze from the start to the goal, and report the final path, its length and
 * the score: a quarter of the step count plus the path's cell count.
 */
module ShortestPath {
  import opened Wrappers
  import opened RunnerState
  import opened MazeGrid
  import opened Reach
  import opened FloodFill
  import opened Exploration
  import opened Dijkstra

  /** Side `d` of `c'` is one of the four sides of cell `c`. */
  predicate Borders(c: Cell, c': Cell, d: Dir) {
    c' == c || Neighbor(c', d) == c
  }

  /**
   * The four inserts for one unvisited cell, in the source's order: its
   * west, south, east and north segments.
   */
  function SealCell(m: Maze, c: Cell): (m': Maze)
    ensures m'.width == m.width && m'.height == m.height && m'.flags == m.flags
  {
    AddSideSegment(AddSideSegment(AddSideSegment(AddSideSegment(m, c, W), c, S), c, E), c, N)
  }

  /** Sealing a grid cell walls exactly its four sides, seen from it and from its neighbours. */
  lemma SealCellEffect(m: Maze, c: Cell)
    requires BoundarySegments(m) && InGrid(m, c)
    ensures BoundarySegments(SealCell(m, c))
    ensures forall c', d :: GetWalls(SealCell(m, c), c').Get(d) <==> GetWalls(m, c').Get(d) || Borders(c, c', d)
  {
    var m1 := AddSideSegment(m, c, W);
    AddSideSegmentEffect(m, c, W);
    var m2 := AddSideSegment(m1, c, S);
    AddSideSegmentEffect(m1, c, S);
    var m3 := AddSideSegment(m2, c, E);
    AddSideSegmentEffect(m2, c, E);
    AddSideSegmentEffect(m3, c, N);
    forall c', d ensures Borders(c, c', d) <==>
      SameSide(c, W, c', d) || SameSide(c, S, c', d) || SameSide(c, E, c', d) || SameSide(c, N, c', d)
    {
      if Neighbor(c', d) == c {
        assert c' == Neighbor(c, Opposite(d));
      }
    }
  }

  /** `cell not in self._visited_cells`, for a cell of the list being sealed. */
  predicate Unvisited(cells: seq<Cell>, visited: set<Cell>, c: Cell) {
    c in cells && c !in visited
  }

  /** The sealing loop: every listed cell that was not visited gets its four walls. */
  function Seal(m: Maze, cells: seq<Cell>, visited: set<Cell>): (m': Maze)
    ensures m'.width == m.width && m'.height == m.height && m'.flags == m.flags
    decreases |cells|
  {
    if cells == [] then m
    else Seal(if cells[0] in visited then m else SealCell(m, cells[0]), cells[1..], visited)
  }

  /**
   * After sealing, a side is a wall exactly when it was one before or it
   * borders a listed cell that was not visited.
   */
  lemma {:induction false} SealEffect(m: Maze, cells: seq<Cell>, visited: set<Cell>)
    requires BoundarySegments(m) && forall c :: c in cells ==> InGrid(m, c)
    ensures BoundarySegments(Seal(m, cells, visited))
    ensures forall c', d :: GetWalls(Seal(m, cells, visited), c').Get(d) <==>
      GetWalls(m, c').Get(d) || Unvisited(cells, visited, c') || Unvisited(cells, visited, Neighbor(c', d))
    decreases |cells|
  {
    if cells != [] {
      var first, rest := cells[0], cells[1..];
      var m1 := if first in visited then m else SealCell(m, first);
      if first !in visited {
        SealCellEffect(m, first);
      }
      assert forall c :: c in rest ==> c in cells;
      SealEffect(m1, rest, visited);
      forall x ensures Unvisited(cells, visited, x) <==> (x == first && first !in visited) || Unvisited(rest, visited, x) {
        assert cells == [first] + rest;
      }
    }
  }

  /** The mind maze after `shortest_path` walled off every grid cell outside `visited`. */
  function Sealed(mind: Maze, visited: set<Cell>): (sealed: Maze)
    ensures sealed.width == mind.width && sealed.height == mind.height
  {
    Seal(mind, AllCells(mind.width, mind.height), visited)
  }

  /** The walls of the sealed maze: those of the mind, and every side of an unvisited grid cell. */
  lemma SealedWalls(mind: Maze, visited: set<Cell>)
    requires BoundarySegments(mind)
    ensures BoundarySegments(Sealed(mind, visited))
    ensures forall c, d :: GetWalls(Sealed(mind, visited), c).Get(d) <==>
      || GetWalls(mind, c).Get(d)
      || (InGrid(mind, c) && c !in visited)
      || (InGrid(mind, Neighbor(c, d)) && Neighbor(c, d) !in visited)
  {
    SealEffect(mind, AllCells(mind.width, mind.height), visited);
  }

  /** In the sealed maze no open side leads from a visited grid cell to an unvisited one. */
  lemma SealedStepStaysVisited(mind: Maze, visited: set<Cell>, c: Cell, c': Cell)
    requires BoundarySegments(mind) && InGrid(mind, c) && c in visited
    requires c' in Succ(Sealed(mind, visited), ByEdges, c)
    ensures InGrid(mind, c') && c' in visited
  {
    var sealed := Sealed(mind, visited);
    SealedWalls(mind, visited);
    var d := SuccElim(sealed, ByEdges, c, c');
    BoundaryKeepsInGrid(sealed, c, d);
  }

  /** A walk through the sealed maze from a visited grid cell never leaves the visited cells. */
  lemma {:induction false} SealedWalkStaysVisited(mind: Maze, visited: set<Cell>, p: seq<Cell>)
    requires BoundarySegments(mind) && IsWalk(Sealed(mind, visited), ByEdges, p)
    requires |p| > 0 && InGrid(mind, p[0]) && p[0] in visited
    ensures forall i :: 0 <= i < |p| ==> InGrid(mind, p[i]) && p[i] in visited
    decreases |p|
  {
    if |p| > 1 {
      var q := p[..|p| - 1];
      assert forall i :: 0 <= i < |q| ==> q[i] == p[i];
      assert IsWalk(Sealed(mind, visited), ByEdges, q);
      SealedWalkStaysVisited(mind, visited, q);
      SealedStepStaysVisited(mind, visited, p[|p| - 2], p[|p| - 1]);
    }
  }

  /** A walk through open sides of the truth that keeps to visited cells is a walk through the sealed mind. */
  lemma VisitedWalkIsSealedWalk(mind: Maze, truth: Maze, visited: set<Cell>, p: seq<Cell>)
    requires BoundarySegments(mind) && MindBelowTruth(mind, truth)
    requires IsWalk(truth, ByEdges, p) && forall i :: 0 <= i < |p| ==> p[i] in visited
    ensures IsWalk(Sealed(mind, visited), ByEdges, p)
  {
    SealedWalls(mind, visited);
    forall i | 0 <= i < |p| - 1
      ensures p[i + 1] in Succ(Sealed(mind, visited), ByEdges, p[i])
    {
      var d := SuccElim(truth, ByEdges, p[i], p[i + 1]);
      SuccIntro(Sealed(mind, visited), ByEdges, p[i], d);
    }
  }

  /** `shortest_path` fails when exploration fails, or when it never built a mind maze (`None` has no `render_settings`). */
  datatype PathError = ExploreFailed(cause: ExploreError) | NoMindMaze

  /**
   * What `shortest_path` returns — the exploration trace, the final path,
   * `num`, the final path's length and the score — with the mind maze as it
   * stood before sealing, the sealed mind maze and the visited cells.
   */
  datatype Outcome = Outcome(trace: seq<TraceEntry>, finalPath: seq<Cell>, steps: nat, length: nat,
                             score: real, mind: Maze, sealed: Maze, visited: set<Cell>)

  /** A quarter of the step count, in true division, plus the number of cells on the path. */
  function Score(steps: nat, length: nat): (score: real)
    ensures score >= length as real
    ensures 4.0 * (score - length as real) == steps as real
  {
    steps as real / 4.0 + length as real
  }

  /**
   * The promise of a finished run: the trace walks the truth from the start
   * to the goal and marks the visited cells; the mind stays below the truth
   * and agrees with it on the sides exploration observed; the sealed maze is
   * that mind with the unvisited cells walled off; the final path is a walk
   * of the sealed maze from the start to the goal, on visited cells only,
   * that no such walk undercuts, and it is no longer than the trace's own walk.
   */
  ghost predicate Reported(truth: Maze, start: Cell, goal: Cell, o: Outcome) {
    && o.steps == |o.trace| && o.length == |o.finalPath| && o.score == Score(o.steps, o.length)
    && WalkBetween(truth, ByEdges, Trail(o.trace) + [goal], start, goal)
    && o.visited == Members(Trail(o.trace)) + {goal}
    && MindFits(o.mind, truth) && Observed(o.mind, truth, start, o.trace)
    && o.sealed == Sealed(o.mind, o.visited)
    && WalkBetween(o.sealed, ByEdges, o.finalPath, start, goal)
    && (forall q :: WalkBetween(o.sealed, ByEdges, q, start, goal) ==> |q| >= o.length)
    && (forall i :: 0 <= i < |o.finalPath| ==> o.finalPath[i] in o.visited)
    && o.length <= o.steps + 1
  }

  /** The trace's own walk, ending on the goal, keeps to the visited cells. */
  lemma TrailVisited(trace: seq<TraceEntry>, goal: Cell, visited: set<Cell>)
    requires visited == Members(Trail(trace)) + {goal}
    ensures forall i :: 0 <= i < |Trail(trace) + [goal]| ==> (Trail(trace) + [goal])[i] in visited
  {
    var w := Trail(trace) + [goal];
    forall i | 0 <= i < |w| ensures w[i] in visited {
      if i < |trace| {
        assert w[i] == Trail(trace)[i];
      }
    }
  }

  /** The trace's walk through the truth, ending on the goal, is also a walk of the sealed mind. */
  lemma TrailInSealed(truth: Maze, mind: Maze, trace: seq<TraceEntry>, start: Cell, goal: Cell, visited: set<Cell>)
    requires MindFits(mind, truth)
    requires WalkBetween(truth, ByEdges, Trail(trace) + [goal], start, goal)
    requires visited == Members(Trail(trace)) + {goal}
    ensures WalkBetween(Sealed(mind, visited), ByEdges, Trail(trace) + [goal], start, goal)
    ensures Reachable(Sealed(mind, visited), ByEdges, start, goal)
  {
    var walk := Trail(trace) + [goal];
    TrailVisited(trace, goal, visited);
    VisitedWalkIsSealedWalk(mind, truth, visited, walk);
    WalkEndInBall(Sealed(mind, visited), ByEdges, walk, start, goal, |walk| - 1);
  }

  /**
   * The part of `shortest_path` after `explore`: seal the unvisited cells of
   * `mind`, run `dijkstra` on it and put the start in front of its path.
   */
  method Finish(truth: Maze, start: Cell, goal: Cell, trace: seq<TraceEntry>, visited: set<Cell>, mind: Maze)
    returns (o: Outcome)
    requires MindFits(mind, truth) && InGrid(mind, start) && InGrid(mind, goal) && start != goal
    requires Observed(mind, truth, start, trace)
    requires WalkBetween(truth, ByEdges, Trail(trace) + [goal], start, goal)
    requires visited == Members(Trail(trace)) + {goal}
    ensures Reported(truth, start, goal, o)
    ensures o.trace == trace && o.visited == visited && o.mind == mind
  {
    var sealed := Sealed(mind, visited);
    TrailInSealed(truth, mind, trace, start, goal, visited);
    SealedWalls(mind, visited);
    var path := Dijkstra.Dijkstra(sealed, start, goal);
    var finalPath := [start] + path;
    SealedWalkStaysVisited(mind, visited, finalPath);
    o := Outcome(trace, finalPath, |trace|, |finalPath|, Score(|trace|, |finalPath|), mind, sealed, visited);
  }

  /**
   * `shortest_path(starting, goal)` as written. `fuel` bounds the
   * exploration, which the source runs without bound.
   */
  method ShortestPath(truth: Maze, heuristic: Option<map<Cell, real>>, start: Cell, goal: Cell, fuel: nat)
    returns (res: Result<Outcome, PathError>, ghost es: seq<Explorer>, ghost rs: seq<Runner>,
             ghost rows: seq<TraceEntry>)
    requires BoundarySegments(truth) && BiasCovers(truth, heuristic)
    requires InGrid(truth, start) && InGrid(truth, goal)
    ensures GreedyRun(truth, heuristic, start, goal, es, rs, rows)
    ensures res.Failure? && res.error.ExploreFailed? ==> RunFailed(goal, fuel, es, rs, rows, res.error.cause)
    ensures res == Failure(NoMindMaze) <==> start == goal
    ensures res.Success? ==>
      && res.value.trace == rows && goal !in Members(Trail(rows))
      && Perform(CreateRunner(start.x, start.y), Actions(rows)) == rs[|rows|] && Pos(rs[|rows|]) == goal
    ensures res.Success? ==> Reported(truth, start, goal, res.value)
    ensures res.Success? ==> res.value.mind == Recorded(truth, start, res.value.trace)
  {
    var ex;
    ex, es, rs, rows := Explore(truth, heuristic, start, goal, fuel);
    if ex.Failure? {
      res := Failure(ExploreFailed(ex.error));
      return;
    }
    var explored := ex.value;
    if explored.explorer.mind.None? {
      res := Failure(NoMindMaze);
      return;
    }
    var o := Finish(truth, start, goal, explored.trace, explored.explorer.visited, explored.explorer.mind.value);
    res := Success(o);
  }

  /**
   * The correction: before sealing, the runner stands on the start again
   * facing south and senses east, south and west, so the one side of a trace
   * cell that exploration never senses — the back of the start — is known.
   */
  function LookBack(truth: Maze, mind: Maze, start: Cell): (mind': Maze)
    requires MindFits(mind, truth) && BoundarySegments(truth) && InGrid(truth, start)
    ensures MindFits(mind', truth) && Grows(mind, mind')
    ensures SideKnown(mind', truth, start, S)
  {
    var back := CreateRunner(start.x, start.y, S);
    SensedStaysBelow(mind, truth, back);
    SensedSidesAgree(mind, truth, back);
    UpdateMaze(mind, back, SenseWalls(truth, back))
  }

  /** The mind agrees with the truth on all four sides of every trace cell. */
  ghost predicate FullyObserved(mind: Maze, truth: Maze, trace: seq<TraceEntry>) {
    forall i, d :: 0 <= i < |trace| ==> SideKnown(mind, truth, Trail(trace)[i], d)
  }

  /** A mind that knows every side of the trace cells knows the ones exploration observes. */
  lemma FullyObservedIsObserved(mind: Maze, truth: Maze, start: Cell, trace: seq<TraceEntry>)
    requires FullyObserved(mind, truth, trace)
    ensures Observed(mind, truth, start, trace)
  {
  }

  /** Looking back at the start completes what exploration observed. */
  lemma LookBackCompletes(truth: Maze, mind: Maze, start: Cell, trace: seq<TraceEntry>)
    requires MindFits(mind, truth) && BoundarySegments(truth) && InGrid(truth, start)
    requires Observed(mind, truth, start, trace)
    ensures FullyObserved(LookBack(truth, mind, start), truth, trace)
  {
    var mind' := LookBack(truth, mind, start);
    forall i, d | 0 <= i < |trace|
      ensures SideKnown(mind', truth, Trail(trace)[i], d)
    {
      if Trail(trace)[i] != start || d != S {
        KnownStaysKnown(mind, mind', truth, Trail(trace)[i], d);
      }
    }
  }

  /**
   * With every side of the trace cells known, a step of the sealed maze
   * between visited cells goes through an open side of the truth: from a
   * trace cell by that cell's own side, from the goal by the side of the
   * trace cell it enters.
   */
  lemma SealedStepIsTrue(truth: Maze, mind: Maze, trace: seq<TraceEntry>, goal: Cell, c: Cell, c': Cell)
    requires BoundarySegments(mind) && MindBelowTruth(mind, truth) && FullyObserved(mind, truth, trace)
    requires c in Members(Trail(trace)) + {goal} && c' in Members(Trail(trace)) + {goal}
    requires c' in Succ(Sealed(mind, Members(Trail(trace)) + {goal}), ByEdges, c)
    ensures c' in Succ(truth, ByEdges, c)
  {
    var visited := Members(Trail(trace)) + {goal};
    SealedWalls(mind, visited);
    var d := SuccElim(Sealed(mind, visited), ByEdges, c, c');
    if c in Members(Trail(trace)) {
      var i :| 0 <= i < |trace| && Trail(trace)[i] == c;
      assert SideKnown(mind, truth, Trail(trace)[i], d);
    } else {
      assert c' != c;
      var i :| 0 <= i < |trace| && Trail(trace)[i] == c';
      assert SideKnown(mind, truth, Trail(trace)[i], Opposite(d));
      SharedSegments(mind, c, d);
      SharedSegments(truth, c, d);
    }
    SuccIntro(truth, ByEdges, c, d);
  }

  /** A walk of the sealed maze on visited cells is then a walk through the truth. */
  lemma SealedWalkIsTrue(truth: Maze, mind: Maze, trace: seq<TraceEntry>, goal: Cell, visited: set<Cell>, p: seq<Cell>)
    requires BoundarySegments(mind) && MindBelowTruth(mind, truth) && FullyObserved(mind, truth, trace)
    requires visited == Members(Trail(trace)) + {goal}
    requires IsWalk(Sealed(mind, visited), ByEdges, p)
    requires forall i :: 0 <= i < |p| ==> p[i] in visited
    ensures IsWalk(truth, ByEdges, p)
  {
    forall i | 0 <= i < |p| - 1
      ensures p[i + 1] in Succ(truth, ByEdges, p[i])
    {
      SealedStepIsTrue(truth, mind, trace, goal, p[i], p[i + 1]);
    }
  }

  /** `Finish` on the mind after it looked back at the start: the final path is a walk of the truth. */
  method FinishLookingBack(truth: Maze, start: Cell, goal: Cell, trace: seq<TraceEntry>, visited: set<Cell>, mind: Maze)
    returns (o: Outcome)
    requires MindFits(mind, truth) && BoundarySegments(truth) && InGrid(truth, start) && InGrid(truth, goal)
    requires start != goal && Observed(mind, truth, start, trace)
    requires WalkBetween(truth, ByEdges, Trail(trace) + [goal], start, goal)
    requires visited == Members(Trail(trace)) + {goal}
    ensures Reported(truth, start, goal, o)
    ensures o.trace == trace && o.visited == visited && o.mind == LookBack(truth, mind, start)
    ensures IsWalk(truth, ByEdges, o.finalPath)
  {
    var mind' := LookBack(truth, mind, start);
    LookBackCompletes(truth, mind, start, trace);
    FullyObservedIsObserved(mind', truth, start, trace);
    o := Finish(truth, start, goal, trace, visited, mind');
    SealedWalkIsTrue(truth, mind', trace, goal, visited, o.finalPath);
  }

  /**
   * `shortest_path` with the correction: the mind looks back at the start
   * before sealing. Besides all that the original reports, the final path
   * now goes through open sides of the truth.
   */
  method ShortestPathLookingBack(truth: Maze, heuristic: Option<map<Cell, real>>, start: Cell, goal: Cell, fuel: nat)
    returns (res: Result<Outcome, PathError>, ghost es: seq<Explorer>, ghost rs: seq<Runner>,
             ghost rows: seq<TraceEntry>)
    requires BoundarySegments(truth) && BiasCovers(truth, heuristic)
    requires InGrid(truth, start) && InGrid(truth, goal)
    ensures GreedyRun(truth, heuristic, start, goal, es, rs, rows)
    ensures res.Failure? && res.error.ExploreFailed? ==> RunFailed(goal, fuel, es, rs, rows, res.error.cause)
    ensures res == Failure(NoMindMaze) <==> start == goal
    ensures res.Success? ==>
      && res.value.trace == rows && goal !in Members(Trail(rows))
      && Perform(CreateRunner(start.x, start.y), Actions(rows)) == rs[|rows|] && Pos(rs[|rows|]) == goal
    ensures res.Success? ==> Reported(truth, start, goal, res.value)
    ensures res.Success? ==>
      && MindFits(Recorded(truth, start, res.value.trace), truth)
      && res.value.mind == LookBack(truth, Recorded(truth, start, res.value.trace), start)
    ensures res.Success? ==> IsWalk(truth, ByEdges, res.value.finalPath)
  {
    var ex;
    ex, es, rs, rows := Explore(truth, heuristic, start, goal, fuel);
    if ex.Failure? {
      res := Failure(ExploreFailed(ex.error));
      return;
    }
    var explored := ex.value;
    if explored.explorer.mind.None? {
      res := Failure(NoMindMaze);
      return;
    }
    var o := FinishLookingBack(truth, start, goal, explored.trace, explored.explorer.visited, explored.explorer.mind.value);
    res := Success(o);
  }

  /** The segments of the open 2 by 2 maze, written out. */
  lemma OpenTwoByTwo()
    ensures NewMaze(2, 2).vWalls == {(0, 0), (0, 1), (2, 0), (2, 1)}
    ensures NewMaze(2, 2).hWalls == {(0, 0), (1, 0), (0, 2), (1, 2)}
  {
    OpenTwoByTwoColumns();
    OpenTwoByTwoRows();
  }

  lemma OpenTwoByTwoColumns()
    ensures NewMaze(2, 2).vWalls == {(0, 0), (0, 1), (2, 0), (2, 1)}
  {
    var vWalls := NewMaze(2, 2).vWalls;
    forall s | s in vWalls ensures s == (0, 0) || s == (0, 1) || s == (2, 0) || s == (2, 1) {
      assert s.1 == 0 || s.1 == 1;
    }
  }

  lemma OpenTwoByTwoRows()
    ensures NewMaze(2, 2).hWalls == {(0, 0), (1, 0), (0, 2), (1, 2)}
  {
    var hWalls := NewMaze(2, 2).hWalls;
    forall s | s in hWalls ensures s == (0, 0) || s == (1, 0) || s == (0, 2) || s == (1, 2) {
      assert s.0 == 0 || s.0 == 1;
    }
  }

  /** The truth of the counterexample: a 2 by 2 maze whose one interior wall lies between (1, 1) and (1, 0). */
  function CornerTruth(): (m: Maze)
    ensures m.width == 2 && m.height == 2
    ensures m.vWalls == {(0, 0), (0, 1), (2, 0), (2, 1)}
    ensures m.hWalls == {(0, 0), (1, 0), (0, 2), (1, 2), (1, 1)}
  {
    OpenTwoByTwo();
    var open := NewMaze(2, 2);
    open.(hWalls := open.hWalls + {(1, 1)})
  }

  /** The open 2 by 2 maze: the mind the run below keeps, since every wall it senses is a boundary wall. */
  function CornerMind(): (m: Maze)
    ensures m.width == 2 && m.height == 2
    ensures m.vWalls == {(0, 0), (0, 1), (2, 0), (2, 1)}
    ensures m.hWalls == {(0, 0), (1, 0), (0, 2), (1, 2)}
  {
    OpenTwoByTwo();
    NewMaze(2, 2)
  }

  /** Every cell of the maze. */
  function CornerVisited(): set<Cell> {
    {Cell(1, 1), Cell(0, 1), Cell(0, 0), Cell(1, 0)}
  }

  /** The rows of the run from (1, 1) to (1, 0): each turns left and goes forward. */
  function CornerTrace(): seq<TraceEntry> {
    [TraceEntry(1, 1, 1, "LF"), TraceEntry(2, 0, 1, "LF"), TraceEntry(3, 0, 0, "LF")]
  }

  /**
   * On each of the three cells the run leaves, the left side is the only
   * open one of the three the runner senses, in the truth and in the open
   * mind alike.
   */
  lemma CornerOnlyLeftIsOpen()
    ensures SenseWalls(CornerTruth(), Runner(1, 1, N)) == [false, true, true]
    ensures SenseWalls(CornerTruth(), Runner(0, 1, W)) == [false, true, true]
    ensures SenseWalls(CornerTruth(), Runner(0, 0, S)) == [false, true, true]
    ensures SenseWalls(CornerMind(), Runner(1, 1, N)) == [false, true, true]
    ensures SenseWalls(CornerMind(), Runner(0, 1, W)) == [false, true, true]
    ensures SenseWalls(CornerMind(), Runner(0, 0, S)) == [false, true, true]
  {
  }

  /**
   * When the runner senses in the truth only what the mind already holds,
   * recording it leaves the mind as it was, and the open left side puts the
   * left cell among `free_nodes`.
   */
  lemma SensedNothingNew(e: Explorer, r: Runner)
    requires Sound(e) && InGrid(e.truth, Pos(r))
    requires SenseWalls(e.truth, r) == SenseWalls(MindOf(e), r) == [false, true, true]
    ensures Sensed(e, r) == MindOf(e)
    ensures Neighbor(Pos(r), LeftOf(r.orientation)) in FreeNodes(e.truth, r)
  {
    MindOfFits(e);
    UpdateKnownUnchanged(MindOf(e), r);
    assert OrientationOptions(r.orientation)[0] == LeftOf(r.orientation);
  }

  /** In the open mind every cell of the run's path is reachable from the goal (1, 0) through open flags. */
  lemma CornerMindReaches(c: Cell)
    requires c == Cell(0, 1) || c == Cell(0, 0) || c == Cell(1, 0)
    ensures Reachable(CornerMind(), ByFlags, Cell(1, 0), c)
  {
    var m := CornerMind();
    var p := [Cell(1, 0), Cell(0, 0), Cell(0, 1)];
    assert Cell(1, 0) in m.flags && Cell(0, 0) in m.flags;
    assert InGrid(m, Neighbor(Cell(1, 0), W)) && InGrid(m, Neighbor(Cell(0, 0), N));
    SuccIntro(m, ByFlags, Cell(1, 0), W);
    SuccIntro(m, ByFlags, Cell(0, 0), N);
    var k := if c == Cell(0, 1) then 2 else if c == Cell(0, 0) then 1 else 0;
    assert WalkBetween(m, ByFlags, p[..k + 1], Cell(1, 0), c);
    WalkEndInBall(m, ByFlags, p[..k + 1], Cell(1, 0), c, k);
  }

  /**
   * A run of left turns: from each runner but the last only the left side
   * is open, in the truth and in the open mind alike, the left cell is
   * reachable from the goal in the open mind, and the next runner stands on
   * that cell facing that way.
   */
  ghost predicate LeftWalk(truth: Maze, mind: Maze, goal: Cell, rs: seq<Runner>) {
    forall i :: 0 <= i < |rs| - 1 ==> LeftAt(truth, mind, goal, rs, i)
  }

  /** The move from runner `i` of a run of left turns to runner `i + 1`. */
  ghost predicate LeftAt(truth: Maze, mind: Maze, goal: Cell, rs: seq<Runner>, i: nat)
    requires i + 1 < |rs|
  {
    && SenseWalls(truth, rs[i]) == SenseWalls(mind, rs[i]) == [false, true, true]
    && Reachable(mind, ByFlags, goal, Neighbor(Pos(rs[i]), LeftOf(rs[i].orientation)))
    && Pos(rs[i + 1]) == Neighbor(Pos(rs[i]), LeftOf(rs[i].orientation))
    && rs[i + 1].orientation == LeftOf(rs[i].orientation)
  }

  /** The rows `explore` writes leaving each of the runners `rs` with "LF". */
  function LeftRows(rs: seq<Runner>): (t: seq<TraceEntry>)
    ensures |t| == |rs|
    ensures forall i :: 0 <= i < |rs| ==> t[i] == TraceEntry(i + 1, rs[i].x, rs[i].y, "LF")
  {
    seq(|rs|, i requires 0 <= i < |rs| => TraceEntry(i + 1, rs[i].x, rs[i].y, "LF"))
  }

  /** The cells the runners `rs` stand on. */
  function Cells(rs: seq<Runner>): set<Cell> {
    set i | 0 <= i < |rs| :: Pos(rs[i])
  }

  /** Rows for one more runner extend the rows before it. */
  lemma LeftRowsStep(rs: seq<Runner>, k: nat)
    requires k < |rs|
    ensures LeftRows(rs[..k]) + [TraceEntry(k + 1, rs[k].x, rs[k].y, "LF")] == LeftRows(rs[..k + 1])
  {
  }

  /** The cells after a move from runner `k` to runner `k + 1`. */
  lemma CellsStep(rs: seq<Runner>, k: nat, v: set<Cell>)
    requires k + 1 < |rs| && (v == Cells(rs[..k]) || v == Cells(rs[..k + 1]))
    ensures v + {Pos(rs[k])} + {Pos(rs[k + 1])} == Cells(rs[..k + 2])
  {
    assert Cells(rs[..k + 1]) == Cells(rs[..k]) + {Pos(rs[k])};
    assert Cells(rs[..k + 2]) == Cells(rs[..k + 1]) + {Pos(rs[k + 1])};
  }

  /** Where `explore` stands after `k` moves along a run of left turns. */
  ghost predicate LeftWalkAt(truth: Maze, start: Cell, mind: Maze, rs: seq<Runner>, k: nat, x: Explored) {
    && k < |rs|
    && x.trace == LeftRows(rs[..k]) && x.steps == k && x.runner == rs[k]
    && (k == 0 ==> x.explorer == Explorer(truth, None, map[], {}, None))
    && (k > 0 ==> x.explorer.mind == Some(mind) && x.explorer.visited == Cells(rs[..k + 1]))
    && ExploreInvariant(truth, None, start, x.explorer, x.runner, x.trace)
    && ObservedState(truth, start, x.explorer, x.runner, x.trace)
  }

  /** One pass of `explore`'s loop along a run of left turns. */
  method ExploreLeftNext(truth: Maze, start: Cell, goal: Cell, mind: Maze, rs: seq<Runner>, k: nat, x: Explored)
    returns (x': Explored)
    requires InGrid(truth, goal) && mind == NewMaze(truth.width, truth.height)
    requires LeftWalk(truth, mind, goal, rs) && k + 1 < |rs|
    requires LeftWalkAt(truth, start, mind, rs, k, x)
    ensures LeftWalkAt(truth, start, mind, rs, k + 1, x')
  {
    assert MindOf(x.explorer) == mind && LeftAt(truth, mind, goal, rs, k);
    x' := ExploreLeft(truth, start, goal, x.explorer, x.runner, x.trace, rs[k + 1]);
    LeftRowsStep(rs, k);
    CellsStep(rs, k, x.explorer.visited);
  }

  /**
   * `explore`'s loop along a run of left turns, from the runner it creates
   * at the start to the last runner of the run: each pass writes "LF", and
   * the mind stays the open maze.
   */
  method ExploreLeftWalk(truth: Maze, start: Cell, goal: Cell, mind: Maze, rs: seq<Runner>) returns (x: Explored)
    requires BoundarySegments(truth) && InGrid(truth, start) && InGrid(truth, goal)
    requires mind == NewMaze(truth.width, truth.height)
    requires 2 <= |rs| && rs[0] == CreateRunner(start.x, start.y)
    requires LeftWalk(truth, mind, goal, rs)
    ensures LeftWalkAt(truth, start, mind, rs, |rs| - 1, x)
  {
    ExploreStart(truth, None, start);
    x := Explored(Explorer(truth, None, map[], {}, None), rs[0], [], 0);
    var k := 0;
    while k < |rs| - 1
      invariant k <= |rs| - 1
      invariant LeftWalkAt(truth, start, mind, rs, k, x)
    {
      x := ExploreLeftNext(truth, start, goal, mind, rs, k, x);
      k := k + 1;
    }
  }

  /** At the last runner of the run, its rows are all but that runner's and its cells are all. */
  lemma LeftWalkDone(truth: Maze, start: Cell, mind: Maze, rs: seq<Runner>, x: Explored)
    requires 2 <= |rs| && LeftWalkAt(truth, start, mind, rs, |rs| - 1, x)
    ensures x.trace == LeftRows(rs[..|rs| - 1]) && x.steps == |rs| - 1 && x.runner == rs[|rs| - 1]
    ensures x.explorer.mind == Some(mind) && x.explorer.visited == Cells(rs)
  {
    assert rs[..|rs|] == rs;
  }

  /** The runners of the counterexample's run, the goal's last. */
  function CornerRunners(): seq<Runner> {
    [Runner(1, 1, N), Runner(0, 1, W), Runner(0, 0, S), Runner(1, 0, E)]
  }

  /** The counterexample's run is a run of left turns towards (1, 0). */
  lemma CornerLeftWalk()
    ensures LeftWalk(CornerTruth(), CornerMind(), Cell(1, 0), CornerRunners())
  {
    forall i | 0 <= i < |CornerRunners()| - 1
      ensures LeftAt(CornerTruth(), CornerMind(), Cell(1, 0), CornerRunners(), i)
    {
      CornerLeftAt(i);
    }
  }

  /** Each of its three moves turns left into an open side. */
  lemma CornerLeftAt(i: nat)
    requires i < 3
    ensures LeftAt(CornerTruth(), CornerMind(), Cell(1, 0), CornerRunners(), i)
  {
    var r := CornerRunners()[i];
    CornerOnlyLeftIsOpen();
    CornerMindReaches(Neighbor(Pos(r), LeftOf(r.orientation)));
  }

  /** Its rows are the counterexample's trace, and it stands on every cell. */
  lemma CornerRowsAndCells()
    ensures LeftRows(CornerRunners()[..3]) == CornerTrace()
    ensures Cells(CornerRunners()) == CornerVisited()
  {
    var rs := CornerRunners();
    forall c ensures c in Cells(rs) <==> c in CornerVisited() {
      if c in Cells(rs) {
        var i :| 0 <= i < |rs| && Pos(rs[i]) == c;
      }
      if c in CornerVisited() {
        assert c == Pos(rs[0]) || c == Pos(rs[1]) || c == Pos(rs[2]) || c == Pos(rs[3]);
      }
    }
  }

  /**
   * A `move` whose only sensed-open side is the left one, with the left
   * cell reachable in the recorded mind, writes "LF" and steps left.
   */
  lemma LeftOnlyMove(e: Explorer, r: Runner, goal: Cell, e': Explorer, step: Step)
    requires Moved(e, r, goal, e', step)
    requires SenseWalls(e.truth, r) == [false, true, true]
    requires Reachable(Sensed(e, r), ByFlags, goal, Neighbor(Pos(r), LeftOf(r.orientation)))
    requires Neighbor(Pos(r), LeftOf(r.orientation)) in FreeNodes(e.truth, r)
    ensures step.runner.orientation == LeftOf(r.orientation)
    ensures Pos(step.runner) == Neighbor(Pos(r), LeftOf(r.orientation))
    ensures step.action == "LF"
  {
    assert Candidate(e.truth, e'.flood, r, Neighbor(Pos(r), LeftOf(r.orientation)));
    LeftOnlyChoice(e.truth, e'.flood, r, step);
  }

  /** With the left cell a candidate and the other two sides walled, the cheapest candidate is the left cell. */
  lemma LeftOnlyChoice(truth: Maze, flood: map<Cell, real>, r: Runner, step: Step)
    requires SenseWalls(truth, r) == [false, true, true]
    requires Candidate(truth, flood, r, Neighbor(Pos(r), LeftOf(r.orientation)))
    requires HasCandidate(truth, flood, r) ==>
      && Cheapest(truth, flood, r, Pos(step.runner))
      && step.action == TurnsFor(r.orientation, step.runner.orientation) + "F"
    requires Pos(step.runner) == Neighbor(Pos(r), step.runner.orientation)
    ensures step.runner.orientation == LeftOf(r.orientation)
    ensures Pos(step.runner) == Neighbor(Pos(r), LeftOf(r.orientation))
    ensures step.action == "LF"
  {
    var o := r.orientation;
    var side := TargetSide(truth, r, Pos(step.runner));
    assert side == LeftOf(o);
    NeighborInjective(Pos(r), side, step.runner.orientation);
    SideTurns(o);
  }

  /** An explored run that ended on the goal after at least one move gives `Finish` what it needs. */
  lemma ExploredReady(truth: Maze, start: Cell, goal: Cell, x: Explored)
    requires ExploreInvariant(truth, None, start, x.explorer, x.runner, x.trace)
    requires ObservedState(truth, start, x.explorer, x.runner, x.trace)
    requires Pos(x.runner) == goal && x.trace != []
    ensures x.explorer.mind.Some? && MindFits(x.explorer.mind.value, truth)
    ensures WalkBetween(truth, ByEdges, Trail(x.trace) + [goal], start, goal)
    ensures x.explorer.visited == Members(Trail(x.trace)) + {goal}
    ensures Observed(x.explorer.mind.value, truth, start, x.trace)
  {
  }

  /** The run visits every cell of the grid. */
  lemma CornerVisitsAll()
    ensures Grid(2, 2) <= CornerVisited()
  {
    forall c | c in Grid(2, 2) ensures c in CornerVisited() {
      assert c.x == 0 || c.x == 1;
      assert c.y == 0 || c.y == 1;
    }
  }

  /** An open side gives the one-step walk through it. */
  lemma OpenSideStep(m: Maze, c: Cell, d: Dir, c': Cell)
    requires !GetWalls(m, c).Get(d) && Neighbor(c, d) == c'
    ensures WalkBetween(m, ByEdges, [c, c'], c, c')
  {
    SuccIntro(m, ByEdges, c, d);
  }

  /** The truth has no open side from (1, 1) to (1, 0). */
  lemma CornerWallBlocks()
    ensures Cell(1, 0) !in Succ(CornerTruth(), ByEdges, Cell(1, 1))
  {
    var truth := CornerTruth();
    forall i | 0 <= i < |Orientations| && Neighbor(Cell(1, 1), Orientations[i]) == Cell(1, 0)
      ensures !Open(truth, ByEdges, Cell(1, 1), Orientations[i])
    {
      assert Orientations[i] == S;
    }
  }

  /** No walk of the sealed maze between the ends undercuts the reported final path. */
  lemma ReportedShortest(truth: Maze, start: Cell, goal: Cell, o: Outcome, q: seq<Cell>)
    requires Reported(truth, start, goal, o) && WalkBetween(o.sealed, ByEdges, q, start, goal)
    ensures |o.finalPath| <= |q|
  {
  }

  /**
   * When the start and the goal are neighbours and the sealed mind leaves
   * open the side between them that the truth walls, the reported final
   * path is the one step through that wall.
   */
  lemma CrossesUnsensedWall(truth: Maze, start: Cell, goal: Cell, o: Outcome, d: Dir)
    requires Reported(truth, start, goal, o) && start != goal && Neighbor(start, d) == goal
    requires !GetWalls(o.sealed, start).Get(d) && GetWalls(truth, start).Get(d)
    ensures o.finalPath == [start, goal]
    ensures !IsWalk(truth, ByEdges, o.finalPath)
  {
    OpenSideStep(o.sealed, start, d, goal);
    ReportedShortest(truth, start, goal, o, [start, goal]);
    OneStepWalk(o.sealed, o.finalPath, start, goal);
    forall i | 0 <= i < |Orientations| && Neighbor(start, Orientations[i]) == goal
      ensures !Open(truth, ByEdges, start, Orientations[i])
    {
      assert Orientations[i] == d;
    }
  }

  /** An exploration that visits every grid cell seals nothing: the sealed maze has exactly the mind's walls. */
  lemma FullVisitSealsNothing(mind: Maze, visited: set<Cell>)
    requires BoundarySegments(mind) && Grid(mind.width, mind.height) <= visited
    ensures forall c, d :: GetWalls(Sealed(mind, visited), c).Get(d) == GetWalls(mind, c).Get(d)
  {
    SealedWalls(mind, visited);
  }

  /** A walk of at most two cells between two different cells is the one step between them. */
  lemma OneStepWalk(m: Maze, q: seq<Cell>, src: Cell, dst: Cell)
    requires WalkBetween(m, ByEdges, q, src, dst) && |q| <= 2 && src != dst
    ensures q == [src, dst]
  {
  }

  /**
   * One pass of `explore`'s loop where only the left side is open and the
   * runner senses nothing the mind does not already hold: `move` writes
   * "LF", steps left and leaves the mind as it was.
   */
  method ExploreLeft(truth: Maze, start: Cell, goal: Cell, e: Explorer, runner: Runner, trace: seq<TraceEntry>,
                     next: Runner)
    returns (x: Explored)
    requires ExploreInvariant(truth, None, start, e, runner, trace) && InGrid(truth, goal)
    requires ObservedState(truth, start, e, runner, trace)
    requires SenseWalls(truth, runner) == SenseWalls(MindOf(e), runner) == [false, true, true]
    requires Reachable(MindOf(e), ByFlags, goal, Neighbor(Pos(runner), LeftOf(runner.orientation)))
    requires Pos(next) == Neighbor(Pos(runner), LeftOf(runner.orientation)) && next.orientation == LeftOf(runner.orientation)
    ensures x.runner == next
    ensures x.trace == trace + [TraceEntry(|trace| + 1, runner.x, runner.y, "LF")] && x.steps == |trace| + 1
    ensures x.explorer.mind == Some(MindOf(e))
    ensures x.explorer.visited == e.visited + {Pos(runner)} + {Pos(next)}
    ensures ExploreInvariant(truth, None, start, x.explorer, x.runner, x.trace)
    ensures ObservedState(truth, start, x.explorer, x.runner, x.trace)
  {
    SensedNothingNew(e, runner);
    var res := ExploreStep(truth, None, start, goal, e, runner, trace);
    if res.Failure? {
      assert false;
    }
    x := res.value;
    LeftOnlyMove(e, runner, goal, x.explorer, Step(x.runner, x.trace[|trace|].action));
  }

  /**
   * `explore` on the counterexample: from (1, 1) facing N
   * the runner goes "LF" to (0, 1), "LF" to (0, 0) and "LF" to the goal
   * (1, 0), where the loop stops. The mind it ends with is the open 2 by 2
   * maze, and every cell is visited.
   */
  method CornerRun() returns (x: Explored)
    ensures x.trace == CornerTrace() && x.steps == 3 && x.runner == Runner(1, 0, E)
    ensures x.explorer.mind == Some(CornerMind()) && x.explorer.visited == CornerVisited()
    ensures ExploreInvariant(CornerTruth(), None, Cell(1, 1), x.explorer, x.runner, x.trace)
    ensures ObservedState(CornerTruth(), Cell(1, 1), x.explorer, x.runner, x.trace)
  {
    CornerLeftWalk();
    CornerRowsAndCells();
    x := ExploreLeftWalk(CornerTruth(), Cell(1, 1), Cell(1, 0), CornerMind(), CornerRunners());
    LeftWalkDone(CornerTruth(), Cell(1, 1), CornerMind(), CornerRunners(), x);
  }

  /**
   * The finding, as written: after that run `shortest_path` reports the
   * two-cell path from (1, 1) straight down to (1, 0), through the wall the
   * runner never sensed.
   */
  method AsWrittenCrossesWall() returns (o: Outcome)
    ensures Reported(CornerTruth(), Cell(1, 1), Cell(1, 0), o)
    ensures o.trace == CornerTrace() && o.mind == CornerMind()
    ensures o.finalPath == [Cell(1, 1), Cell(1, 0)]
    ensures !IsWalk(CornerTruth(), ByEdges, o.finalPath)
  {
    var truth, start, goal := CornerTruth(), Cell(1, 1), Cell(1, 0);
    var x := CornerRun();
    ExploredReady(truth, start, goal, x);
    o := Finish(truth, start, goal, x.trace, x.explorer.visited, x.explorer.mind.value);
    CornerVisitsAll();
    FullVisitSealsNothing(CornerMind(), CornerVisited());
    CrossesUnsensedWall(truth, start, goal, o, S);
  }

  /** The correction on the same run: the final path walks the truth, so it is not the step through the wall. */
  method CorrectedKeepsToTruth() returns (o: Outcome)
    ensures Reported(CornerTruth(), Cell(1, 1), Cell(1, 0), o)
    ensures o.trace == CornerTrace()
    ensures IsWalk(CornerTruth(), ByEdges, o.finalPath)
    ensures o.finalPath != [Cell(1, 1), Cell(1, 0)]
  {
    var truth, start, goal := CornerTruth(), Cell(1, 1), Cell(1, 0);
    var x := CornerRun();
    ExploredReady(truth, start, goal, x);
    o := FinishLookingBack(truth, start, goal, x.trace, x.explorer.visited, x.explorer.mind.value);
    CornerWallBlocks();
  }
}

=== FILE: wrappers.dfy ===
/** Failure-compatible result types shared by the maze modules. */
module Wrappers {

  /** A value that may be absent: Python's `None` versus a present value. */
  datatype Option<+T> = None | Some(value: T)

  /** The outcome of an operation that raises in the original program. */
  datatype Result<+T, +E> = Success(value: T) | Failure(error: E)
}
